=== FILE: README.md ===
# Amazon SMBHV logistics app — Dafny model of the core

This project models the deterministic core of a React logistics front end for
small exporters. It covers four parts.

- **Compliance validator.** A country table, the missing-document check, and the
  document-template and customs-form URL builders with their shared slug.
- **In-memory mock stores.** The shipments store (find, create with
  zero-padded sequential ids, status updates that append to a timeline,
  customs update, delete) and the orders store (find, status update, create).
- **React contexts.** The list updates the shipments and inventory contexts
  apply after a successful API call, and their fetch state.
- **Pure helpers inside the pages.**
  - The search and status filters, the sort comparators and the sort-toggle
    state machines of the Inventory page, the Shipments page and the
    Dashboard shipment table.
  - The stock classifier.
  - The submitted-flag toggle on the Documents page.
  - The upload list and drag flag on the document-upload page.
  - The mock phrase translator and language detector.

Stores are immutable sequences, and every operation is a pure function. An
operation that can fail returns a `Result`. A key that a JavaScript object
literal may omit becomes an `Option`. `Array.prototype.sort` is modelled as a
stable insertion sort (`Sorting.Sort`). For a consistent comparator every
stable sort gives the same answer. The clock (`Date.now()`, today's date) and
the answers of HTTP calls the code cannot see are parameters. Strings are
sequences of Unicode scalar values; JavaScript strings are sequences of UTF-16
code units, and the two agree on text below U+10000. Subtracting two strings
converts them with `Number` (`Text.ToNumber`). `toLowerCase`/`toUpperCase` act on ASCII
letters only, and `\s` is the exact JavaScript whitespace and line-terminator
set.

Modules:
- **Shared:**
  - `Results` (Option/Result);
  - `Text` (case, substring search, decimal digits, `padStart`, JavaScript
    string `<`);
  - `Lists` (filter, replace-where, first index, remove-at, subsequence);
  - `Sorting` (the sort and its permutation, sortedness, stability and
    comparator-agreement lemmas);
  - `JsObjects` (the names every plain object inherits);
  - `SortControls`;
  - `ContextState`.
- **One module per source file:** `Compliance`, `ShipmentsApi`, `OrdersApi`,
  `ShipmentsContext`, `InventoryContext`, `Communication`, `InventoryPage`,
  `ShipmentsPage`, `DashboardTable`, `DocumentsPage`, `DocumentUploadPage`.

The `customerName || 'Unknown Customer'` default reads as if any falsy name
becomes "Unknown Customer". `createShipment` spreads `shipmentData` after its
defaults, though, so a given empty name survives. The model follows the code:
`ShipmentsApi.CreateShipmentAsWritten` keeps the empty name, and the finding
below records the difference.

## Model

| member | source | states |
|---|---|---|
| Compliance.LookupCountry | src/utils/complianceUtils.js:2-13 | only "US" and "EU" are own keys of the country table; every other name, including inherited ones, finds no own entry |
| Compliance.RequiredDocs | src/utils/complianceUtils.js:25 | the US and EU entries give their own required lists; every other name, inherited ones included, gives `[]` |
| Compliance.Restrictions | src/utils/complianceUtils.js:32 | the US and EU entries give their own restrictions; every other name gives `[]` |
| Compliance.CustomsFormNames | src/utils/complianceUtils.js:38-41 | the US and EU entries give their own customs forms; every other name gives `[]` |
| Compliance.RequiredDocsDistinct | src/utils/complianceUtils.js:2-13 | no country of the table lists a required document twice |
| Compliance.Dedup | src/utils/complianceUtils.js:28 | `[...new Set(xs)]` has no duplicates and the same members as `xs` |
| Compliance.DedupOfDistinct | src/utils/complianceUtils.js:28 | on a list without duplicates the Set round trip is the identity |
| Compliance.ValidateCompliance | src/utils/complianceUtils.js:24-34 | `compliant` holds exactly when nothing is missing; a document is missing iff it is required and no submitted document has that type; missing has no duplicates; restrictions are the country's |
| Compliance.MissingInTableOrder | src/utils/complianceUtils.js:25-28 | the missing documents appear in the table's required order (a subsequence of `requiredDocs`) |
| Compliance.DedupRequired | src/utils/complianceUtils.js:25-28 | deduplicating a table entry's required list leaves it unchanged |
| Compliance.UnknownCountryPasses | src/utils/complianceUtils.js:24-34 | any country other than US and EU is compliant with nothing missing and no restrictions, whatever was submitted |
| Compliance.OnlyTypesMatter | src/utils/complianceUtils.js:26-28 | two document lists with the same set of types give the same report |
| Compliance.SameDocumentsSameReport | src/utils/complianceUtils.js:26-28 | reordering or duplicating the submitted documents does not change the report |
| Compliance.MoreDocumentsNeverMissMore | src/utils/complianceUtils.js:26-28 | after submitting more documents, the missing list is a subsequence of the earlier one |
| Compliance.RestrictionsIgnoreDocuments | src/utils/complianceUtils.js:32 | restrictions do not depend on the documents and equal the US or EU table entry |
| Compliance.UnitedStatesScenario | src/utils/complianceUtils.js:3-7 | with only a commercial invoice, US reports the other three documents missing, in table order, and is not compliant |
| Compliance.UnitedStatesTable | src/utils/complianceUtils.js:3-7 | the US lookup yields the table's required list, which is already duplicate-free |
| Compliance.InvoiceOnlyFilter | src/utils/complianceUtils.js:28 | filtering the US list by "not the commercial invoice" keeps the other three in order |
| Compliance.UnitedStatesScenarioCompleted | src/utils/complianceUtils.js:24-34 | submitting all four US documents makes the report compliant |
| Text.TrimStart | src/utils/complianceUtils.js:18 | skipping a whitespace run removes at least its first character and stops at a non-space |
| Compliance.CollapseSpaces | src/utils/complianceUtils.js:18 | `replace(/\s+/g, '-')` leaves no whitespace character |
| Compliance.CollapseRun | src/utils/complianceUtils.js:18 | a whitespace run of any length and kind after a space-free prefix becomes exactly one `-`, and the rest is collapsed on its own |
| Compliance.TrimStartKeepsLower | src/utils/complianceUtils.js:18 | skipping whitespace keeps a string free of ASCII capitals |
| Compliance.CollapseKeepsLower | src/utils/complianceUtils.js:18 | replacing whitespace runs keeps a string free of ASCII capitals |
| Compliance.Slug | src/utils/complianceUtils.js:18 | the slug has no whitespace and no ASCII capital letter |
| Compliance.CollapseWithoutSpaces | src/utils/complianceUtils.js:18 | a string without whitespace passes the run replacement unchanged |
| Compliance.SlugIdempotent | src/utils/complianceUtils.js:18 | slugging twice equals slugging once |
| Compliance.CollapseJoin | src/utils/complianceUtils.js:18 | two space-free words joined by one space become the words joined by `-` |
| Compliance.CollapseLeadingSpace | src/utils/complianceUtils.js:18 | a single leading space before a space-free word becomes `-` |
| Compliance.CollapsePrefix | src/utils/complianceUtils.js:18 | a space-free prefix passes through the replacement untouched |
| Compliance.SlugExample | src/utils/complianceUtils.js:18 | "Packing List" slugs to "packing-list" |
| Compliance.DocumentTemplates | src/utils/complianceUtils.js:15-22 | one template per required document, in order, the name unchanged and the URL the template base plus the slug; an unknown country gives `[]` |
| Compliance.DocumentTemplatesAsWritten | src/utils/complianceUtils.js:15-22 | the code as written throws exactly on a country name inherited from `Object.prototype` |
| Compliance.TemplatesAgreeOffPrototype | src/utils/complianceUtils.js:15-22 | for every other name the code as written gives the corrected templates |
| Compliance.TemplatesThrowOnInheritedName | src/utils/complianceUtils.js:16-17 | `getDocumentTemplates("toString")` throws where `[]` was meant |
| Compliance.TemplatesCoverMissingDocs | src/utils/complianceUtils.js:15-28 | with nothing submitted, the i-th missing document is the i-th template's name, and the two lists have equal length |
| Compliance.NothingSubmittedMissesAll | src/utils/complianceUtils.js:25-28 | with nothing submitted, every required document is missing, in table order |
| Compliance.TemplateNames | src/utils/complianceUtils.js:17-20 | the template map keeps length and the i-th name is the i-th document |
| Compliance.GenerateCustomsForms | src/utils/complianceUtils.js:36-44 | one form per customs-form entry of the destination, in order; each URL is the prefix, the order id, `/`, then the slug; an unknown destination gives `[]` |
| Compliance.GenerateCustomsFormsAsWritten | src/utils/complianceUtils.js:36-44 | the code as written throws exactly on a destination inherited from `Object.prototype` |
| Compliance.FormsAgreeOffPrototype | src/utils/complianceUtils.js:36-44 | for every other destination the code as written gives the corrected forms |
| ShipmentsApi.ShipmentId | src/api/shipments.js:70-71 | the generated id; its shape is stated by ShipmentIdShape |
| ShipmentsApi.NewShipmentAsWritten | src/api/shipments.js:69-84 | the defaults object followed by the spread of the given data; its properties are stated by CreateShipmentAsWritten and CreateShipment |
| ShipmentsApi.ShipmentIdShape | src/api/shipments.js:70-71 | a generated id is "SHP" plus at least three digits that read back as the sequence number |
| ShipmentsApi.ShipmentIdInjective | src/api/shipments.js:70-71 | two sequence numbers give the same id iff they are equal |
| ShipmentsApi.ShipmentIdSingleDigit | src/api/shipments.js:70-71 | numbers 1 to 9 give "SHP00" and the digit |
| ShipmentsApi.Position | src/api/shipments.js:59 | `find(s => s.id === id)` picks the first record with that id, and finds none exactly when no record has it |
| ShipmentsApi.GetShipmentById | src/api/shipments.js:57-64 | succeeds iff some record has the id, returning the first such record; otherwise fails with "Shipment not found" |
| ShipmentsApi.NameOrUnknown | src/api/shipments.js:75 | the `customerName` fallback to "Unknown Customer" is never empty and keeps a non-empty given name |
| ShipmentsApi.ValueOrZero | src/api/shipments.js:76 | the `customsValue` fallback to 0 keeps a given number and defaults to 0 |
| ShipmentsApi.CreateShipmentAsWritten | src/api/shipments.js:67-88 | appends one record; its name is empty exactly when an empty name was given |
| ShipmentsApi.CreateShipment | src/api/shipments.js:67-88 | appends exactly one record, earlier records unchanged; id and shipmentId are SHP plus the old length + 1 unless given; status and customs status default to Pending, the name is never empty, value defaults to 0, and the timeline is one "Order Placed" entry at the origin; every modelled field the caller gives wins, a non-empty name included, and origin, destination and estimated delivery are copied |
| ShipmentsApi.CreateAgreesUnlessNameEmpty | src/api/shipments.js:75-84 | the code as written and the corrected create agree unless the given name is empty |
| ShipmentsApi.EmptyNameKeptAsWritten | src/api/shipments.js:75-84 | a given empty name survives the spread, where "Unknown Customer" was meant |
| ShipmentsApi.CreatedIdsAgree | src/api/shipments.js:70-71 | without overrides, the new record's id and shipmentId are equal |
| ShipmentsApi.CreateThenGet | src/api/shipments.js:57-88 | a created record with a fresh id is what a lookup of its id returns |
| ShipmentsApi.UpdateShipmentStatus | src/api/shipments.js:91-104 | succeeds iff the id is found; only the first matching record changes; it takes the status and gains exactly one timeline entry with that status at its destination, after the old entries; an unknown id fails |
| ShipmentsApi.UpdateCustomsStatus | src/api/shipments.js:107-115 | succeeds iff the id is found; only the matched record's customs status changes, and its timeline stays; an unknown id fails |
| ShipmentsApi.UpdateThenGet | src/api/shipments.js:91-104 | after a status update, a lookup of the id returns the updated record |
| ShipmentsApi.UpdateTwiceAppendsInOrder | src/api/shipments.js:91-104 | two status updates append their two entries in call order |
| ShipmentsApi.DeleteShipment | src/api/shipments.js:118-126 | succeeds iff the id is found; removes exactly the first matching record and keeps the others in order; an unknown id fails |
| ShipmentsApi.DeleteDropsOneRecord | src/api/shipments.js:118-126 | one record with the deleted id goes, and records with any other id are untouched |
| ShipmentsApi.CreateKeepsNumbered | src/api/shipments.js:67-88 | creating without an id keeps "record i has id SHP(i+1)" |
| ShipmentsApi.NumberedIdsDistinct | src/api/shipments.js:70 | in such a numbered store no two records share an id |
| ShipmentsApi.DeleteThenCreateReusesId | src/api/shipments.js:67-126 | deleting SHP001 from a numbered store and then creating gives two records with the same id |
| ShipmentsApi.MockShipmentsNumbered | src/api/shipments.js:2-37 | the starting store is numbered |
| ShipmentsApi.MockDeleteThenCreate | src/api/shipments.js:2-37 | on the starting store, deleting SHP001 and then creating leaves two records both called SHP002 |
| OrdersApi.OrderId | src/api/orders.js:33 | the generated order id; its shape is stated by OrderIdShape |
| OrdersApi.OrderIdShape | src/api/orders.js:33 | a generated order id is "ORD-" plus at least three digits that read back as the sequence number |
| OrdersApi.OrderIdInjective | src/api/orders.js:33 | two sequence numbers give the same order id iff they are equal |
| OrdersApi.OrderIdSingleDigit | src/api/orders.js:33 | numbers 1 to 9 give "ORD-00" and the digit |
| OrdersApi.Position | src/api/orders.js:15 | the first order with the id, or none exactly when no order has it |
| OrdersApi.GetOrderById | src/api/orders.js:13-18 | succeeds iff some order has the id, returning the first order in the store with that id; otherwise "Order not found" |
| OrdersApi.UpdateOrderStatus | src/api/orders.js:21-27 | succeeds iff the id is found; only the matched order's status changes; a miss fails |
| OrdersApi.CreateOrder | src/api/orders.js:30-40 | appends exactly one order; id "ORD-" plus the padded old length + 1, today's date and Pending, each unless given, and a given id, date or status wins; the six modelled order keys are copied |
| OrdersApi.CreateKeepsNumbered | src/api/orders.js:30-40 | creating without an id keeps "order i has id ORD-(i+1)" |
| OrdersApi.UpdateKeepsNumbered | src/api/orders.js:21-27 | a status update keeps the store numbered |
| OrdersApi.NumberedIdsDistinct | src/api/orders.js:33 | in a numbered store no two orders share an id |
| OrdersApi.NumberedGetFindsEach | src/api/orders.js:13-18 | in a numbered store, looking up ORD-(i+1) returns order i |
| OrdersApi.MockOrdersNumbered | src/data/mockOrders.js:1-72 | the five starting orders are ORD-001 to ORD-005 |
| OrdersApi.TwoCreatesNumbered | src/api/orders.js:30-40 | two creates without an id on a numbered store take the next two numbers and keep every id distinct |
| OrdersApi.MockCreatesContinueNumbering | src/api/orders.js:33 | from the starting store, two creates yield ORD-006 and ORD-007, and no id collides |
| OrdersApi.MockOrderTotalsAddUp | src/data/mockOrders.js:1-72 | each starting order's total is the sum of quantity times price over its items |
| ContextState.Fetch | src/contexts/ShipmentsContext.jsx:19-31 | loading ends false; a success replaces the list and clears the error; a failure keeps the list and records the message |
| ContextState.Failing | src/contexts/ShipmentsContext.jsx:19-31 | failed fetches keep the list and leave the error set and loading false |
| ContextState.SuccessErasesFailures | src/contexts/ShipmentsContext.jsx:19-31 | a success after any run of failures leaves exactly the state the success alone leaves |
| ContextState.FetchIdempotent | src/contexts/ShipmentsContext.jsx:19-31 | fetching twice with the same answer is fetching once |
| ShipmentsContext.FetchShipments | src/contexts/ShipmentsContext.jsx:19-31 | loading ends false; success replaces the list and clears the error; failure keeps it with "Failed to fetch shipments" |
| ShipmentsContext.FetchShowsStore | src/contexts/ShipmentsContext.jsx:19-31 | fetching from the mock store shows exactly the store |
| ShipmentsContext.CallUpdate | src/contexts/ShipmentsContext.jsx:45-58 | a member name the API module does not export fails; the two update members succeed iff the id is found |
| ShipmentsContext.ApplyUpdate | src/contexts/ShipmentsContext.jsx:43-67 | on failure the list and store stay and the error is rethrown; on success the length is kept, every entry with the shipmentId becomes the returned record, and the others stay |
| ShipmentsContext.UpdateShipmentStatus | src/contexts/ShipmentsContext.jsx:43-54 | succeeds iff the API finds the id; a failure changes nothing and carries "Shipment not found"; a success returns the new status and keeps the length |
| ShipmentsContext.UpdateCustomsClearanceAsWritten | src/contexts/ShipmentsContext.jsx:56-67 | every call fails and neither the list nor the store changes |
| ShipmentsContext.UpdateCustomsClearance | src/contexts/ShipmentsContext.jsx:56-67 | calling the exported customs update succeeds iff the id is found, and sets the customs status of the stored and the listed records |
| ShipmentsContext.CustomsClearanceAlwaysThrows | src/api/shipments.js:134-142 | the member the context calls is not exported, so for a known id the written call fails where the corrected one succeeds |
| ShipmentsContext.UpdateKeepsMirror | src/contexts/ShipmentsContext.jsx:47 | when each record's shipmentId equals its id and ids are unique, the list keeps showing the store after any update |
| ShipmentsContext.RepeatedIdBreaksMirror | src/contexts/ShipmentsContext.jsx:47 | with two records sharing an id, the store updates only the first while the list replaces both |
| InventoryContext.FetchInventory | src/contexts/InventoryContext.jsx:19-31 | loading ends false; success replaces the list and clears the error; failure keeps it with "Failed to fetch inventory" |
| InventoryContext.AddProduct | src/contexts/InventoryContext.jsx:33-42 | a failure changes nothing; a success appends the returned product and keeps the earlier items |
| InventoryContext.UpdateProduct | src/contexts/InventoryContext.jsx:44-55 | a failure changes nothing; the length is kept, every item with the sku becomes the returned product, and the others stay in place |
| InventoryContext.DeleteProduct | src/contexts/InventoryContext.jsx:57-65 | a failure changes nothing; a success keeps the items with another sku in order, each as often as before, and drops every item with the sku |
| InventoryContext.DeleteAbsentIsNoOp | src/contexts/InventoryContext.jsx:60 | deleting a sku no item has changes nothing |
| InventoryContext.DeleteIdempotent | src/contexts/InventoryContext.jsx:60 | deleting the same sku twice equals deleting it once |
| InventoryContext.AddThenDeleteRestores | src/contexts/InventoryContext.jsx:36-60 | adding a product with a new sku and then deleting that sku restores the state |
| InventoryContext.UpdateThenDelete | src/contexts/InventoryContext.jsx:47-60 | updating a sku and then deleting it equals deleting it directly |
| InventoryContext.ReplaceThenFilter | src/contexts/InventoryContext.jsx:47-60 | replacing the items with a sku does not change the items with another sku |
| Communication.PhraseTable | src/utils/communicationUtils.js:62-82 | the pair "en-hi" selects the English-to-Hindi table, "hi-en" the Hindi-to-English one, and every other pair no table |
| Communication.PairKeySplits | src/utils/communicationUtils.js:82 | the key `${fromLang}-${toLang}` equals "en-hi" or "hi-en" only for exactly those languages |
| Communication.TranslateText | src/utils/communicationUtils.js:59-101 | a phrase the pair's table owns gets its entry at 95; anything else comes back unchanged at 80; the detected language is always `fromLang` |
| Communication.TranslateTextAsWritten | src/utils/communicationUtils.js:82-96 | the code as written hands back an inherited object member exactly when the pair exists and the text is an `Object.prototype` name |
| Communication.TranslateAgreesOffPrototype | src/utils/communicationUtils.js:82-96 | for every other text the written and corrected translations agree |
| Communication.TranslateInheritedName | src/utils/communicationUtils.js:83-89 | translating "toString" from en to hi returns a function where the unchanged text was meant |
| Communication.TablesAreInverse | src/utils/communicationUtils.js:62-77 | the Hindi-to-English table is the exact inverse of the English-to-Hindi one |
| Communication.RoundTrip | src/utils/communicationUtils.js:62-96 | each English table phrase survives en to hi and back |
| Communication.HasDevanagari | src/utils/communicationUtils.js:109 | true iff some character lies in U+0900 to U+097F |
| Communication.DetectLanguage | src/utils/communicationUtils.js:104-132 | the answer is "en" or "hi"; "hi" iff the English pattern fails and some character is Devanagari; confidence is 90 iff either pattern matches, else 60 |
| Communication.PatternsExclusive | src/utils/communicationUtils.js:107-110 | no text matches both patterns |
| Communication.EmptyTextFallsBack | src/utils/communicationUtils.js:124-127 | the empty text falls back to English at the lower confidence |
| Communication.TablePhrasesDetected | src/utils/communicationUtils.js:104-132 | every Hindi table phrase is detected as Hindi and every English one as English, both at 90 |
| SortControls.Flip | src/pages/Inventory.jsx:13 | flipping always changes the direction |
| SortControls.Sign | src/pages/Inventory.jsx:29 | the direction multiplier is 1 for ascending and -1 for descending |
| SortControls.HandleSort | src/pages/Inventory.jsx:11-18 | the clicked field becomes the sort field; the same field flips the direction; a new field starts ascending |
| SortControls.SameFieldTwiceRestores | src/pages/Inventory.jsx:12-13 | clicking the current field twice restores the state |
| SortControls.NewFieldTwiceDescends | src/pages/Shipments.jsx:31-38 | clicking a new field twice ends descending on it |
| InventoryPage.TextField | src/pages/Inventory.jsx:30 | `item[field]` is defined for sku and category (besides name and stock) and undefined for any other name that is not an own key (an inherited member subtracts to NaN all the same) |
| InventoryPage.FieldNumber | src/pages/Inventory.jsx:30 | `Number(item[field])`: the field's text read by `Number`, NaN for a field the products lack |
| InventoryPage.Compare | src/pages/Inventory.jsx:25-31 | the callback: collation on name, stock difference, `Number` difference on sku and category, NaN read as 0 |
| InventoryPage.FilteredInventory | src/pages/Inventory.jsx:20-31 | the result is a permutation of the matching items; every shown item matches and every matching item is shown |
| InventoryPage.SortedMatches | src/pages/Inventory.jsx:20-31 | sorting the matching items permutes them and keeps exactly them |
| InventoryPage.EmptyTermKeepsAll | src/pages/Inventory.jsx:20-24 | an empty term shows every item |
| InventoryPage.StockCompareConsistent | src/pages/Inventory.jsx:29-30 | the stock comparator is a consistent total preorder |
| InventoryPage.StockSortOrdered | src/pages/Inventory.jsx:25-31 | sorting by stock gives non-decreasing stock ascending and non-increasing descending |
| InventoryPage.SortedByStock | src/pages/Inventory.jsx:29-30 | a list sorted by the stock comparator is monotone in stock in the chosen direction |
| InventoryPage.OtherFieldsKeepOrder | src/pages/Inventory.jsx:30 | sorting by a field the products lack, or by sku or category when no item's value reads as a number, leaves the filtered order |
| InventoryPage.NaNTies | src/pages/Inventory.jsx:30 | a value that reads as NaN makes the callback answer 0 against any item |
| InventoryPage.NumericFieldSortOrdered | src/pages/Inventory.jsx:25-31 | when every item's sku (or category) reads as a number, sorting by that field orders the numbers ascending or descending |
| InventoryPage.CompareByValue | src/pages/Inventory.jsx:30 | on numeric values the callback sorts like a comparison of the numbers |
| InventoryPage.PairByValue | src/pages/Inventory.jsx:30 | for two numeric values the callback says "after" exactly when the number comparison does |
| InventoryPage.NumericSkusSwap | src/pages/Inventory.jsx:25-31 | skus "2" then "1", sorted by sku ascending, come out "1" then "2" |
| InventoryPage.OneDigit | src/pages/Inventory.jsx:30 | a one-digit string reads as its digit |
| InventoryPage.EmptyTermKeepsOrder | src/pages/Inventory.jsx:20-24 | the empty term keeps every item in place |
| InventoryPage.StockLabel | src/pages/Inventory.jsx:143-150 | "In Stock" iff stock exceeds 10, "Low Stock" iff 1 to 10, "Out of Stock" iff 0 or less |
| InventoryPage.StockLabelMonotone | src/pages/Inventory.jsx:143-150 | more stock never gives a lower label |
| ShipmentsPage.Keep | src/pages/Shipments.jsx:19-24 | a row passes iff its status is selected (or "all") and the query is empty or contained in one of its values |
| ShipmentsPage.Greater | src/pages/Shipments.jsx:28 | `a[f] > b[f]`: string order, false when either side is undefined |
| ShipmentsPage.Compare | src/pages/Shipments.jsx:26-29 | the callback never answers 0, and answers the direction's sign exactly when the first row's field is greater |
| ShipmentsPage.Field | src/pages/Shipments.jsx:28 | `row[field]` is defined exactly for the row's own keys and is then one of its values (an inherited member compares like undefined) |
| ShipmentsPage.Displayed | src/pages/Shipments.jsx:18-29 | the shown rows are a permutation of the rows passing both filters; each shown row passes, and each passing row is shown |
| ShipmentsPage.SortedKept | src/pages/Shipments.jsx:18-29 | sorting the kept rows permutes them and keeps exactly them |
| ShipmentsPage.NothingFilteredAtFirst | src/pages/Shipments.jsx:5-25 | with status "all" and an empty query every row is shown |
| ShipmentsPage.ClickFilter | src/pages/Shipments.jsx:76 | the Filter button resets the status to "all" and keeps the query and sort |
| ShipmentsPage.FilterButtonShowsEveryStatus | src/pages/Shipments.jsx:19-24 | after the Filter button a row is shown iff the query is empty or one of its values contains it |
| ShipmentsPage.StatusButtonNarrows | src/pages/Shipments.jsx:20 | after a status button other than "all", only rows with that status are shown |
| ShipmentsPage.SearchFindsOwnTrackingNumber | src/pages/Shipments.jsx:21-24 | a query equal to a row's tracking number, ignoring case, keeps the row |
| ShipmentsPage.SortedByField | src/pages/Shipments.jsx:26-29 | with distinct values in the sort field, the rows are in ascending or descending string order of that field |
| ShipmentsPage.ComparatorsAgree | src/pages/Shipments.jsx:26-29 | on distinct keys the never-zero comparator orders every pair like a consistent key comparison |
| ShipmentsPage.DigitsEqual | src/pages/Shipments.jsx:12-15 | equal-length digit strings are equal iff their values are |
| ShipmentsPage.DashThenRest | src/pages/Shipments.jsx:12-15 | past a shared `-`, comparing the rest decides the string order |
| ShipmentsPage.IsoDateOrder | src/pages/Shipments.jsx:12-28 | for ISO dates, string `<` holds iff the first date is earlier in the calendar |
| ShipmentsPage.InitialViewNewestFirst | src/pages/Shipments.jsx:6-29 | the initial view, sorted by date descending, lists distinct ISO dates newest first |
| ShipmentsPage.Capitalize | src/pages/Shipments.jsx:61 | keeps the length; the first character is uppercased and the rest kept |
| ShipmentsPage.CapitalizeOnlyChangesCase | src/pages/Shipments.jsx:114 | a label lowercases to the same string as the status |
| ShipmentsPage.CapitalizeIdempotent | src/pages/Shipments.jsx:61 | capitalizing twice equals capitalizing once |
| ShipmentsPage.InTransitLabel | src/pages/Shipments.jsx:114 | "in-transit" is shown as "In-transit" |
| DashboardTable.HandleSort | src/components/Dashboard.jsx:78-81 | the clicked field is set and the direction always flips, even for a new field |
| DashboardTable.FirstClickDescends | src/components/Dashboard.jsx:49-81 | the first header click sorts descending, where the Inventory and Shipments pages would start ascending |
| DashboardTable.TwoHeadersKeepFlipping | src/components/Dashboard.jsx:78-81 | any two clicks restore the direction, whichever fields |
| DashboardTable.KeyOf | src/components/Dashboard.jsx:69-70 | `row[field]` is the numeric id, a string field, or undefined for any other name that is not an own key (an inherited member compares like undefined) |
| DashboardTable.KeyLess | src/components/Dashboard.jsx:69-70 | `a[f] < b[f]`: numbers by value, strings by `<`, false with undefined |
| DashboardTable.Compare | src/components/Dashboard.jsx:68-72 | the three-way callback; CompareIsKeyCompare and CompareConsistent state what it computes |
| DashboardTable.CompareIsKeyCompare | src/components/Dashboard.jsx:68-72 | the comparator is the numeric key comparison on id, the string comparison on a string field, and 0 on any other name |
| DashboardTable.Searched | src/components/Dashboard.jsx:58-64 | an empty query keeps the input; otherwise exactly the rows with a value containing the query, ignoring case, are kept |
| DashboardTable.EmptySearchSkipIsHarmless | src/components/Dashboard.jsx:58-64 | skipping the filter on an empty query equals filtering with it |
| DashboardTable.Displayed | src/components/Dashboard.jsx:54-76 | the shown rows are a permutation of the searched rows, in searched order when no field is set |
| DashboardTable.InitialShowsInput | src/components/Dashboard.jsx:49-76 | with no query and no sort field the rows appear in input order |
| DashboardTable.UnknownFieldKeepsOrder | src/components/Dashboard.jsx:68-72 | sorting on a name no row has leaves the searched order |
| DashboardTable.HeadersWithoutField | src/components/Dashboard.jsx:113-116 | "Tracking ID" and "Documentation" lowercase to names no row has |
| DashboardTable.CompareConsistent | src/components/Dashboard.jsx:68-72 | the comparator is a consistent total preorder for every field and direction |
| DashboardTable.SortedByStringField | src/components/Dashboard.jsx:67-73 | sorting on a string field orders the rows by that field in the chosen direction |
| DashboardTable.SortedById | src/components/Dashboard.jsx:67-73 | sorting on id orders the rows numerically in the chosen direction |
| DashboardTable.TiesKeepOrder | src/components/Dashboard.jsx:68-72 | rows the comparator ties keep their searched order |
| DashboardTable.BadgeColour | src/components/Dashboard.jsx:140-144 | blue iff "In Transit", yellow iff "Processing", green otherwise |
| DashboardTable.MockRowsShowEachColour | src/components/Dashboard.jsx:167-189 | the three sample rows show blue, yellow and green |
| DocumentsPage.Toggle | src/pages/Documents.jsx:31-36 | the id's truthiness flips: an own entry is negated, an id with no entry becomes true, an inherited name becomes false, and every other entry stays |
| DocumentsPage.ToggleTwiceRestores | src/pages/Documents.jsx:31-36 | toggling a listed id twice restores the map |
| DocumentsPage.ToggleTwiceAbsent | src/pages/Documents.jsx:31-36 | toggling an unlisted id twice leaves an own entry equal to what it read before (true only for an inherited name), so every flag reads as before |
| DocumentsPage.SubmittedIds | src/pages/Documents.jsx:47 | the own keys whose flag is true; inherited members are not counted |
| DocumentsPage.ToggleMovesCountByOne | src/pages/Documents.jsx:31-47 | a toggle moves the submitted count by exactly one, down if the own entry was on and up if the id read falsy; an inherited name without an entry leaves it unchanged |
| DocumentsPage.ToggleKeepsListed | src/pages/Documents.jsx:15-36 | toggling a listed document keeps the map's keys the five documents |
| DocumentsPage.CountAtMostFive | src/pages/Documents.jsx:23-47 | with the five listed keys, the count never exceeds the number of documents, 5 |
| DocumentsPage.InitialCountIsOne | src/pages/Documents.jsx:15-21 | the starting map lists the five documents and counts one, the invoice |
| DocumentsPage.ShowsAlert | src/pages/Documents.jsx:110 | the alert shows iff `submittedDocs[selected]` is falsy: the own flag is false, or there is no entry and the name is not inherited |
| DocumentsPage.ToggleSelectedFlipsAlert | src/pages/Documents.jsx:110 | toggling the selected document flips whether the alert shows |
| DocumentsPage.InitialAlertShown | src/pages/Documents.jsx:14-21 | the page opens with the alert shown for the bill of lading |
| DocumentsPage.InheritedNamesReadTruthy | src/pages/Documents.jsx:31-47 | toggling an inherited name such as toString writes false and keeps the count, and constructor shows no alert |
| DocumentsPage.Title | src/pages/Documents.jsx:94 | a title exists iff the selected id is listed, and it is that document's name |
| DocumentUploadPage.HandleFiles | src/pages/DocumentUpload.jsx:36-38 | the new files follow the old ones, both in order |
| DocumentUploadPage.KeepOthers | src/pages/DocumentUpload.jsx:41 | filtering by position drops exactly the element at the index, or nothing when out of range |
| DocumentUploadPage.RemoveFile | src/pages/DocumentUpload.jsx:40-42 | an index in range removes exactly that file and keeps the rest in order; any other index leaves the list |
| DocumentUploadPage.AddThenRemoveLast | src/pages/DocumentUpload.jsx:36-42 | adding one file and removing it by its index restores the list |
| DocumentUploadPage.RemoveThenReinsert | src/pages/DocumentUpload.jsx:40-42 | putting the removed file back at its index restores the list |
| DocumentUploadPage.HandleDrag | src/pages/DocumentUpload.jsx:9-17 | enter and over set the flag, leave clears it, and other events keep it |
| DocumentUploadPage.HandleDrop | src/pages/DocumentUpload.jsx:19-27 | a drop always clears the flag and adds files only when at least one was dropped |
| DocumentUploadPage.HandleChange | src/pages/DocumentUpload.jsx:29-34 | a change adds files only when at least one was chosen and keeps the flag |
| DocumentUploadPage.DragAll | src/pages/DocumentUpload.jsx:9-17 | after a run of drag events the flag follows the last enter, over or leave |
| DocumentUploadPage.DropAfterDragEnds | src/pages/DocumentUpload.jsx:9-27 | whatever drag events came before, a drop ends with the flag off and the earlier files first |
| DocumentUploadPage.UploadLabel | src/pages/DocumentUpload.jsx:138 | no count for an empty list, otherwise "Upload (" and ")" around the count |
| DocumentUploadPage.LabelShowsCount | src/pages/DocumentUpload.jsx:138 | for a non-empty list the label's digits read back as the number of files |
| Sorting.Sort | src/components/Dashboard.jsx:68 | `sort` as a stable insertion sort; keeps the length (the other properties are the lemmas below) |
| Lists.Filter | src/contexts/InventoryContext.jsx:60 | `filter` never makes the list longer; FilterMembers and FilterCounts state its contents |
| Lists.FilterCounts | src/contexts/InventoryContext.jsx:60 | a passing element occurs as often as in the input, a failing one not at all |
| Lists.FirstIndex | src/api/shipments.js:120 | `findIndex`: the index of the first passing element, none iff no element passes |
| Sorting.SortTwo | src/pages/Inventory.jsx:25 | two elements where the first must come after the second are swapped |
| Sorting.InsertPermutes | src/components/Dashboard.jsx:68 | inserting one element adds exactly that element |
| Sorting.SortPermutes | src/components/Dashboard.jsx:68 | the sort is a permutation of its input |
| Sorting.SortMembers | src/components/Dashboard.jsx:68 | the sort keeps exactly the input's members |
| Sorting.SortSorted | src/components/Dashboard.jsx:68-72 | under a consistent comparator the output is sorted |
| Sorting.SortStable | src/components/Dashboard.jsx:68-72 | under a consistent comparator each class of tied elements keeps its input order |
| Sorting.SortKeepsOrderOfTies | src/pages/Inventory.jsx:30 | a comparator that never puts one element after another leaves the input as it is |
| Sorting.SortAgrees | src/pages/Shipments.jsx:26-29 | two comparators that agree on "after" for every pair of distinct positions sort alike |
| Sorting.KeyCompareConsistent | src/components/Dashboard.jsx:69-71 | comparing keys by a strict total order, either way round, is a consistent comparator |
| Sorting.SortByKey | src/components/Dashboard.jsx:69-71 | sorting by a key comparison orders the keys in the chosen direction |
| Sorting.StringLessStrictTotal | src/components/Dashboard.jsx:69-70 | JavaScript string `<` is a strict total order |
| Sorting.IntLessStrictTotal | src/components/Dashboard.jsx:69-70 | number `<` on integers is a strict total order |
| Text.LowerChar | src/pages/Inventory.jsx:22-23 | an ASCII capital becomes its small letter, 32 code points on; every other character is kept |
| Text.UpperChar | src/pages/Shipments.jsx:61 | an ASCII small letter becomes its capital, 32 code points back; every other character is kept |
| Text.Lower | src/pages/Inventory.jsx:22-23 | lowercasing keeps the length, maps each ASCII capital to its small letter and keeps every other character, so no capital is left |
| Text.IsJsSpace | src/utils/complianceUtils.js:18 | the characters `\s` matches |
| Text.TrimStartIsSuffix | src/pages/Inventory.jsx:30 | trimming the front removes only a leading run of whitespace |
| Text.TrimStartRun | src/utils/complianceUtils.js:18 | a whitespace run in front of a string that starts otherwise is exactly what the front trim removes |
| Text.TrimEnd | src/pages/Inventory.jsx:30 | trimming the back leaves no trailing whitespace and never grows the string |
| Text.TrimEndIsPrefix | src/pages/Inventory.jsx:30 | trimming the back removes only a trailing run of whitespace |
| Text.Trim | src/pages/Inventory.jsx:30 | the trimmed string starts and ends with a non-space |
| Text.TrimKeeps | src/pages/Inventory.jsx:30 | trimming drops only whitespace: every other character survives |
| Text.ToNumber | src/pages/Inventory.jsx:30 | `Number(s)` of a digit string is its value, and a string with any other non-space character than a sign is NaN |
| Text.NumeralCharsKept | src/pages/Inventory.jsx:30 | a digit string trims to itself, and a trimmed numeral means the whole string holds only digits, signs and whitespace |
| Text.ToNumberOfNumeral | src/pages/Inventory.jsx:30 | `Number(String(n))` is n |
| Text.LexLess | src/components/Dashboard.jsx:69-70 | string `<`: a proper prefix is smaller, otherwise the first differing character decides |
| Text.LowerIdempotent | src/pages/Inventory.jsx:22-23 | lowercasing twice equals lowercasing once |
| Text.SomeValueContains | src/pages/Shipments.jsx:22-23 | true iff some value contains the query, both lowercased |
| Text.ContainsAt | src/pages/Inventory.jsx:22-23 | `includes` holds iff the needle occurs at some position |
| Text.NatToString | src/api/shipments.js:70 | `String(n)` is a non-empty digit string without a leading zero for n > 0 |
| Text.NatToStringRoundTrip | src/api/shipments.js:70 | `String(n)` reads back as n |
| Text.PadStart | src/api/shipments.js:70 | `padStart` keeps the string at the end and fills the front up to the width |
| Text.PaddedRoundTrip | src/api/shipments.js:70 | the zero-padded decimal reads back as the number |
| Text.PaddedInjective | src/api/shipments.js:70 | different numbers give different padded strings |
| Text.LexLessTransitive | src/components/Dashboard.jsx:69-70 | string `<` is transitive |
| Text.LexLessTotal | src/components/Dashboard.jsx:69-70 | of two different strings one is less than the other |
| Text.LexLessDigits | src/pages/Shipments.jsx:12-15 | equal-length digit strings compare like their values |

## Left out

- DocumentsPage.ToggleMovesCountByOne: the count drops by one only when the id had an own true entry, not whenever it read truthy, because an inherited `Object.prototype` name reads truthy with no entry and toggling it leaves the count unchanged.
- Socket and chat plumbing (`initializeSocket`, `sendMessage`, the chat page): it is event-driven I/O.
- `src/utils/financialUtils.js` is not part of this model: it uses floating-point rates and the clock.
- `src/pages/Orders.jsx` is not part of this model: it depends on modules that are not available, and on toasts and `window.open`.
- The backend routes and models are not part of this model: they are library configuration.
- `src/api/inventory.js` is an HTTP wrapper: its answers are the `response` parameters of the inventory context.
- `delay` and `setTimeout` are dropped. `Date.now()` and today's date are the `now` and `today` parameters.
- `getAllShipments`, `getAllOrders` and the context's `getShipment` return the store or forward to the API: the store is the value itself, so there is nothing separate to model.
- `getShipmentStats` returns a constant and `getTrendColor` relies on `parseFloat`: neither is modelled.
- Rendering, icons, class names and the React effect scheduling are left out. The filtered lists are functions of the state.
- Object aliasing and in-place mutation: each store is a value, and each operation returns the new store.
- A key present with the value `undefined` is treated like an absent key.
- ShipmentsApi.CreateShipment: records are closed, so a key of `shipmentData` outside the eleven shipment fields, which the spread would copy into the new record, is not modelled.
- OrdersApi.CreateOrder: likewise, a key of `orderData` outside the three defaulted keys and the six order fields is not modelled.
- Text.Lower: ASCII letters only; the full Unicode case mapping of `toLowerCase`/`toUpperCase` is not modelled.
- InventoryPage.FilteredInventory: the name sort uses `localeCompare`, which depends on the locale. It is the parameter `collate`, and only the permutation and filter properties are stated for it.
- InventoryPage.Compare: `Number(item[field])` is modelled for blank strings and optionally signed decimal integers after trimming (Text.ToNumber). Decimals, exponents, hexadecimal and `Infinity` read as NaN here, where JavaScript reads them as numbers.
- InventoryPage.NumericFieldSortOrdered: the order is stated only when every item's value reads as a number. With a mix of numeric and other values the callback is not a consistent order, and only the permutation is stated.
- Text.LexLess: a character above U+FFFF is one Dafny character but two JavaScript code units. For such text `length`, `includes` positions and string `<` differ from JavaScript; for example U+FF01 sorts before U+1F600 here and after it in JavaScript.
- ShipmentsPage.SortedByField: the Shipments comparator never answers 0. With repeated values in the sort field the order is not specified, so only the permutation is stated then.
- StatusBadge on the Shipments page reads `statusConfig[status].icon` and throws on an unknown status. Only the capitalised label is modelled.
- Communication.TranslateText: confidences are integers in hundredths (0.95 is 95).
- Sorting.Sort: its own ensures gives only the length; permutation, sortedness and stability are the lemmas SortPermutes, SortSorted and SortStable.
- ShipmentsApi.ShipmentId and OrdersApi.OrderId: the id shape is stated by ShipmentIdShape and OrderIdShape rather than on the functions.

## Findings

| source | as written | input that shows it | evidently intended | confidence | as-written member | corrected member |
|---|---|---|---|---|---|---|
| src/contexts/ShipmentsContext.jsx:58 | `updateCustomsClearance` calls `shipmentsApi.updateCustomsClearance`, which the API module does not export (src/api/shipments.js:134-142) | any known shipment id, e.g. "SHP001" | call `updateCustomsStatus`, which the module exports | high, not executed | ShipmentsContext.UpdateCustomsClearanceAsWritten | ShipmentsContext.UpdateCustomsClearance |
| src/utils/complianceUtils.js:16-19 | `countryRequirements[country]` on a plain object finds inherited members, so `.requiredDocs.map` throws | country "toString" | an unknown country gives `[]` | medium, not executed | Compliance.DocumentTemplatesAsWritten | Compliance.DocumentTemplates |
| src/utils/complianceUtils.js:38-41 | the same lookup for the destination makes `.customsForms.map` throw | destination "toString" | an unknown destination gives `[]` | medium, not executed | Compliance.GenerateCustomsFormsAsWritten | Compliance.GenerateCustomsForms |
| src/utils/communicationUtils.js:83-89 | `commonPhrases[pair][text]` finds inherited members, which are truthy | text "toString", en to hi | an unknown phrase comes back unchanged at 80 | medium, not executed | Communication.TranslateTextAsWritten | Communication.TranslateText |
| src/api/shipments.js:75-84 | `...shipmentData` comes after the "Unknown Customer" default and overwrites it | `customerName: ""` | a falsy name becomes "Unknown Customer" | medium, not executed | ShipmentsApi.CreateShipmentAsWritten | ShipmentsApi.CreateShipment |

=== FILE: Communication.dfy ===
/** The mock translation and language-detection helpers: a two-way phrase
    table between English and Hindi, and a detector that tries an English
    pattern before a Devanagari one. Confidences are in hundredths. */
module Communication {
  import opened Text
  import JsObjects

  const EnglishToHindi: map<string, string> := map[
    "Hello" := "नमस्ते",
    "How are you?" := "आप कैसे हैं?",
    "Thank you" := "धन्यवाद",
    "Shipping status" := "शिपिंग स्थिति",
    "Order confirmed" := "आदेश की पुष्टि की"]

  const HindiToEnglish: map<string, string> := map[
    "नमस्ते" := "Hello",
    "आप कैसे हैं?" := "How are you?",
    "धन्यवाद" := "Thank you",
    "शिपिंग स्थिति" := "Shipping status",
    "आदेश की पुष्टि की" := "Order confirmed"]

  /** `commonPhrases[`${fromLang}-${toLang}`]`, restricted to own keys. */
  function PhraseTable(fromLang: string, toLang: string): (t: map<string, string>)
    ensures fromLang == "en" && toLang == "hi" ==> t == EnglishToHindi
    ensures fromLang == "hi" && toLang == "en" ==> t == HindiToEnglish
    ensures !(fromLang == "en" && toLang == "hi") && !(fromLang == "hi" && toLang == "en") ==> t == map[]
  {
    var pair := fromLang + "-" + toLang;
    assert fromLang == "en" && toLang == "hi" ==> pair == "en-hi";
    assert fromLang == "hi" && toLang == "en" ==> pair == "hi-en" && pair != "en-hi";
    PairKeySplits(fromLang, toLang, "en", "hi");
    PairKeySplits(fromLang, toLang, "hi", "en");
    if pair == "en-hi" then EnglishToHindi
    else if pair == "hi-en" then HindiToEnglish
    else map[]
  }

  /** The key `${fromLang}-${toLang}` names one pair of two-letter codes
      only when the languages are exactly those codes. */
  lemma PairKeySplits(fromLang: string, toLang: string, a: string, b: string)
    requires |a| == 2 && |b| == 2 && '-' !in a && '-' !in b
    ensures fromLang + "-" + toLang == a + "-" + b ==> fromLang == a && toLang == b
  {
    var p, q := fromLang + "-" + toLang, a + "-" + b;
    if p == q {
      assert p[|fromLang|] == '-';
      assert forall i :: 0 <= i < |q| && i != 2 ==> q[i] != '-' by {
        forall i | 0 <= i < |q| && i != 2 ensures q[i] != '-' {
          if i < 2 { assert q[i] == a[i]; } else { assert q[i] == b[i - 3]; }
        }
      }
      assert |fromLang| == 2;
      assert fromLang == p[..2] == a;
      assert toLang == p[3..] == b;
    }
  }

  datatype Translation = Translation(translatedText: string, confidence: nat, detectedLanguage: string)

  /** `translateText(text, fromLang, toLang)` with the phrase lookup
      restricted to the tables' own keys: a known phrase gets its table
      entry at 95, anything else comes back unchanged at 80. */
  function TranslateText(text: string, fromLang: string, toLang: string): (r: Translation)
    ensures r.detectedLanguage == fromLang
    ensures text in PhraseTable(fromLang, toLang) ==> r.translatedText == PhraseTable(fromLang, toLang)[text] && r.confidence == 95
    ensures text !in PhraseTable(fromLang, toLang) ==> r.translatedText == text && r.confidence == 80
  {
    var table := PhraseTable(fromLang, toLang);
    if text in table then Translation(table[text], 95, fromLang)
    else Translation(text, 80, fromLang)
  }

  /** The value `commonPhrases[pair][text]` can take in JavaScript: a
      string, or a member inherited from `Object.prototype`. */
  datatype JsValue = Str(s: string) | Inherited(name: string)

  datatype RawTranslation = RawTranslation(translatedText: JsValue, confidence: nat, detectedLanguage: string)

  /** `translateText` as written: the inner table is a plain object, so a
      text such as "toString" finds the inherited method, which is truthy
      and comes back as the "translation". */
  function TranslateTextAsWritten(text: string, fromLang: string, toLang: string): (r: RawTranslation)
    ensures r.detectedLanguage == fromLang
    ensures r.translatedText.Inherited? <==>
              (fromLang + "-" + toLang in {"en-hi", "hi-en"}) && text in JsObjects.PrototypeMembers
  {
    var table := PhraseTable(fromLang, toLang);
    var pair := fromLang + "-" + toLang;
    if text in table then RawTranslation(Str(table[text]), 95, fromLang)
    else if (pair == "en-hi" || pair == "hi-en") && text in JsObjects.PrototypeMembers then
      RawTranslation(Inherited(text), 95, fromLang)
    else RawTranslation(Str(text), 80, fromLang)
  }

  /** Away from the inherited names the code as written gives the corrected
      result. */
  lemma TranslateAgreesOffPrototype(text: string, fromLang: string, toLang: string)
    requires text !in JsObjects.PrototypeMembers
    ensures var r := TranslateText(text, fromLang, toLang);
            TranslateTextAsWritten(text, fromLang, toLang) == RawTranslation(Str(r.translatedText), r.confidence, r.detectedLanguage)
  {
  }

  /** `translateText("toString", "en", "hi")` hands back a function, where
      the unchanged text was meant. */
  lemma TranslateInheritedName()
    ensures TranslateTextAsWritten("toString", "en", "hi").translatedText == Inherited("toString")
    ensures TranslateText("toString", "en", "hi").translatedText == "toString"
  {
    assert "toString" !in EnglishToHindi;
  }

  /** The Hindi-to-English table is the exact inverse of the
      English-to-Hindi one. */
  lemma TablesAreInverse()
    ensures forall e :: e in EnglishToHindi ==> EnglishToHindi[e] in HindiToEnglish && HindiToEnglish[EnglishToHindi[e]] == e
    ensures forall h :: h in HindiToEnglish ==> HindiToEnglish[h] in EnglishToHindi && EnglishToHindi[HindiToEnglish[h]] == h
  {
  }

  /** Each English phrase survives a trip to Hindi and back. */
  lemma RoundTrip(text: string)
    requires text in EnglishToHindi
    ensures TranslateText(TranslateText(text, "en", "hi").translatedText, "hi", "en").translatedText == text
  {
    TablesAreInverse();
  }

  // ---------------------------------------------------------------------
  // detectLanguage
  // ---------------------------------------------------------------------

  /** A character of `[a-zA-Z\s.,!?]`. */
  predicate EnglishChar(c: char) {
    IsAsciiLetter(c) || IsJsSpace(c) || c == '.' || c == ',' || c == '!' || c == '?'
  }

  /** `/^[a-zA-Z\s.,!?]+$/.test(text)`. */
  predicate EnglishPattern(text: string) {
    |text| > 0 && forall i :: 0 <= i < |text| ==> EnglishChar(text[i])
  }

  predicate Devanagari(c: char) {
    '\U{0900}' <= c <= '\U{097F}'
  }

  /** `/[\u0900-\u097F]/.test(text)`, scanning left to right. */
  function HasDevanagari(text: string): (b: bool)
    ensures b <==> exists i :: 0 <= i < |text| && Devanagari(text[i])
  {
    if text == [] then false
    else Devanagari(text[0]) || (assert forall i :: 1 <= i < |text| ==> text[i] == text[1..][i - 1]; HasDevanagari(text[1..]))
  }

  datatype Detection = Detection(language: string, confidence: nat)

  /** `detectLanguage(text)`: the English pattern is tried first (90), then
      the Devanagari one (90); otherwise English at 60. */
  function DetectLanguage(text: string): (r: Detection)
    ensures r.language == "en" || r.language == "hi"
    ensures r.language == "hi" <==> !EnglishPattern(text) && exists i :: 0 <= i < |text| && Devanagari(text[i])
    ensures r.confidence == 90 <==> EnglishPattern(text) || exists i :: 0 <= i < |text| && Devanagari(text[i])
    ensures r.confidence == 90 || r.confidence == 60
  {
    if EnglishPattern(text) then Detection("en", 90)
    else if HasDevanagari(text) then Detection("hi", 90)
    else Detection("en", 60)
  }

  /** The two patterns never both match: a Devanagari character is not in
      the English class. */
  lemma PatternsExclusive(text: string)
    requires EnglishPattern(text)
    ensures !HasDevanagari(text)
  {
  }

  /** The empty text matches neither pattern and gets the fallback. */
  lemma EmptyTextFallsBack()
    ensures DetectLanguage("") == Detection("en", 60)
  {
  }

  /** Every Hindi phrase of the table is detected as Hindi, and every
      English phrase as English with the higher confidence. */
  lemma TablePhrasesDetected()
    ensures forall h :: h in HindiToEnglish ==> DetectLanguage(h) == Detection("hi", 90)
    ensures forall e :: e in EnglishToHindi ==> DetectLanguage(e) == Detection("en", 90)
  {
    forall h | h in HindiToEnglish ensures DetectLanguage(h) == Detection("hi", 90) {
      assert Devanagari(h[0]);
      assert !EnglishChar(h[0]);
    }
    forall e | e in EnglishToHindi ensures EnglishPattern(e) {
    }
  }
}

=== FILE: Compliance.dfy ===
/** The destination-country compliance helpers: a fixed table of required
    documents, restrictions and customs forms per country; the check of a
    shipment's documents against it; and the template and customs-form links
    derived from the table through a URL slug. */
module Compliance {
  import opened Results
  import opened Text
  import Lists
  import JsObjects

  // ---------------------------------------------------------------------
  // The country table
  // ---------------------------------------------------------------------

  datatype CountryProfile = CountryProfile(
    requiredDocs: seq<string>,
    restrictions: seq<string>,
    customsForms: seq<string>)

  const UnitedStates := CountryProfile(
    ["Commercial Invoice", "Packing List", "FDA Prior Notice", "Phytosanitary Certificate"],
    ["Certain fruits require import permits", "Must meet USDA standards"],
    ["CBP Form 3461", "CBP Form 7501"])

  const EuropeanUnion := CountryProfile(
    ["EUR.1 Movement Certificate", "Packing List", "Phytosanitary Certificate"],
    ["Must comply with EU food safety regulations", "Organic certification required if applicable"],
    ["Single Administrative Document (SAD)", "Export Accompanying Document (EAD)"])

  /** What `countryRequirements[country]` evaluates to. */
  datatype Entry = Own(profile: CountryProfile) | Inherited | Missing

  function LookupCountry(country: string): (e: Entry)
    ensures e.Own? <==> country == "US" || country == "EU"
  {
    if country == "US" then Own(UnitedStates)
    else if country == "EU" then Own(EuropeanUnion)
    else if country in JsObjects.PrototypeMembers then Inherited
    else Missing
  }

  /** `countryRequirements[country]?.requiredDocs || []`: an inherited member
      has no `requiredDocs`, so it falls back to `[]` like a missing key. */
  function RequiredDocs(country: string): (r: seq<string>)
    ensures country == "US" ==> r == UnitedStates.requiredDocs
    ensures country == "EU" ==> r == EuropeanUnion.requiredDocs
    ensures country != "US" && country != "EU" ==> r == []
  {
    match LookupCountry(country)
    case Own(p) => p.requiredDocs
    case _ => []
  }

  /** `countryRequirements[country]?.restrictions || []`. */
  function Restrictions(country: string): (r: seq<string>)
    ensures country == "US" ==> r == UnitedStates.restrictions
    ensures country == "EU" ==> r == EuropeanUnion.restrictions
    ensures country != "US" && country != "EU" ==> r == []
  {
    match LookupCountry(country)
    case Own(p) => p.restrictions
    case _ => []
  }

  /** `countryRequirements[country]?.customsForms`, for a key the table owns. */
  function CustomsFormNames(country: string): (r: seq<string>)
    ensures country == "US" ==> r == UnitedStates.customsForms
    ensures country == "EU" ==> r == EuropeanUnion.customsForms
    ensures country != "US" && country != "EU" ==> r == []
  {
    match LookupCountry(country)
    case Own(p) => p.customsForms
    case _ => []
  }

  predicate NoDuplicates(xs: seq<string>) {
    forall i, j :: 0 <= i < j < |xs| ==> xs[i] != xs[j]
  }

  /** No country of the table lists a document twice. */
  lemma RequiredDocsDistinct(country: string)
    ensures NoDuplicates(RequiredDocs(country))
  {
  }

  // ---------------------------------------------------------------------
  // validateCompliance
  // ---------------------------------------------------------------------

  /** A submitted document; only its `type` is consulted. */
  datatype Document = Document(docType: string, name: string)

  datatype ComplianceReport = ComplianceReport(
    compliant: bool,
    missingDocs: seq<string>,
    restrictions: seq<string>)

  /** `new Set(documents.map(doc => doc.type))`. */
  function SubmittedTypes(documents: seq<Document>): set<string> {
    set d | d in documents :: d.docType
  }

  /** `[...new Set(xs)]`: first occurrences, in order. */
  function Dedup(xs: seq<string>): (r: seq<string>)
    ensures NoDuplicates(r)
    ensures forall x :: x in r <==> x in xs
  {
    if xs == [] then []
    else
      var init := Dedup(xs[..|xs| - 1]);
      assert forall x :: x in xs <==> x in xs[..|xs| - 1] || x == xs[|xs| - 1];
      if xs[|xs| - 1] in init then init else init + [xs[|xs| - 1]]
  }

  lemma {:induction false} DedupOfDistinct(xs: seq<string>)
    requires NoDuplicates(xs)
    ensures Dedup(xs) == xs
    decreases |xs|
  {
    if xs != [] {
      DedupOfDistinct(xs[..|xs| - 1]);
      assert xs == xs[..|xs| - 1] + [xs[|xs| - 1]];
    }
  }

  function NotSubmitted(submitted: set<string>): string -> bool {
    doc => doc !in submitted
  }

  /** `validateCompliance(documents, country)`: the country's required
      documents whose name is no document's `type`, the verdict, and the
      country's restrictions. */
  function ValidateCompliance(documents: seq<Document>, country: string): (r: ComplianceReport)
    ensures r.compliant <==> r.missingDocs == []
    ensures forall d :: d in r.missingDocs <==> d in RequiredDocs(country) && d !in SubmittedTypes(documents)
    ensures NoDuplicates(r.missingDocs)
    ensures r.restrictions == Restrictions(country)
  {
    var required := Dedup(RequiredDocs(country));
    var missing := Lists.Filter(required, NotSubmitted(SubmittedTypes(documents)));
    Lists.FilterMembers(required, NotSubmitted(SubmittedTypes(documents)));
    FilterKeepsDistinct(required, NotSubmitted(SubmittedTypes(documents)));
    ComplianceReport(|missing| == 0, missing, Restrictions(country))
  }

  lemma {:induction false} FilterKeepsDistinct(xs: seq<string>, p: string -> bool)
    requires NoDuplicates(xs)
    ensures NoDuplicates(Lists.Filter(xs, p))
    decreases |xs|
  {
    if xs != [] {
      FilterKeepsDistinct(xs[1..], p);
      Lists.FilterMembers(xs[1..], p);
      assert xs[0] !in xs[1..];
    }
  }

  /** The missing documents appear in the order the table lists them. */
  lemma MissingInTableOrder(documents: seq<Document>, country: string)
    ensures Lists.IsSubsequence(ValidateCompliance(documents, country).missingDocs, RequiredDocs(country))
  {
    DedupRequired(country);
    Lists.FilterIsSubsequence(RequiredDocs(country), NotSubmitted(SubmittedTypes(documents)));
  }

  /** The table lists no document twice, so the deduplication keeps it. */
  lemma DedupRequired(country: string)
    ensures Dedup(RequiredDocs(country)) == RequiredDocs(country)
  {
    RequiredDocsDistinct(country);
    DedupOfDistinct(RequiredDocs(country));
  }

  /** A country outside the table has no requirements and no restrictions,
      so every shipment to it passes. */
  lemma UnknownCountryPasses(documents: seq<Document>, country: string)
    requires country != "US" && country != "EU"
    ensures ValidateCompliance(documents, country) == ComplianceReport(true, [], [])
  {
  }

  /** The report depends on the documents only through the set of their
      types: reordering or repeating documents changes nothing. */
  lemma OnlyTypesMatter(d1: seq<Document>, d2: seq<Document>, country: string)
    requires SubmittedTypes(d1) == SubmittedTypes(d2)
    ensures ValidateCompliance(d1, country) == ValidateCompliance(d2, country)
  {
  }

  /** Two document lists with the same elements yield the same report. */
  lemma SameDocumentsSameReport(d1: seq<Document>, d2: seq<Document>, country: string)
    requires forall d :: d in d1 <==> d in d2
    ensures ValidateCompliance(d1, country) == ValidateCompliance(d2, country)
  {
    assert SubmittedTypes(d1) == SubmittedTypes(d2);
  }

  /** Supplying more documents never adds a missing document: what is still
      missing is a subsequence of what was missing before. */
  lemma MoreDocumentsNeverMissMore(documents: seq<Document>, more: seq<Document>, country: string)
    ensures Lists.IsSubsequence(
              ValidateCompliance(documents + more, country).missingDocs,
              ValidateCompliance(documents, country).missingDocs)
  {
    var required := Dedup(RequiredDocs(country));
    assert SubmittedTypes(documents) <= SubmittedTypes(documents + more);
    Lists.FilterStricter(required, NotSubmitted(SubmittedTypes(documents)),
                         NotSubmitted(SubmittedTypes(documents + more)));
  }

  /** The restrictions are the country's, whatever the documents. */
  lemma RestrictionsIgnoreDocuments(d1: seq<Document>, d2: seq<Document>, country: string)
    ensures ValidateCompliance(d1, country).restrictions == ValidateCompliance(d2, country).restrictions
    ensures country == "US" ==> ValidateCompliance(d1, country).restrictions == UnitedStates.restrictions
    ensures country == "EU" ==> ValidateCompliance(d1, country).restrictions == EuropeanUnion.restrictions
  {
  }

  /** A US shipment with only its commercial invoice misses the other three
      documents, in table order. */
  lemma UnitedStatesScenario()
    ensures ValidateCompliance([Document("Commercial Invoice", "inv.pdf")], "US")
            == ComplianceReport(false, ["Packing List", "FDA Prior Notice", "Phytosanitary Certificate"],
                                UnitedStates.restrictions)
  {
    var one := [Document("Commercial Invoice", "inv.pdf")];
    UnitedStatesTable();
    assert SubmittedTypes(one) == {"Commercial Invoice"};
    InvoiceOnlyFilter();
  }

  /** The US row of the table, deduplicated, is itself. */
  lemma UnitedStatesTable()
    ensures RequiredDocs("US") == UnitedStates.requiredDocs
    ensures Dedup(RequiredDocs("US")) == UnitedStates.requiredDocs
  {
    DedupOfDistinct(UnitedStates.requiredDocs);
  }

  lemma InvoiceOnlyFilter()
    ensures Lists.Filter(UnitedStates.requiredDocs, NotSubmitted({"Commercial Invoice"}))
            == ["Packing List", "FDA Prior Notice", "Phytosanitary Certificate"]
  {
    var f := NotSubmitted({"Commercial Invoice"});
    Lists.FilterCons("Phytosanitary Certificate", [], f);
    Lists.FilterCons("FDA Prior Notice", ["Phytosanitary Certificate"], f);
    Lists.FilterCons("Packing List", ["FDA Prior Notice", "Phytosanitary Certificate"], f);
    Lists.FilterCons("Commercial Invoice", ["Packing List", "FDA Prior Notice", "Phytosanitary Certificate"], f);
  }

  /** Once every required type is among the documents, the US shipment is
      compliant. */
  lemma UnitedStatesScenarioCompleted()
    ensures ValidateCompliance([Document("Commercial Invoice", "inv.pdf"), Document("Packing List", "pl.pdf"),
                                Document("FDA Prior Notice", "fda.pdf"),
                                Document("Phytosanitary Certificate", "phy.pdf")], "US").compliant
  {
    var all := [Document("Commercial Invoice", "inv.pdf"), Document("Packing List", "pl.pdf"),
                Document("FDA Prior Notice", "fda.pdf"), Document("Phytosanitary Certificate", "phy.pdf")];
    UnitedStatesTable();
    var types := {"Commercial Invoice", "Packing List", "FDA Prior Notice", "Phytosanitary Certificate"};
    assert SubmittedTypes(all) == types;
    Lists.FilterDropsAll(UnitedStates.requiredDocs, NotSubmitted(types));
  }

  // ---------------------------------------------------------------------
  // The slug `s.toLowerCase().replace(/\s+/g, '-')`
  // ---------------------------------------------------------------------

  /** `s.replace(/\s+/g, '-')`: every maximal run of whitespace becomes one
      hyphen. */
  function CollapseSpaces(s: string): (r: string)
    ensures forall i :: 0 <= i < |r| ==> !IsJsSpace(r[i])
    decreases |s|
  {
    if s == [] then []
    else if IsJsSpace(s[0]) then "-" + CollapseSpaces(TrimStart(s))
    else [s[0]] + CollapseSpaces(s[1..])
  }

  predicate NoAsciiUpper(s: string) {
    forall i :: 0 <= i < |s| ==> !IsAsciiUpper(s[i])
  }

  lemma {:induction false} TrimStartKeepsLower(s: string)
    requires NoAsciiUpper(s)
    ensures NoAsciiUpper(TrimStart(s))
    decreases |s|
  {
    if s != [] && IsJsSpace(s[0]) {
      TrimStartKeepsLower(s[1..]);
    }
  }

  /** Collapsing whitespace introduces no upper-case letter. */
  lemma {:induction false} CollapseKeepsLower(s: string)
    requires NoAsciiUpper(s)
    ensures NoAsciiUpper(CollapseSpaces(s))
    decreases |s|
  {
    if s != [] {
      if IsJsSpace(s[0]) {
        TrimStartKeepsLower(s);
        CollapseKeepsLower(TrimStart(s));
      } else {
        CollapseKeepsLower(s[1..]);
      }
    }
  }

  /** The slug used in template and customs-form URLs: the lower-cased text
      with each whitespace run replaced by `-`. */
  function Slug(s: string): (r: string)
    ensures forall i :: 0 <= i < |r| ==> !IsJsSpace(r[i]) && !IsAsciiUpper(r[i])
  {
    CollapseKeepsLower(Lower(s));
    CollapseSpaces(Lower(s))
  }

  lemma {:induction false} CollapseWithoutSpaces(s: string)
    requires forall i :: 0 <= i < |s| ==> !IsJsSpace(s[i])
    ensures CollapseSpaces(s) == s
    decreases |s|
  {
    if s != [] {
      CollapseWithoutSpaces(s[1..]);
      assert s == [s[0]] + s[1..];
    }
  }

  /** A slug is its own slug. */
  lemma SlugIdempotent(s: string)
    ensures Slug(Slug(s)) == Slug(s)
  {
    var t := Slug(s);
    assert Lower(t) == t;
    CollapseWithoutSpaces(t);
  }

  /** Two space-free words joined by one space collapse to the words
      joined by a hyphen. */
  lemma CollapseJoin(a: string, b: string)
    requires forall i :: 0 <= i < |a| ==> !IsJsSpace(a[i])
    requires forall i :: 0 <= i < |b| ==> !IsJsSpace(b[i])
    ensures CollapseSpaces(a + " " + b) == a + "-" + b
  {
    Associate(a, " ", b);
    Associate(a, "-", b);
    CollapsePrefix(a, " " + b);
    CollapseLeadingSpace(b);
  }

  lemma Associate(a: string, m: string, b: string)
    ensures a + m + b == a + (m + b)
  {
  }

  /** A whitespace run of any length and kind between a space-free prefix
      and a rest that does not start with whitespace becomes one hyphen. */
  lemma CollapseRun(a: string, w: string, b: string)
    requires forall i :: 0 <= i < |a| ==> !IsJsSpace(a[i])
    requires w != [] && forall i :: 0 <= i < |w| ==> IsJsSpace(w[i])
    requires b == [] || !IsJsSpace(b[0])
    ensures CollapseSpaces(a + w + b) == a + "-" + CollapseSpaces(b)
  {
    Associate(a, w, b);
    Associate(a, "-", CollapseSpaces(b));
    CollapsePrefix(a, w + b);
    TrimStartRun(w, b);
  }

  /** One space before a space-free word becomes one hyphen. */
  lemma CollapseLeadingSpace(b: string)
    requires forall i :: 0 <= i < |b| ==> !IsJsSpace(b[i])
    ensures CollapseSpaces(" " + b) == "-" + b
  {
    var t := " " + b;
    assert t[1..] == b;
    assert TrimStart(t) == TrimStart(b);
    assert TrimStart(b) == b;
    CollapseWithoutSpaces(b);
  }

  /** The slug of a table name with one inner space, as it appears in the
      template URLs. */
  lemma SlugExample()
    ensures Slug("Packing List") == "packing-list"
  {
    var s := "Packing List";
    assert Lower(s) == "packing list" by {
      assert |Lower(s)| == 12;
      forall i | 0 <= i < 12 ensures Lower(s)[i] == "packing list"[i] {}
    }
    CollapseJoin("packing", "list");
    assert "packing list" == "packing" + " " + "list";
    assert "packing" + "-" + "list" == "packing-list";
  }

  /** A space-free prefix passes through unchanged. */
  lemma {:induction false} CollapsePrefix(a: string, b: string)
    requires forall i :: 0 <= i < |a| ==> !IsJsSpace(a[i])
    ensures CollapseSpaces(a + b) == a + CollapseSpaces(b)
    decreases |a|
  {
    if a != [] {
      assert (a + b)[1..] == a[1..] + b;
      CollapsePrefix(a[1..], b);
      assert a == [a[0]] + a[1..];
    } else {
      assert a + b == b;
    }
  }

  // ---------------------------------------------------------------------
  // getDocumentTemplates and generateCustomsForms
  // ---------------------------------------------------------------------

  const TemplatesBase := "https://api.cargoconnect.com/templates/"
  const CustomsBase := "https://api.cargoconnect.com/customs/"

  datatype Template = Template(name: string, templateUrl: string)

  datatype CustomsForm = CustomsForm(formName: string, prefilledUrl: string)

  /** The fields of `orderDetails` that `generateCustomsForms` reads. */
  datatype OrderDetails = OrderDetails(orderId: string, destination: string)

  function TemplateOf(doc: string): Template {
    Template(doc, TemplatesBase + Slug(doc))
  }

  function FormOf(orderId: string, form: string): CustomsForm {
    CustomsForm(form, CustomsBase + orderId + "/" + Slug(form))
  }

  /** `docs.map(doc => ({ name: doc, templateUrl: ... }))`. */
  function TemplatesFor(docs: seq<string>): seq<Template> {
    seq(|docs|, i requires 0 <= i < |docs| => TemplateOf(docs[i]))
  }

  /** `forms.map(form => ({ formName: form, prefilledUrl: ... }))`. */
  function FormsFor(orderId: string, forms: seq<string>): seq<CustomsForm> {
    seq(|forms|, i requires 0 <= i < |forms| => FormOf(orderId, forms[i]))
  }

  /** `getDocumentTemplates(country)` with the lookup restricted to the
      table's own keys: one template per required document, in order, and
      `[]` for every other country. */
  function DocumentTemplates(country: string): (r: seq<Template>)
    ensures |r| == |RequiredDocs(country)|
    ensures forall i :: 0 <= i < |r| ==>
              r[i].name == RequiredDocs(country)[i]
              && r[i].templateUrl == TemplatesBase + Slug(RequiredDocs(country)[i])
    ensures country != "US" && country != "EU" ==> r == []
  {
    TemplatesFor(RequiredDocs(country))
  }

  /** `getDocumentTemplates(country)` as written: `?.` guards only against
      `undefined`, so an inherited member's missing `requiredDocs` is
      dereferenced and the call throws. */
  function DocumentTemplatesAsWritten(country: string): (r: Result<seq<Template>>)
    ensures r.Err? <==> country in JsObjects.PrototypeMembers
  {
    match LookupCountry(country)
    case Own(p) => Ok(TemplatesFor(p.requiredDocs))
    case Inherited => Err("Cannot read properties of undefined (reading 'map')")
    case Missing => Ok([])
  }

  /** Outside the inherited names, the code as written and the corrected
      lookup agree. */
  lemma TemplatesAgreeOffPrototype(country: string)
    requires country !in JsObjects.PrototypeMembers
    ensures DocumentTemplatesAsWritten(country) == Ok(DocumentTemplates(country))
  {
  }

  /** `getDocumentTemplates("toString")` throws, where the evident intent is
      the empty list every other unknown country gets. */
  lemma TemplatesThrowOnInheritedName()
    ensures DocumentTemplatesAsWritten("toString").Err?
    ensures DocumentTemplates("toString") == []
  {
  }

  /** With nothing submitted, the missing documents are exactly the names of
      the templates offered for the country, in the same order. */
  lemma TemplatesCoverMissingDocs(country: string)
    ensures |ValidateCompliance([], country).missingDocs| == |DocumentTemplates(country)|
    ensures forall i :: 0 <= i < |DocumentTemplates(country)| ==>
              ValidateCompliance([], country).missingDocs[i] == DocumentTemplates(country)[i].name
  {
    var required := RequiredDocs(country);
    NothingSubmittedMissesAll(country);
    TemplateNames(required);
  }

  /** With no documents, every required document is missing. */
  lemma NothingSubmittedMissesAll(country: string)
    ensures ValidateCompliance([], country).missingDocs == RequiredDocs(country)
  {
    var required := RequiredDocs(country);
    DedupRequired(country);
    assert SubmittedTypes([]) == {};
    Lists.FilterKeepsAll(required, NotSubmitted({}));
  }

  lemma TemplateNames(docs: seq<string>)
    ensures |TemplatesFor(docs)| == |docs|
    ensures forall i :: 0 <= i < |docs| ==> TemplatesFor(docs)[i].name == docs[i]
  {
  }

  /** `generateCustomsForms(orderDetails)` with the lookup restricted to the
      table's own keys: one form per customs form of the destination, in
      order, each linking to the prefix, the order id, `/` and the slug. */
  function GenerateCustomsForms(order: OrderDetails): (r: seq<CustomsForm>)
    ensures |r| == |CustomsFormNames(order.destination)|
    ensures forall i :: 0 <= i < |r| ==>
              r[i].formName == CustomsFormNames(order.destination)[i]
              && r[i].prefilledUrl == CustomsBase + order.orderId + "/" + Slug(r[i].formName)
    ensures order.destination != "US" && order.destination != "EU" ==> r == []
  {
    FormsFor(order.orderId, CustomsFormNames(order.destination))
  }

  /** `generateCustomsForms(orderDetails)` as written: an inherited member
      as destination makes the promise reject. */
  function GenerateCustomsFormsAsWritten(order: OrderDetails): (r: Result<seq<CustomsForm>>)
    ensures r.Err? <==> order.destination in JsObjects.PrototypeMembers
  {
    match LookupCountry(order.destination)
    case Own(p) => Ok(FormsFor(order.orderId, p.customsForms))
    case Inherited => Err("Cannot read properties of undefined (reading 'map')")
    case Missing => Ok([])
  }

  lemma FormsAgreeOffPrototype(order: OrderDetails)
    requires order.destination !in JsObjects.PrototypeMembers
    ensures GenerateCustomsFormsAsWritten(order) == Ok(GenerateCustomsForms(order))
  {
  }
}

=== FILE: ContextState.dfy ===
/** The state a list-holding React context keeps, a list, a loading flag and
    an error message, and the fetch that refreshes it. The shipments and the
    inventory contexts share this shape. */
module ContextState {
  import opened Results

  datatype State<T> = State(items: seq<T>, loading: bool, error: Option<string>)

  /** `useState([])`, `useState(true)`, `useState(null)`. */
  function Initial<T>(): State<T> {
    State([], true, None)
  }

  /** The fetch: loading goes up, the API is awaited, then a success
      replaces the list and clears the error while a failure keeps the list
      and records `failure`; the `finally` brings loading down either way. */
  function Fetch<T>(st: State<T>, response: Result<seq<T>>, failure: string): (r: State<T>)
    ensures !r.loading
    ensures response.Ok? ==> r.items == response.value && r.error.None?
    ensures response.Err? ==> r.items == st.items && r.error == Some(failure)
  {
    var busy := st.(loading := true);
    var settled :=
      match response
      case Ok(data) => busy.(items := data, error := None)
      case Err(_) => busy.(error := Some(failure));
    settled.(loading := false)
  }

  /** A success after any number of failures leaves the same state as the
      success alone: earlier failures leave no trace. */
  lemma SuccessErasesFailures<T>(st: State<T>, failures: nat, data: seq<T>, failure: string)
    ensures Fetch(Failing(st, failures, failure), Ok(data), failure) == Fetch(st, Ok(data), failure)
    ensures Fetch(st, Ok(data), failure) == State(data, false, None)
  {
  }

  /** `failures` failed fetches in a row. */
  function Failing<T>(st: State<T>, failures: nat, failure: string): (r: State<T>)
    ensures r.items == st.items
    ensures failures > 0 ==> r.error == Some(failure) && !r.loading
  {
    if failures == 0 then st else Fetch(Failing(st, failures - 1, failure), Err("network"), failure)
  }

  /** Fetching twice with the same answer is fetching once. */
  lemma FetchIdempotent<T>(st: State<T>, response: Result<seq<T>>, failure: string)
    ensures Fetch(Fetch(st, response, failure), response, failure) == Fetch(st, response, failure)
  {
  }
}

=== FILE: DashboardTable.dfy ===
/** The dashboard's shipment table: a search box that narrows only when it
    holds text, and column headers whose sort state differs from the other
    pages' in two ways: the field is the lower-cased header text, and every
    click flips the direction. */
module DashboardTable {
  import opened Text
  import opened SortControls
  import Lists
  import Sorting

  datatype DashRow = DashRow(id: nat, trackingId: string, destination: string, carrier: string, status: string)

  /** The rows the dashboard hands the table. */
  const MockRows: seq<DashRow> := [
    DashRow(1, "FF-2024-001", "United States", "DHL Express", "In Transit"),
    DashRow(2, "FF-2024-002", "Europe", "FedEx", "Processing"),
    DashRow(3, "FF-2024-003", "Asia", "UPS", "Delivered")]

  /** The header texts; a click sorts by the lower-cased text. */
  const Headers: seq<string> := ["Tracking ID", "Destination", "Carrier", "Status", "Documentation"]

  datatype TableState = TableState(sortField: string, direction: Direction, query: string)

  /** No sort field, ascending, empty search. */
  const Initial := TableState("", Asc, "")

  /** `Object.values(shipment).map(v => v.toString())`. */
  function Values(row: DashRow): seq<string> {
    [NatToString(row.id), row.trackingId, row.destination, row.carrier, row.status]
  }

  predicate Matches(row: DashRow, query: string) {
    SomeValueContains(Values(row), query)
  }

  function MatchesQuery(query: string): DashRow -> bool {
    (row: DashRow) => Matches(row, query)
  }

  /** `handleSort(field)`: the field is set and the direction flips,
      whether or not the field changed. */
  function HandleSort(st: TableState, field: string): (r: TableState)
    ensures r.sortField == field && r.direction != st.direction && r.query == st.query
  {
    st.(sortField := field, direction := Flip(st.direction))
  }

  /** The first click on a header sorts descending here, where the pages'
      header logic starts a new field ascending. */
  lemma FirstClickDescends(field: string)
    requires field != ""
    ensures HandleSort(Initial, field).direction == Desc
    ensures SortControls.HandleSort(SortState(Initial.sortField, Initial.direction), field).direction == Asc
  {
  }

  /** Clicking two different headers in a row ends where it began in
      direction: the second header is not reset to ascending. */
  lemma TwoHeadersKeepFlipping(st: TableState, f: string, g: string)
    ensures HandleSort(HandleSort(st, f), g).direction == st.direction
  {
  }

  /** The value `shipment[field]` compares by: the numeric id, one of the
      string fields, or `undefined` for any other name that is not an own
      key. An inherited `Object.prototype` member is the same on both rows,
      so `<` and `>` between them are false, as they are for `undefined`. */
  datatype Key = Num(n: int) | Str(s: string) | Undefined

  predicate StringField(field: string) {
    field == "trackingId" || field == "destination" || field == "carrier" || field == "status"
  }

  function StringKey(field: string): DashRow -> string {
    (row: DashRow) =>
      if field == "trackingId" then row.trackingId
      else if field == "destination" then row.destination
      else if field == "carrier" then row.carrier
      else row.status
  }

  function IdKey(): DashRow -> int {
    (row: DashRow) => row.id as int
  }

  function KeyOf(row: DashRow, field: string): (k: Key)
    ensures field == "id" ==> k == Num(row.id)
    ensures StringField(field) ==> k == Str(StringKey(field)(row))
    ensures field != "id" && !StringField(field) ==> k.Undefined?
  {
    if field == "id" then Num(row.id)
    else if StringField(field) then Str(StringKey(field)(row))
    else Undefined
  }

  /** `a[f] < b[f]`: numbers by value, strings by `<` (Text.LexLess), and false
      whenever `undefined` is involved. */
  predicate KeyLess(a: Key, b: Key) {
    match (a, b)
    case (Num(x), Num(y)) => x < y
    case (Str(x), Str(y)) => LexLess(x, y)
    case _ => false
  }

  /** The sort callback: -1/1 on `<`, 1/-1 on `>`, 0 otherwise, with the
      signs swapped when descending. */
  function Compare(field: string, direction: Direction): (DashRow, DashRow) -> int {
    (a: DashRow, b: DashRow) =>
      var m := Sign(direction);
      if KeyLess(KeyOf(a, field), KeyOf(b, field)) then -m
      else if KeyLess(KeyOf(b, field), KeyOf(a, field)) then m
      else 0
  }

  /** On the id the callback is the numeric key comparison, on a string
      field the string key comparison, and on any other field it is 0. */
  lemma CompareIsKeyCompare(field: string, direction: Direction, a: DashRow, b: DashRow)
    ensures field == "id" ==>
              Compare(field, direction)(a, b) == Sorting.KeyCompare(IdKey(), Sorting.IntLess(), Sign(direction))(a, b)
    ensures StringField(field) ==>
              Compare(field, direction)(a, b) == Sorting.KeyCompare(StringKey(field), Sorting.StringLess(), Sign(direction))(a, b)
    ensures field != "id" && !StringField(field) ==> Compare(field, direction)(a, b) == 0
  {
  }

  /** The rows left by the search box: the filter runs only for a
      non-empty query. */
  function Searched(rows: seq<DashRow>, query: string): (r: seq<DashRow>)
    ensures query == "" ==> r == rows
    ensures forall i :: 0 <= i < |r| ==> r[i] in rows && Matches(r[i], query)
    ensures forall i :: 0 <= i < |rows| && Matches(rows[i], query) ==> rows[i] in r
  {
    if query == "" then
      assert forall row :: Matches(row, "") by {
        forall row ensures Matches(row, "") {
          ContainsEmpty(Lower(Values(row)[0]));
        }
      }
      rows
    else
      Lists.FilterMembers(rows, MatchesQuery(query));
      Lists.Filter(rows, MatchesQuery(query))
  }

  /** Skipping the filter for an empty query loses nothing: every row
      contains the empty string, so filtering would keep them all. */
  lemma EmptySearchSkipIsHarmless(rows: seq<DashRow>, query: string)
    ensures Searched(rows, query) == Lists.Filter(rows, MatchesQuery(query))
  {
    if query == "" {
      forall i | 0 <= i < |rows| ensures MatchesQuery(query)(rows[i]) {
        ContainsEmpty(Lower(Values(rows[i])[0]));
      }
      Lists.FilterKeepsAll(rows, MatchesQuery(query));
    }
  }

  /** `filteredShipments` after the effect has run: searched, then sorted
      when a sort field is set. */
  function Displayed(rows: seq<DashRow>, st: TableState): (r: seq<DashRow>)
    ensures multiset(r) == multiset(Searched(rows, st.query))
    ensures st.sortField == "" ==> r == Searched(rows, st.query)
  {
    var searched := Searched(rows, st.query);
    if st.sortField == "" then searched
    else
      Sorting.SortPermutes(searched, Compare(st.sortField, st.direction));
      Sorting.Sort(searched, Compare(st.sortField, st.direction))
  }

  /** Before any click or search the table shows its input as given. */
  lemma InitialShowsInput(rows: seq<DashRow>)
    ensures Displayed(rows, Initial) == rows
  {
  }

  /** A field the rows do not have, such as the lower-cased headers
      "tracking id" and "documentation", compares every pair as equal and
      leaves the searched order as it was. */
  lemma UnknownFieldKeepsOrder(rows: seq<DashRow>, st: TableState)
    requires st.sortField != "id" && !StringField(st.sortField)
    ensures Displayed(rows, st) == Searched(rows, st.query)
  {
    if st.sortField != "" {
      var s := Searched(rows, st.query);
      var cmp := Compare(st.sortField, st.direction);
      forall i, j | 0 <= i < |s| && 0 <= j < |s| ensures cmp(s[i], s[j]) <= 0 {
        CompareIsKeyCompare(st.sortField, st.direction, s[i], s[j]);
      }
      Sorting.SortKeepsOrderOfTies(s, cmp);
    }
  }

  /** Two of the five headers name no field of a row once lower-cased. */
  lemma HeadersWithoutField()
    ensures Lower(Headers[0]) == "tracking id" && Lower(Headers[4]) == "documentation"
    ensures forall i :: 0 <= i < |Headers| ==> Lower(Headers[i]) != "id"
    ensures !StringField(Lower(Headers[0])) && !StringField(Lower(Headers[4]))
  {
    assert Lower(Headers[0]) == "tracking id" by {
      forall i | 0 <= i < 11 ensures Lower(Headers[0])[i] == "tracking id"[i] { }
    }
    assert Lower(Headers[4]) == "documentation" by {
      forall i | 0 <= i < 13 ensures Lower(Headers[4])[i] == "documentation"[i] { }
    }
    forall i | 0 <= i < |Headers| ensures Lower(Headers[i]) != "id" {
      assert |Lower(Headers[i])| != 2;
    }
  }

  /** The callback is consistent on every field. */
  lemma CompareConsistent(field: string, direction: Direction)
    ensures Sorting.TotalPreorder(Compare(field, direction))
  {
    var cmp := Compare(field, direction);
    var m := Sign(direction);
    if field == "id" {
      Sorting.IntLessStrictTotal();
      Sorting.KeyCompareConsistent(IdKey(), Sorting.IntLess(), m);
    } else if StringField(field) {
      Sorting.StringLessStrictTotal();
      Sorting.KeyCompareConsistent(StringKey(field), Sorting.StringLess(), m);
    }
    forall a, b ensures cmp(a, b) <= 0 || cmp(b, a) <= 0 {
      CompareIsKeyCompare(field, direction, a, b);
      CompareIsKeyCompare(field, direction, b, a);
    }
    forall a, b, c | cmp(a, b) <= 0 && cmp(b, c) <= 0 ensures cmp(a, c) <= 0 {
      CompareIsKeyCompare(field, direction, a, b);
      CompareIsKeyCompare(field, direction, b, c);
      CompareIsKeyCompare(field, direction, a, c);
    }
  }

  /** Sorted by a string field, no row is followed by one with a smaller
      (ascending) or larger (descending) value. */
  lemma SortedByStringField(rows: seq<DashRow>, st: TableState)
    requires StringField(st.sortField)
    ensures var r := Displayed(rows, st);
            var key := StringKey(st.sortField);
            forall i, j :: 0 <= i < j < |r| ==>
              if st.direction == Asc then !LexLess(key(r[j]), key(r[i])) else !LexLess(key(r[i]), key(r[j]))
  {
    var s := Searched(rows, st.query);
    var key := StringKey(st.sortField);
    var m := Sign(st.direction);
    var kc := Sorting.KeyCompare(key, Sorting.StringLess(), m);
    forall i, j | 0 <= i < |s| && 0 <= j < |s| && i != j
      ensures Compare(st.sortField, st.direction)(s[i], s[j]) > 0 <==> kc(s[i], s[j]) > 0
    {
      CompareIsKeyCompare(st.sortField, st.direction, s[i], s[j]);
    }
    Sorting.SortAgrees(s, Compare(st.sortField, st.direction), kc);
    Sorting.StringLessStrictTotal();
    Sorting.SortByKey(s, key, Sorting.StringLess(), m);
  }

  /** Sorted by id, the ids run up (ascending) or down (descending). */
  lemma SortedById(rows: seq<DashRow>, st: TableState)
    requires st.sortField == "id"
    ensures var r := Displayed(rows, st);
            forall i, j :: 0 <= i < j < |r| ==>
              if st.direction == Asc then r[i].id <= r[j].id else r[i].id >= r[j].id
  {
    var s := Searched(rows, st.query);
    var m := Sign(st.direction);
    var kc := Sorting.KeyCompare(IdKey(), Sorting.IntLess(), m);
    forall i, j | 0 <= i < |s| && 0 <= j < |s| && i != j
      ensures Compare("id", st.direction)(s[i], s[j]) > 0 <==> kc(s[i], s[j]) > 0
    {
      CompareIsKeyCompare("id", st.direction, s[i], s[j]);
    }
    Sorting.SortAgrees(s, Compare("id", st.direction), kc);
    Sorting.IntLessStrictTotal();
    Sorting.SortByKey(s, IdKey(), Sorting.IntLess(), m);
  }

  /** Rows that compare equal, such as two with the same carrier, keep the
      order the search left them in. */
  lemma TiesKeepOrder(rows: seq<DashRow>, st: TableState, p: DashRow)
    ensures var cmp := Compare(st.sortField, st.direction);
            Sorting.ClassOf(Displayed(rows, st), p, cmp) == Sorting.ClassOf(Searched(rows, st.query), p, cmp)
  {
    if st.sortField != "" {
      CompareConsistent(st.sortField, st.direction);
      Sorting.SortStable(Searched(rows, st.query), p, Compare(st.sortField, st.direction));
    }
  }

  /** The badge colour: blue for "In Transit", yellow for "Processing",
      green for anything else. */
  datatype Colour = Blue | Yellow | Green

  function BadgeColour(status: string): (c: Colour)
    ensures c == Blue <==> status == "In Transit"
    ensures c == Yellow <==> status == "Processing"
  {
    if status == "In Transit" then Blue
    else if status == "Processing" then Yellow
    else Green
  }

  /** The three mock rows show the three colours. */
  lemma MockRowsShowEachColour()
    ensures BadgeColour(MockRows[0].status) == Blue
    ensures BadgeColour(MockRows[1].status) == Yellow
    ensures BadgeColour(MockRows[2].status) == Green
  {
  }
}

=== FILE: DocumentUploadPage.dfy ===
/** The upload page: the list of chosen files, the drag highlight, and the
    Upload button's count. */
module DocumentUploadPage {
  import opened Text

  /** A chosen file; the page only keeps and removes them. */
  datatype File = File(name: string, size: nat)

  datatype UploadState = UploadState(files: seq<File>, dragActive: bool)

  const Initial := UploadState([], false)

  /** `handleFiles(newFiles)`: the new files after the old ones. */
  function HandleFiles(files: seq<File>, newFiles: seq<File>): (r: seq<File>)
    ensures |r| == |files| + |newFiles|
    ensures r[..|files|] == files && r[|files|..] == newFiles
  {
    files + newFiles
  }

  /** `files.filter((_, i) => i !== index)` over the positions from `from`
      on: the file at position `index`, if there is one, is dropped. */
  function KeepOthers(files: seq<File>, index: int, from: nat): (r: seq<File>)
    ensures from <= index < from + |files| ==> r == files[..index - from] + files[index - from + 1..]
    ensures !(from <= index < from + |files|) ==> r == files
    decreases |files|
  {
    if files == [] then []
    else
      var rest := KeepOthers(files[1..], index, from + 1);
      if from == index then
        assert files[1..] == files[..0] + files[1..];
        rest
      else
        assert from < index < from + |files| ==> files[1..][..index - from - 1] == files[1..index - from];
        assert from < index < from + |files| ==> [files[0]] + files[1..index - from] == files[..index - from];
        assert [files[0]] + files[1..] == files;
        [files[0]] + rest
  }

  /** `removeFile(index)`. */
  function RemoveFile(files: seq<File>, index: int): (r: seq<File>)
    ensures 0 <= index < |files| ==> |r| == |files| - 1
    ensures 0 <= index < |files| ==> forall i :: 0 <= i < |r| ==> r[i] == (if i < index then files[i] else files[i + 1])
    ensures !(0 <= index < |files|) ==> r == files
  {
    KeepOthers(files, index, 0)
  }

  /** Adding files and removing them again, last first, gives the list
      back. */
  lemma AddThenRemoveLast(files: seq<File>, f: File)
    ensures RemoveFile(HandleFiles(files, [f]), |files|) == files
  {
  }

  /** Removing position `i` and putting the file back there is the
      identity. */
  lemma RemoveThenReinsert(files: seq<File>, index: nat)
    requires index < |files|
    ensures var r := RemoveFile(files, index);
            r[..index] + [files[index]] + r[index..] == files
  {
    var r := RemoveFile(files, index);
    assert r == files[..index] + files[index + 1..];
    assert r[..index] == files[..index] && r[index..] == files[index + 1..];
  }

  /** `handleDrag(e)` on the event type. */
  function HandleDrag(active: bool, eventType: string): (r: bool)
    ensures eventType == "dragenter" || eventType == "dragover" ==> r
    ensures eventType == "dragleave" ==> !r
    ensures eventType !in {"dragenter", "dragover", "dragleave"} ==> r == active
  {
    if eventType == "dragenter" || eventType == "dragover" then true
    else if eventType == "dragleave" then false
    else active
  }

  /** `handleDrop(e)` with the dropped files: the highlight goes off, and
      the files are added when there is at least one. */
  function HandleDrop(st: UploadState, dropped: seq<File>): (r: UploadState)
    ensures !r.dragActive
    ensures |dropped| == 0 ==> r.files == st.files
    ensures |dropped| > 0 ==> r.files == HandleFiles(st.files, dropped)
  {
    UploadState(if |dropped| > 0 then HandleFiles(st.files, dropped) else st.files, false)
  }

  /** `handleChange(e)` with the chosen files: added when there is at least
      one; the highlight is not touched. */
  function HandleChange(st: UploadState, chosen: seq<File>): (r: UploadState)
    ensures r.dragActive == st.dragActive
    ensures |chosen| == 0 ==> r == st
    ensures |chosen| > 0 ==> r.files == HandleFiles(st.files, chosen)
  {
    if |chosen| > 0 then st.(files := HandleFiles(st.files, chosen)) else st
  }

  /** Whatever drag events came before, a drop leaves the highlight off
      and the list only grows. */
  lemma DropAfterDragEnds(st: UploadState, events: seq<string>, dropped: seq<File>)
    ensures var r := HandleDrop(st.(dragActive := DragAll(st.dragActive, events)), dropped);
            !r.dragActive && r.files[..|st.files|] == st.files
  {
  }

  /** The highlight after a series of drag events. */
  function DragAll(active: bool, events: seq<string>): (r: bool)
    ensures events != [] && events[|events| - 1] in {"dragenter", "dragover"} ==> r
    ensures events != [] && events[|events| - 1] == "dragleave" ==> !r
    decreases |events|
  {
    if events == [] then active else HandleDrag(DragAll(active, events[..|events| - 1]), events[|events| - 1])
  }

  /** The Upload button's text: the count in parentheses once a file is
      chosen. */
  function UploadLabel(count: nat): (text: string)
    ensures count == 0 ==> text == "Upload "
    ensures count > 0 ==> |text| >= 10 && text[..8] == "Upload (" && text[|text| - 1] == ')'
  {
    "Upload " + (if count > 0 then "(" + NatToString(count) + ")" else "")
  }

  /** The number between the parentheses reads back as the file count. */
  lemma LabelShowsCount(files: seq<File>)
    requires |files| > 0
    ensures var text := UploadLabel(|files|);
            |text| >= 10 && AllDigits(text[8..|text| - 1]) && DigitsValue(text[8..|text| - 1]) == |files|
  {
    var text := UploadLabel(|files|);
    assert text[8..|text| - 1] == NatToString(|files|);
    NatToStringRoundTrip(|files|);
  }
}

=== FILE: DocumentsPage.dfy ===
/** The documents checklist: a map from document id to a submitted flag,
    the toggle on each entry, the "n / 5 Submitted" count and the
    not-yet-submitted alert. */
module DocumentsPage {
  import opened Results
  import Lists
  import JsObjects

  datatype DocumentEntry = DocumentEntry(id: string, name: string)

  /** The listed documents, in sidebar order. */
  const Documents: seq<DocumentEntry> := [
    DocumentEntry("bill-of-lading", "Straight Bill of Lading"),
    DocumentEntry("shipping-bill", "Shipping Bill"),
    DocumentEntry("certificate", "Certificate of Origin"),
    DocumentEntry("invoice", "Invoice"),
    DocumentEntry("packing", "Packing List")]

  const DocumentIds: set<string> := {"bill-of-lading", "shipping-bill", "certificate", "invoice", "packing"}

  /** The submitted flags the page starts with: only the invoice is in. */
  const InitialSubmitted: map<string, bool> := map[
    "bill-of-lading" := false,
    "shipping-bill" := false,
    "certificate" := false,
    "invoice" := true,
    "packing" := false]

  /** The document shown first. */
  const InitialSelected := "bill-of-lading"

  /** `submittedDocs[id]` read as a boolean: an own entry is its flag; any
      other id finds either an inherited `Object.prototype` member, which is
      truthy, or `undefined`, which is falsy. */
  predicate Submitted(m: map<string, bool>, id: string) {
    if id in m then m[id] else id in JsObjects.PrototypeMembers
  }

  /** `toggleSubmitted(id)`: a copy of the map whose own entry for `id` is
      `!prev[id]`. An id with no entry at all gets `true`; an inherited name
      gets `false`. */
  function Toggle(m: map<string, bool>, id: string): (r: map<string, bool>)
    ensures r.Keys == m.Keys + {id}
    ensures Submitted(r, id) <==> !Submitted(m, id)
    ensures id in m ==> r[id] == !m[id]
    ensures id !in m ==> r[id] == (id !in JsObjects.PrototypeMembers)
    ensures forall k :: k in m && k != id ==> r[k] == m[k]
  {
    m[id := !Submitted(m, id)]
  }

  /** Toggling an id that has an entry twice gives the map back. */
  lemma ToggleTwiceRestores(m: map<string, bool>, id: string)
    requires id in m
    ensures Toggle(Toggle(m, id), id) == m
  {
  }

  /** An id without an entry keeps an own entry after two toggles, equal to
      what it read before (`false`, or `true` for an inherited name), so
      every id reads the same as before. */
  lemma ToggleTwiceAbsent(m: map<string, bool>, id: string)
    requires id !in m
    ensures Toggle(Toggle(m, id), id) == m[id := id in JsObjects.PrototypeMembers]
    ensures forall k :: Submitted(Toggle(Toggle(m, id), id), k) <==> Submitted(m, k)
  {
  }

  /** The ids whose own flag is set: `Object.values(submittedDocs).filter(Boolean)`
      has one element per such id; inherited members are not own values. */
  function SubmittedIds(m: map<string, bool>): (r: set<string>)
    ensures forall k :: k in r <==> k in m && m[k]
    ensures forall k :: k in r ==> Submitted(m, k)
  {
    set k | k in m && m[k]
  }

  /** The header count. */
  function SubmittedCount(m: map<string, bool>): nat {
    |SubmittedIds(m)|
  }

  /** A toggle moves the count by exactly one, up when the id read falsy
      and down when its own entry was on. Toggling an inherited name that
      has no entry writes `false`, and the count stays. */
  lemma ToggleMovesCountByOne(m: map<string, bool>, id: string)
    ensures id in m && m[id] ==> SubmittedCount(Toggle(m, id)) + 1 == SubmittedCount(m)
    ensures !Submitted(m, id) ==> SubmittedCount(Toggle(m, id)) == SubmittedCount(m) + 1
    ensures id !in m && id in JsObjects.PrototypeMembers ==> SubmittedCount(Toggle(m, id)) == SubmittedCount(m)
  {
    if id in m && m[id] {
      ToggleDropsOwnFlag(m, id);
    } else if !Submitted(m, id) {
      ToggleRaisesFalsy(m, id);
    } else {
      ToggleInheritedKeepsIds(m, id);
    }
  }

  /** Toggling an own true entry removes exactly that id from the submitted ids. */
  lemma ToggleDropsOwnFlag(m: map<string, bool>, id: string)
    requires id in m && m[id]
    ensures id !in SubmittedIds(Toggle(m, id))
    ensures SubmittedIds(m) == SubmittedIds(Toggle(m, id)) + {id}
  {
    var after := SubmittedIds(Toggle(m, id));
    assert forall k :: k in SubmittedIds(m) ==> k == id || k in after;
  }

  /** Toggling an id that reads falsy adds exactly that id. */
  lemma ToggleRaisesFalsy(m: map<string, bool>, id: string)
    requires !Submitted(m, id)
    ensures id !in SubmittedIds(m)
    ensures SubmittedIds(Toggle(m, id)) == SubmittedIds(m) + {id}
  {
    var before := SubmittedIds(m);
    assert forall k :: k in SubmittedIds(Toggle(m, id)) ==> k == id || k in before;
  }

  /** Toggling an inherited name with no entry writes `false`: the submitted ids stay. */
  lemma ToggleInheritedKeepsIds(m: map<string, bool>, id: string)
    requires id !in m && Submitted(m, id)
    ensures SubmittedIds(Toggle(m, id)) == SubmittedIds(m)
  {
    var before := SubmittedIds(m);
    assert forall k :: k in SubmittedIds(Toggle(m, id)) ==> k in before;
  }

  /** The page's maps have one entry per listed document. */
  ghost predicate Listed(m: map<string, bool>) {
    m.Keys == DocumentIds
  }

  lemma ToggleKeepsListed(m: map<string, bool>, id: string)
    requires Listed(m) && id in DocumentIds
    ensures Listed(Toggle(m, id))
  {
  }

  /** The count never exceeds the five listed documents. */
  lemma CountAtMostFive(m: map<string, bool>)
    requires Listed(m)
    ensures SubmittedCount(m) <= |Documents| == 5
  {
    assert SubmittedIds(m) <= DocumentIds;
    SubsetSize(SubmittedIds(m), DocumentIds);
  }

  lemma {:induction false} SubsetSize(a: set<string>, b: set<string>)
    requires a <= b
    ensures |a| <= |b|
    decreases |b|
  {
    if b != {} {
      var x :| x in b;
      SubsetSize(a - {x}, b - {x});
    }
  }

  /** The page opens at "1 / 5 Submitted". */
  lemma InitialCountIsOne()
    ensures Listed(InitialSubmitted)
    ensures SubmittedCount(InitialSubmitted) == 1
  {
    assert SubmittedIds(InitialSubmitted) == {"invoice"};
  }

  /** The alert shows exactly when the selected document is not submitted. */
  function ShowsAlert(m: map<string, bool>, selected: string): (shown: bool)
    ensures selected in m ==> (shown <==> !m[selected])
    ensures selected !in m ==> (shown <==> selected !in JsObjects.PrototypeMembers)
  {
    !Submitted(m, selected)
  }

  /** Toggling the selected document hides or shows the alert. */
  lemma ToggleSelectedFlipsAlert(m: map<string, bool>, selected: string)
    ensures ShowsAlert(Toggle(m, selected), selected) == !ShowsAlert(m, selected)
  {
  }

  /** The page opens with the alert, since the bill of lading is not in. */
  lemma InitialAlertShown()
    ensures ShowsAlert(InitialSubmitted, InitialSelected)
  {
  }

  /** A name inherited from `Object.prototype` reads truthy with no entry:
      toggling `"toString"` on the starting map writes `false` and leaves
      the count at one, and `"constructor"` shows no alert. */
  lemma InheritedNamesReadTruthy()
    ensures Toggle(InitialSubmitted, "toString")["toString"] == false
    ensures SubmittedCount(Toggle(InitialSubmitted, "toString")) == 1
    ensures !ShowsAlert(InitialSubmitted, "constructor")
  {
    InitialCountIsOne();
    ToggleMovesCountByOne(InitialSubmitted, "toString");
  }

  /** `documents.find(d => d.id === selected)?.name`. */
  function Title(selected: string): (r: Option<string>)
    ensures r.Some? <==> selected in DocumentIds
    ensures r.Some? ==> DocumentEntry(selected, r.value) in Documents
  {
    assert forall i :: 0 <= i < |Documents| ==> Documents[i].id in DocumentIds;
    assert forall id :: id in DocumentIds ==> exists i :: 0 <= i < |Documents| && Documents[i].id == id by {
      forall id | id in DocumentIds ensures exists i :: 0 <= i < |Documents| && Documents[i].id == id {
        if id == "bill-of-lading" { assert Documents[0].id == id; }
        else if id == "shipping-bill" { assert Documents[1].id == id; }
        else if id == "certificate" { assert Documents[2].id == id; }
        else if id == "invoice" { assert Documents[3].id == id; }
        else { assert Documents[4].id == id; }
      }
    }
    match Lists.FirstIndex(Documents, (d: DocumentEntry) => d.id == selected)
    case Some(i) => Some(Documents[i].name)
    case None => None
  }
}

=== FILE: InventoryContext.dfy ===
/** The inventory context: the product list the inventory page reads,
    refreshed from the inventory API and patched after each successful add,
    update or delete. The HTTP API itself is not modelled: its answers are
    parameters. */
module InventoryContext {
  import opened Results
  import opened ContextState
  import Lists

  /** The fields of an inventory item the pages read. */
  datatype Product = Product(sku: string, name: string, category: string, stock: int)

  const FetchFailed := "Failed to fetch inventory"

  /** `fetchInventory()` given what `getAllItems` answered. */
  function FetchInventory(st: State<Product>, response: Result<seq<Product>>): (r: State<Product>)
    ensures !r.loading
    ensures response.Ok? ==> r.items == response.value && r.error.None?
    ensures response.Err? ==> r.items == st.items && r.error == Some("Failed to fetch inventory")
  {
    Fetch(st, response, FetchFailed)
  }

  /** `addProduct(productData)` given the API's answer: the returned
      product goes at the end; a failure is rethrown with the list as it
      was. */
  function AddProduct(st: State<Product>, response: Result<Product>): (r: State<Product>)
    ensures response.Err? ==> r == st
    ensures response.Ok? ==>
              && |r.items| == |st.items| + 1
              && r.items[..|st.items|] == st.items
              && r.items[|st.items|] == response.value
    ensures r.loading == st.loading && r.error == st.error
  {
    match response
    case Err(_) => st
    case Ok(p) => st.(items := st.items + [p])
  }

  function HasSku(sku: string): Product -> bool {
    (p: Product) => p.sku == sku
  }

  function OtherSku(sku: string): Product -> bool {
    (p: Product) => p.sku != sku
  }

  /** `updateProduct(sku, productData)` given the API's answer: every item
      with the sku becomes the returned product, the others stay in place. */
  function UpdateProduct(st: State<Product>, sku: string, response: Result<Product>): (r: State<Product>)
    ensures response.Err? ==> r == st
    ensures |r.items| == |st.items|
    ensures response.Ok? ==> forall i :: 0 <= i < |st.items| && st.items[i].sku == sku ==> r.items[i] == response.value
    ensures forall i :: 0 <= i < |st.items| && st.items[i].sku != sku ==> r.items[i] == st.items[i]
    ensures r.loading == st.loading && r.error == st.error
  {
    match response
    case Err(_) => st
    case Ok(p) => st.(items := Lists.ReplaceWhere(st.items, HasSku(sku), p))
  }

  /** `deleteProduct(sku)` given whether the API call succeeded: every item
      with the sku goes, the rest keep their relative order. */
  function DeleteProduct(st: State<Product>, sku: string, response: Result<()>): (r: State<Product>)
    ensures response.Err? ==> r == st
    ensures response.Ok? ==> forall i :: 0 <= i < |r.items| ==> r.items[i].sku != sku && r.items[i] in st.items
    ensures response.Ok? ==> forall i :: 0 <= i < |st.items| && st.items[i].sku != sku ==> st.items[i] in r.items
    ensures response.Ok? ==> forall q :: multiset(r.items)[q] == (if q.sku == sku then 0 else multiset(st.items)[q])
    ensures Lists.IsSubsequence(r.items, st.items)
    ensures r.loading == st.loading && r.error == st.error
  {
    match response
    case Err(_) =>
      assert Lists.IsSubsequence(st.items, st.items) by {
        Lists.FilterKeepsAll(st.items, (p: Product) => true);
        Lists.FilterIsSubsequence(st.items, (p: Product) => true);
      }
      st
    case Ok(_) =>
      Lists.FilterMembers(st.items, OtherSku(sku));
      Lists.FilterCounts(st.items, OtherSku(sku));
      Lists.FilterIsSubsequence(st.items, OtherSku(sku));
      st.(items := Lists.Filter(st.items, OtherSku(sku)))
  }

  /** Deleting a sku the list does not hold changes nothing. */
  lemma DeleteAbsentIsNoOp(st: State<Product>, sku: string)
    requires forall i :: 0 <= i < |st.items| ==> st.items[i].sku != sku
    ensures DeleteProduct(st, sku, Ok(())) == st
  {
    Lists.FilterKeepsAll(st.items, OtherSku(sku));
  }

  /** Deleting the same sku twice is deleting it once. */
  lemma DeleteIdempotent(st: State<Product>, sku: string)
    ensures DeleteProduct(DeleteProduct(st, sku, Ok(())), sku, Ok(())) == DeleteProduct(st, sku, Ok(()))
  {
    Lists.FilterIdempotent(st.items, OtherSku(sku));
  }

  /** Adding a product with a new sku and then deleting that sku gives the
      list back. */
  lemma AddThenDeleteRestores(st: State<Product>, p: Product)
    requires forall i :: 0 <= i < |st.items| ==> st.items[i].sku != p.sku
    ensures DeleteProduct(AddProduct(st, Ok(p)), p.sku, Ok(())) == st
  {
    Lists.FilterAppend(st.items, [p], OtherSku(p.sku));
    Lists.FilterKeepsAll(st.items, OtherSku(p.sku));
    assert Lists.Filter([p], OtherSku(p.sku)) == [] by {
      Lists.FilterCons(p, [], OtherSku(p.sku));
    }
  }

  /** Updating a sku to a product that keeps the sku and then deleting it
      is the same as deleting it straight away. */
  lemma {:induction false} UpdateThenDelete(st: State<Product>, sku: string, p: Product)
    requires p.sku == sku
    ensures DeleteProduct(UpdateProduct(st, sku, Ok(p)), sku, Ok(())) == DeleteProduct(st, sku, Ok(()))
  {
    ReplaceThenFilter(st.items, sku, p);
  }

  lemma {:induction false} ReplaceThenFilter(s: seq<Product>, sku: string, p: Product)
    requires p.sku == sku
    ensures Lists.Filter(Lists.ReplaceWhere(s, HasSku(sku), p), OtherSku(sku)) == Lists.Filter(s, OtherSku(sku))
    decreases |s|
  {
    if s != [] {
      var t := Lists.ReplaceWhere(s, HasSku(sku), p);
      assert t[1..] == Lists.ReplaceWhere(s[1..], HasSku(sku), p);
      ReplaceThenFilter(s[1..], sku, p);
    }
  }
}

=== FILE: InventoryPage.dfy ===
/** The inventory page's derived list and labels: the search filter over
    name and sku, the header sort, and the stock-level badge. */
module InventoryPage {
  import opened Results
  import opened Text
  import opened SortControls
  import Lists
  import Sorting
  import InventoryContext

  type Product = InventoryContext.Product

  /** `useState('name')`, `useState('asc')`. */
  const InitialSort := SortState("name", Asc)

  /** The search test: the lower-cased name or sku contains the lower-cased
      term. */
  predicate Matches(item: Product, term: string) {
    Contains(Lower(item.name), Lower(term)) || Contains(Lower(item.sku), Lower(term))
  }

  function MatchesTerm(term: string): Product -> bool {
    (p: Product) => Matches(p, term)
  }

  /** `item[field]` for the text fields the callback subtracts other than
      name; `None` for any other name that is not an own key. An inherited
      `Object.prototype` member read there is a function or object, whose
      difference is NaN just like `undefined`'s, so `None` covers it too. */
  function TextField(p: Product, field: string): (r: Option<string>)
    ensures r.Some? <==> field == "sku" || field == "category"
    ensures field == "sku" ==> r == Some(p.sku)
    ensures field == "category" ==> r == Some(p.category)
  {
    if field == "sku" then Some(p.sku)
    else if field == "category" then Some(p.category)
    else None
  }

  /** `Number(item[field])` for a text field; `None` stands for NaN, which
      is also what `undefined` of a field the products lack gives. */
  function FieldNumber(p: Product, field: string): (r: Option<int>)
    ensures r.Some? ==> TextField(p, field).Some? && ToNumber(TextField(p, field).value) == r
    ensures TextField(p, field).Some? ==> r == ToNumber(TextField(p, field).value)
  {
    match TextField(p, field)
    case Some(s) => ToNumber(s)
    case None => None
  }

  /** The sort callback. `collate` stands for `localeCompare`, whose order
      depends on the locale. Any other field subtracts the two values: for
      sku and category that is `Number(a[f]) - Number(b[f])`, and a
      difference that is NaN, as for any field the products lack, the sort
      reads as "equal". */
  function Compare(sort: SortState, collate: (string, string) -> int): (Product, Product) -> int {
    (a: Product, b: Product) =>
      if sort.field == "name" then Sign(sort.direction) * collate(a.name, b.name)
      else if sort.field == "stock" then Sign(sort.direction) * (a.stock - b.stock)
      else
        var x, y := FieldNumber(a, sort.field), FieldNumber(b, sort.field);
        if x.Some? && y.Some? then Sign(sort.direction) * (x.value - y.value) else 0
  }

  /** `filteredInventory`: the items that match the term, sorted; nothing
      else is added or dropped. */
  function FilteredInventory(items: seq<Product>, term: string, sort: SortState, collate: (string, string) -> int)
    : (r: seq<Product>)
    ensures multiset(r) == multiset(Lists.Filter(items, MatchesTerm(term)))
    ensures forall i :: 0 <= i < |r| ==> Matches(r[i], term) && r[i] in items
    ensures forall i :: 0 <= i < |items| && Matches(items[i], term) ==> items[i] in r
  {
    SortedMatches(items, term, sort, collate);
    Sorting.Sort(Lists.Filter(items, MatchesTerm(term)), Compare(sort, collate))
  }

  /** Sorting the matching items keeps exactly the items that match. */
  lemma SortedMatches(items: seq<Product>, term: string, sort: SortState, collate: (string, string) -> int)
    ensures var kept := Lists.Filter(items, MatchesTerm(term));
            multiset(Sorting.Sort(kept, Compare(sort, collate))) == multiset(kept)
    ensures var r := Sorting.Sort(Lists.Filter(items, MatchesTerm(term)), Compare(sort, collate));
            forall i :: 0 <= i < |r| ==> Matches(r[i], term) && r[i] in items
    ensures var r := Sorting.Sort(Lists.Filter(items, MatchesTerm(term)), Compare(sort, collate));
            forall i :: 0 <= i < |items| && Matches(items[i], term) ==> items[i] in r
  {
    var kept := Lists.Filter(items, MatchesTerm(term));
    var r := Sorting.Sort(kept, Compare(sort, collate));
    Sorting.SortPermutes(kept, Compare(sort, collate));
    Lists.FilterMembers(items, MatchesTerm(term));
    Sorting.SortMembers(kept, Compare(sort, collate));
    forall i | 0 <= i < |r| ensures Matches(r[i], term) && r[i] in items {
      assert r[i] in kept;
      Lists.FilterMemberOf(items, MatchesTerm(term), r[i]);
    }
    forall i | 0 <= i < |items| && Matches(items[i], term) ensures items[i] in r {
      assert MatchesTerm(term)(items[i]);
    }
  }

  /** An empty search term keeps every item. */
  lemma EmptyTermKeepsAll(items: seq<Product>, sort: SortState, collate: (string, string) -> int)
    ensures multiset(FilteredInventory(items, "", sort, collate)) == multiset(items)
  {
    forall i | 0 <= i < |items| ensures Matches(items[i], "") {
      ContainsEmpty(Lower(items[i].name));
    }
    Lists.FilterKeepsAll(items, MatchesTerm(""));
  }

  /** The stock comparison is a consistent order in either direction. */
  lemma StockCompareConsistent(sort: SortState, collate: (string, string) -> int)
    requires sort.field == "stock"
    ensures Sorting.TotalPreorder(Compare(sort, collate))
  {
  }

  /** Sorting by stock gives non-decreasing stock ascending and
      non-increasing stock descending. */
  lemma StockSortOrdered(items: seq<Product>, term: string, sort: SortState, collate: (string, string) -> int)
    requires sort.field == "stock"
    ensures var r := FilteredInventory(items, term, sort, collate);
            forall i, j :: 0 <= i < j < |r| ==>
              (if sort.direction == Asc then r[i].stock <= r[j].stock else r[i].stock >= r[j].stock)
  {
    var cmp := Compare(sort, collate);
    var kept := Lists.Filter(items, MatchesTerm(term));
    StockCompareConsistent(sort, collate);
    Sorting.SortSorted(kept, cmp);
    SortedByStock(Sorting.Sort(kept, cmp), sort, collate);
  }

  /** A list sorted by the stock callback is ordered by stock. */
  lemma SortedByStock(r: seq<Product>, sort: SortState, collate: (string, string) -> int)
    requires sort.field == "stock"
    requires Sorting.Sorted(r, Compare(sort, collate))
    ensures forall i, j :: 0 <= i < j < |r| ==>
              (if sort.direction == Asc then r[i].stock <= r[j].stock else r[i].stock >= r[j].stock)
  {
    var cmp := Compare(sort, collate);
    forall i, j | 0 <= i < j < |r|
      ensures if sort.direction == Asc then r[i].stock <= r[j].stock else r[i].stock >= r[j].stock
    {
      assert cmp(r[i], r[j]) == Sign(sort.direction) * (r[i].stock - r[j].stock);
    }
  }

  /** Sorting by a field the products lack, or by sku or category when no
      item's value reads as a number, leaves the matching items in inventory
      order. */
  lemma OtherFieldsKeepOrder(items: seq<Product>, term: string, sort: SortState, collate: (string, string) -> int)
    requires sort.field != "name" && sort.field != "stock"
    requires forall p :: p in items ==> FieldNumber(p, sort.field).None?
    ensures FilteredInventory(items, term, sort, collate) == Lists.Filter(items, MatchesTerm(term))
  {
    var kept := Lists.Filter(items, MatchesTerm(term));
    var cmp := Compare(sort, collate);
    Lists.FilterMembers(items, MatchesTerm(term));
    forall i, j | 0 <= i < |kept| && 0 <= j < |kept| ensures cmp(kept[i], kept[j]) <= 0 {
      NaNTies(kept[i], kept[j], sort, collate);
    }
    Sorting.SortKeepsOrderOfTies(kept, cmp);
  }

  /** A value that is NaN ties with everything. */
  lemma NaNTies(a: Product, b: Product, sort: SortState, collate: (string, string) -> int)
    requires sort.field != "name" && sort.field != "stock"
    requires FieldNumber(a, sort.field).None?
    ensures Compare(sort, collate)(a, b) == 0
  {
  }

  /** The number a text field reads as; only meaningful when it reads as
      one. */
  function FieldValue(field: string): Product -> int {
    (p: Product) => FieldNumber(p, field).GetOr(0)
  }

  /** When every item's sku (or category) reads as a number, sorting by that
      field gives non-decreasing numbers ascending and non-increasing
      numbers descending. */
  lemma NumericFieldSortOrdered(items: seq<Product>, term: string, sort: SortState, collate: (string, string) -> int)
    requires sort.field != "name" && sort.field != "stock"
    requires forall p :: p in items ==> FieldNumber(p, sort.field).Some?
    ensures var r := FilteredInventory(items, term, sort, collate);
            var v := FieldValue(sort.field);
            forall i, j :: 0 <= i < j < |r| ==>
              (if sort.direction == Asc then v(r[i]) <= v(r[j]) else v(r[i]) >= v(r[j]))
  {
    var kept := Lists.Filter(items, MatchesTerm(term));
    var m := Sign(sort.direction);
    Lists.FilterMembers(items, MatchesTerm(term));
    CompareByValue(kept, sort, collate);
    Sorting.IntLessStrictTotal();
    Sorting.SortByKey(kept, FieldValue(sort.field), Sorting.IntLess(), m);
  }

  /** On numeric values the callback sorts exactly like comparing the
      numbers. */
  lemma CompareByValue(s: seq<Product>, sort: SortState, collate: (string, string) -> int)
    requires sort.field != "name" && sort.field != "stock"
    requires forall i :: 0 <= i < |s| ==> FieldNumber(s[i], sort.field).Some?
    ensures Sorting.Sort(s, Compare(sort, collate))
         == Sorting.Sort(s, Sorting.KeyCompare(FieldValue(sort.field), Sorting.IntLess(), Sign(sort.direction)))
  {
    var byValue := Sorting.KeyCompare(FieldValue(sort.field), Sorting.IntLess(), Sign(sort.direction));
    forall i, j | 0 <= i < |s| && 0 <= j < |s| && i != j
      ensures Compare(sort, collate)(s[i], s[j]) > 0 <==> byValue(s[i], s[j]) > 0
    {
      PairByValue(s[i], s[j], sort, collate);
    }
    Sorting.SortAgrees(s, Compare(sort, collate), byValue);
  }

  lemma PairByValue(a: Product, b: Product, sort: SortState, collate: (string, string) -> int)
    requires sort.field != "name" && sort.field != "stock"
    requires FieldNumber(a, sort.field).Some? && FieldNumber(b, sort.field).Some?
    ensures Compare(sort, collate)(a, b) > 0
        <==> Sorting.KeyCompare(FieldValue(sort.field), Sorting.IntLess(), Sign(sort.direction))(a, b) > 0
  {
    var x, y := FieldValue(sort.field)(a), FieldValue(sort.field)(b);
    assert Compare(sort, collate)(a, b) == Sign(sort.direction) * (x - y);
    assert Sorting.KeyCompare(FieldValue(sort.field), Sorting.IntLess(), Sign(sort.direction))(a, b)
        == if x < y then -Sign(sort.direction) else if y < x then Sign(sort.direction) else 0;
  }

  /** The header example: skus "2" and "1", sorted ascending, swap. */
  lemma NumericSkusSwap(collate: (string, string) -> int)
    ensures var a, b := InventoryContext.Product("2", "A", "x", 0), InventoryContext.Product("1", "B", "x", 0);
            FilteredInventory([a, b], "", SortState("sku", Asc), collate) == [b, a]
  {
    var a, b := InventoryContext.Product("2", "A", "x", 0), InventoryContext.Product("1", "B", "x", 0);
    var sort := SortState("sku", Asc);
    OneDigit("2", 2);
    OneDigit("1", 1);
    assert FieldNumber(a, "sku") == Some(2) && FieldNumber(b, "sku") == Some(1);
    assert sort.field != "name" && sort.field != "stock" && Sign(sort.direction) == 1;
    assert Compare(sort, collate)(a, b) == 1;
    EmptyTermKeepsOrder([a, b]);
    Sorting.SortTwo(a, b, Compare(sort, collate));
  }

  lemma OneDigit(s: string, d: nat)
    requires d < 10 && s == [DigitChar(d)]
    ensures ToNumber(s) == Some(d)
  {
    assert AllDigits(s);
    assert s[..0] == [];
    assert DigitOf(s[0]) == d;
    assert DigitsValue(s) == d;
  }

  /** The empty term keeps every item in place. */
  lemma EmptyTermKeepsOrder(items: seq<Product>)
    ensures Lists.Filter(items, MatchesTerm("")) == items
  {
    forall i | 0 <= i < |items| ensures MatchesTerm("")(items[i]) {
      ContainsEmpty(Lower(items[i].name));
    }
    Lists.FilterKeepsAll(items, MatchesTerm(""));
  }

  /** The stock badge. */
  function StockLabel(stock: int): (badge: string)
    ensures badge == "In Stock" <==> stock > 10
    ensures badge == "Low Stock" <==> 1 <= stock <= 10
    ensures badge == "Out of Stock" <==> stock <= 0
  {
    if stock > 10 then "In Stock" else if stock > 0 then "Low Stock" else "Out of Stock"
  }

  /** The badges in increasing order of stock. */
  function LabelRank(badge: string): nat {
    if badge == "Out of Stock" then 0 else if badge == "Low Stock" then 1 else 2
  }

  /** More stock never gives a lower badge. */
  lemma StockLabelMonotone(a: int, b: int)
    requires a <= b
    ensures LabelRank(StockLabel(a)) <= LabelRank(StockLabel(b))
  {
  }
}

=== FILE: JsObjects.dfy ===
/** What indexing a plain JavaScript object literal with a string returns
    besides its own keys. */
module JsObjects {

  /** The names every object literal inherits from `Object.prototype`;
      indexing with one of them yields a function or an object, never
      `undefined`. */
  const PrototypeMembers: set<string> := {
    "constructor", "hasOwnProperty", "isPrototypeOf", "propertyIsEnumerable",
    "toLocaleString", "toString", "valueOf", "__proto__",
    "__defineGetter__", "__defineSetter__", "__lookupGetter__", "__lookupSetter__"}
}

=== FILE: Lists.dfy ===
/** Order-preserving list operations shared by the stores, the contexts and
    the pages: `Array.prototype.filter` and the "replace matching elements"
    `map` the React reducers use. */
module Lists {
  import opened Results

  /** `s.filter(p)`. */
  function Filter<T>(s: seq<T>, p: T -> bool): (r: seq<T>)
    ensures |r| <= |s|
  {
    if s == [] then []
    else (if p(s[0]) then [s[0]] else []) + Filter(s[1..], p)
  }

  /** An element of the filtered list is in the list and passes the test. */
  lemma FilterMemberOf<T>(s: seq<T>, p: T -> bool, x: T)
    requires x in Filter(s, p)
    ensures x in s && p(x)
  {
    FilterMembers(s, p);
    var k :| 0 <= k < |Filter(s, p)| && Filter(s, p)[k] == x;
  }

  /** The filtered list holds exactly the elements that pass, and is a
      sub-multiset of `s`. */
  lemma {:induction false} FilterMembers<T>(s: seq<T>, p: T -> bool)
    ensures forall i :: 0 <= i < |Filter(s, p)| ==> Filter(s, p)[i] in s && p(Filter(s, p)[i])
    ensures forall i :: 0 <= i < |s| && p(s[i]) ==> s[i] in Filter(s, p)
    ensures multiset(Filter(s, p)) <= multiset(s)
    decreases |s|
  {
    if s != [] {
      FilterMembers(s[1..], p);
      assert s == [s[0]] + s[1..];
    }
  }

  /** Each element that passes occurs in the filtered list as often as in
      `s`, and an element that fails does not occur at all. */
  lemma {:induction false} FilterCounts<T>(s: seq<T>, p: T -> bool)
    ensures forall x :: multiset(Filter(s, p))[x] == (if p(x) then multiset(s)[x] else 0)
    decreases |s|
  {
    if s != [] {
      FilterCounts(s[1..], p);
      assert s == [s[0]] + s[1..];
      assert multiset(s) == multiset{s[0]} + multiset(s[1..]);
    }
  }

  /** Filtering a concatenation filters each part and keeps them in order. */
  lemma {:induction false} FilterAppend<T>(s: seq<T>, t: seq<T>, p: T -> bool)
    ensures Filter(s + t, p) == Filter(s, p) + Filter(t, p)
    decreases |s|
  {
    if s != [] {
      assert (s + t)[1..] == s[1..] + t;
      FilterAppend(s[1..], t, p);
    } else {
      assert s + t == t;
    }
  }

  /** A filter that every element passes keeps the list as it is. */
  lemma {:induction false} FilterKeepsAll<T>(s: seq<T>, p: T -> bool)
    requires forall i :: 0 <= i < |s| ==> p(s[i])
    ensures Filter(s, p) == s
    decreases |s|
  {
    if s != [] {
      FilterKeepsAll(s[1..], p);
    }
  }

  /** A filter that no element passes gives the empty list. */
  lemma {:induction false} FilterDropsAll<T>(s: seq<T>, p: T -> bool)
    requires forall i :: 0 <= i < |s| ==> !p(s[i])
    ensures Filter(s, p) == []
    decreases |s|
  {
    if s != [] {
      FilterDropsAll(s[1..], p);
    }
  }

  /** Filtering again with the same predicate changes nothing. */
  lemma FilterIdempotent<T>(s: seq<T>, p: T -> bool)
    ensures Filter(Filter(s, p), p) == Filter(s, p)
  {
    FilterMembers(s, p);
    FilterKeepsAll(Filter(s, p), p);
  }

  /** `s.map(x => p(x) ? v : x)`: every element that satisfies `p` is
      replaced by `v`; the others stay where they were. */
  function ReplaceWhere<T>(s: seq<T>, p: T -> bool, v: T): (r: seq<T>)
    ensures |r| == |s|
    ensures forall i :: 0 <= i < |s| && p(s[i]) ==> r[i] == v
    ensures forall i :: 0 <= i < |s| && !p(s[i]) ==> r[i] == s[i]
  {
    seq(|s|, i requires 0 <= i < |s| => if p(s[i]) then v else s[i])
  }

  /** `a` can be obtained from `b` by deleting elements: its elements occur
      in `b` in the same relative order. */
  predicate IsSubsequence<T(==)>(a: seq<T>, b: seq<T>)
    decreases |b|
  {
    || a == []
    || (b != [] && ((a[0] == b[0] && IsSubsequence(a[1..], b[1..])) || IsSubsequence(a, b[1..])))
  }

  /** A filtered list is a subsequence of its input. */
  lemma {:induction false} FilterIsSubsequence<T>(s: seq<T>, p: T -> bool)
    ensures IsSubsequence(Filter(s, p), s)
    decreases |s|
  {
    if s != [] {
      FilterIsSubsequence(s[1..], p);
      if p(s[0]) {
        assert Filter(s, p)[1..] == Filter(s[1..], p);
      } else {
        assert Filter(s, p) == Filter(s[1..], p);
      }
    }
  }

  /** Filtering with a stricter predicate keeps a subsequence of what the
      looser one keeps. */
  lemma {:induction false} FilterStricter<T>(s: seq<T>, p: T -> bool, q: T -> bool)
    requires forall i :: 0 <= i < |s| && q(s[i]) ==> p(s[i])
    ensures IsSubsequence(Filter(s, q), Filter(s, p))
    decreases |s|
  {
    if s != [] {
      FilterStricter(s[1..], p, q);
      var fp, fq := Filter(s[1..], p), Filter(s[1..], q);
      if q(s[0]) {
        assert Filter(s, q) == [s[0]] + fq && Filter(s, p) == [s[0]] + fp;
        assert ([s[0]] + fq)[1..] == fq && ([s[0]] + fp)[1..] == fp;
      } else if !p(s[0]) {
        assert Filter(s, q) == fq && Filter(s, p) == fp;
      }
      if p(s[0]) && !q(s[0]) {
        assert Filter(s, q) == fq && Filter(s, p) == [s[0]] + fp;
        SubsequenceOfTail(fq, s[0], fp);
      }
    }
  }

  /** Putting an element in front of the longer list keeps a subsequence. */
  lemma SubsequenceOfTail<T>(a: seq<T>, x: T, b: seq<T>)
    requires IsSubsequence(a, b)
    ensures IsSubsequence(a, [x] + b)
  {
    assert ([x] + b)[1..] == b;
  }

  /** Filtering a list with a known head unfolds one step. */
  lemma FilterCons<T>(x: T, rest: seq<T>, p: T -> bool)
    ensures Filter([x] + rest, p) == (if p(x) then [x] else []) + Filter(rest, p)
  {
    assert ([x] + rest)[1..] == rest;
  }

  /** `s.findIndex(p)` (and the position behind `s.find(p)`), with `None`
      standing for -1: the first position whose element satisfies `p`. */
  function FirstIndex<T>(s: seq<T>, p: T -> bool): (r: Option<nat>)
    ensures r.Some? ==> r.value < |s| && p(s[r.value])
    ensures r.Some? ==> forall j :: 0 <= j < r.value ==> !p(s[j])
    ensures r.None? <==> forall j :: 0 <= j < |s| ==> !p(s[j])
  {
    if s == [] then None
    else if p(s[0]) then Some(0)
    else
      match FirstIndex(s[1..], p)
      case None => None
      case Some(k) => Some(k + 1)
  }

  /** `s.splice(k, 1)` on a valid position: the element at `k` goes, the
      rest keep their order. */
  function RemoveAt<T>(s: seq<T>, k: nat): (r: seq<T>)
    requires k < |s|
    ensures |r| == |s| - 1
    ensures forall j :: 0 <= j < k ==> r[j] == s[j]
    ensures forall j :: k <= j < |r| ==> r[j] == s[j + 1]
  {
    s[..k] + s[k + 1..]
  }

  /** Filtering around a position: the part before, the element itself if
      it passes, and the part after. */
  lemma FilterSplitAt<T>(s: seq<T>, k: nat, p: T -> bool)
    requires k < |s|
    ensures Filter(s, p) == Filter(s[..k], p) + ((if p(s[k]) then [s[k]] else []) + Filter(s[k + 1..], p))
  {
    var pre, post := s[..k], s[k + 1..];
    SplitAround(s, k);
    FilterAppend(pre, [s[k]] + post, p);
    FilterCons(s[k], post, p);
  }

  /** A list is its part before `k`, its element at `k` and the rest. */
  lemma SplitAround<T>(s: seq<T>, k: nat)
    requires k < |s|
    ensures s == s[..k] + ([s[k]] + s[k + 1..])
  {
  }

  /** Removing one element changes a filter only by that element. */
  lemma FilterRemoveAt<T>(s: seq<T>, k: nat, p: T -> bool)
    requires k < |s|
    ensures Filter(RemoveAt(s, k), p) == Filter(s[..k], p) + Filter(s[k + 1..], p)
  {
    FilterAppend(s[..k], s[k + 1..], p);
  }

  /** Filtering keeps keys distinct: elements at different positions of the
      result have different keys when those of the input do. */
  lemma {:induction false} FilterKeepsDistinctKeys<T, K>(s: seq<T>, p: T -> bool, key: T -> K)
    requires forall i, j :: 0 <= i < j < |s| ==> key(s[i]) != key(s[j])
    ensures forall i, j :: 0 <= i < j < |Filter(s, p)| ==> key(Filter(s, p)[i]) != key(Filter(s, p)[j])
    decreases |s|
  {
    if s != [] {
      var rest := Filter(s[1..], p);
      FilterKeepsDistinctKeys(s[1..], p, key);
      FilterMembers(s[1..], p);
      if p(s[0]) {
        var r := Filter(s, p);
        assert r == [s[0]] + rest;
        forall i, j | 0 <= i < j < |r| ensures key(r[i]) != key(r[j]) {
          if i == 0 {
            assert r[j] == rest[j - 1] && rest[j - 1] in s[1..];
            var k :| 0 <= k < |s[1..]| && s[1..][k] == r[j];
            assert s[k + 1] == r[j];
          } else {
            assert r[i] == rest[i - 1] && r[j] == rest[j - 1];
          }
        }
      }
    }
  }
}

=== FILE: OrdersApi.dfy ===
/** The in-memory order store behind the orders API: lookup and status
    update by order id, and creation with a sequential "ORD-" id. The store
    has no delete, so ids created without an override never collide. */
module OrdersApi {
  import opened Results
  import opened Text
  import Lists

  datatype Item = Item(name: string, quantity: int, price: int)

  /** The keys of an order that the API copies from `orderData` without
      looking at them. */
  datatype OrderInfo = OrderInfo(
    customerName: string,
    items: seq<Item>,
    totalAmount: int,
    destination: string,
    paymentStatus: string,
    documents: seq<string>)

  datatype Order = Order(orderId: string, orderDate: string, status: string, info: OrderInfo)

  /** The `orderData` object given to `createOrder`: the three keys with
      defaults may be absent. */
  datatype OrderData = OrderData(orderId: Option<string>, orderDate: Option<string>, status: Option<string>, info: OrderInfo)

  const NotFound := "Order not found"

  /** The five orders the store starts with. */
  const MockOrders: seq<Order> := [
    Order("ORD-001", "2024-01-15", "Processing", OrderInfo("Global Trade Co",
      [Item("Industrial Machinery", 2, 15000), Item("Electronic Components", 100, 50)],
      35000, "Singapore", "Paid", ["Invoice", "Packing List", "Bill of Lading"])),
    Order("ORD-002", "2024-01-18", "Shipped", OrderInfo("Tech Solutions Ltd",
      [Item("Server Equipment", 5, 8000), Item("Network Devices", 20, 500)],
      50000, "Dubai", "Paid", ["Invoice", "Certificate of Origin", "Insurance"])),
    Order("ORD-003", "2024-01-20", "Pending", OrderInfo("Retail Dynamics",
      [Item("Consumer Electronics", 1000, 100), Item("Accessories", 2000, 10)],
      120000, "Hong Kong", "Pending", ["Proforma Invoice"])),
    Order("ORD-004", "2024-01-22", "Completed", OrderInfo("Medical Supplies Inc",
      [Item("Medical Equipment", 10, 12000), Item("Surgical Supplies", 500, 100)],
      170000, "Germany", "Paid", ["Invoice", "Health Certificate", "Export License"])),
    Order("ORD-005", "2024-01-25", "Processing", OrderInfo("Automotive Parts Co",
      [Item("Engine Components", 200, 500), Item("Spare Parts", 1000, 50)],
      150000, "Brazil", "Partial", ["Invoice", "Technical Specifications"]))]

  /** `ORD-${String(n).padStart(3, '0')}`. */
  function OrderId(n: nat): string {
    "ORD-" + PadStart(NatToString(n), 3, '0')
  }

  /** An order id is "ORD-" followed by at least three digits that read
      back as the sequence number. */
  lemma OrderIdShape(n: nat)
    ensures |OrderId(n)| >= 7 && OrderId(n)[..4] == "ORD-"
    ensures AllDigits(OrderId(n)[4..]) && DigitsValue(OrderId(n)[4..]) == n
  {
    PaddedRoundTrip(n, 3);
    assert OrderId(n)[4..] == PadStart(NatToString(n), 3, '0');
  }

  /** Different sequence numbers give different order ids. */
  lemma OrderIdInjective(a: nat, b: nat)
    ensures OrderId(a) == OrderId(b) <==> a == b
  {
    if OrderId(a) == OrderId(b) {
      PrefixedPaddedInjective("ORD-", a, b, 3);
    }
  }

  /** The ids of the first nine orders. */
  lemma OrderIdSingleDigit(n: nat)
    requires 1 <= n <= 9
    ensures OrderId(n) == "ORD-00" + [DigitChar(n)]
  {
    assert NatToString(n) == [DigitChar(n)];
    assert PadStart([DigitChar(n)], 3, '0') == "00" + [DigitChar(n)];
  }

  function HasOrderId(orderId: string): Order -> bool {
    (o: Order) => o.orderId == orderId
  }

  /** The position `mockOrders.find(o => o.orderId === orderId)` reads. */
  function Position(store: seq<Order>, orderId: string): (r: Option<nat>)
    ensures r.Some? ==> r.value < |store| && store[r.value].orderId == orderId
    ensures r.Some? ==> forall j :: 0 <= j < r.value ==> store[j].orderId != orderId
    ensures r.None? <==> forall j :: 0 <= j < |store| ==> store[j].orderId != orderId
  {
    Lists.FirstIndex(store, HasOrderId(orderId))
  }

  /** `getOrderById(orderId)`: the first order with that id, or the
      "Order not found" error. */
  function GetOrderById(store: seq<Order>, orderId: string): (r: Result<Order>)
    ensures r.Ok? <==> exists j :: 0 <= j < |store| && store[j].orderId == orderId
    ensures r.Ok? ==> r.value.orderId == orderId && r.value in store
    ensures r.Ok? ==> Position(store, orderId).Some? && r.value == store[Position(store, orderId).value]
    ensures r.Err? ==> r.message == NotFound
  {
    match Position(store, orderId)
    case Some(k) => Ok(store[k])
    case None => Err(NotFound)
  }

  /** `updateOrderStatus(orderId, status)`: only the status of the first
      order with the id changes; an unknown id fails. */
  function UpdateOrderStatus(store: seq<Order>, orderId: string, status: string): (r: Result<(seq<Order>, Order)>)
    ensures r.Ok? <==> Position(store, orderId).Some?
    ensures r.Err? ==> r.message == NotFound
    ensures r.Ok? ==>
              var k := Position(store, orderId).value;
              var (after, o) := r.value;
              && |after| == |store|
              && after[k] == o
              && (forall j :: 0 <= j < |store| && j != k ==> after[j] == store[j])
              && o.status == status
              && o.(status := store[k].status) == store[k]
  {
    match Position(store, orderId)
    case None => Err(NotFound)
    case Some(k) =>
      var o := store[k].(status := status);
      Ok((store[k := o], o))
  }

  /** `createOrder(orderData)` with today's ISO date as `today`: appends
      exactly one order; the given id, date and status win over the
      sequential id, today and "Pending". */
  function CreateOrder(store: seq<Order>, data: OrderData, today: string): (r: (seq<Order>, Order))
    ensures r.0 == store + [r.1]
    ensures data.orderId.None? ==> r.1.orderId == OrderId(|store| + 1)
    ensures data.orderId.Some? ==> r.1.orderId == data.orderId.value
    ensures data.orderDate.None? ==> r.1.orderDate == today
    ensures data.orderDate.Some? ==> r.1.orderDate == data.orderDate.value
    ensures data.status.None? ==> r.1.status == "Pending"
    ensures data.status.Some? ==> r.1.status == data.status.value
    ensures r.1.info == data.info
  {
    var o := Order(
      data.orderId.GetOr(OrderId(|store| + 1)),
      data.orderDate.GetOr(today),
      data.status.GetOr("Pending"),
      data.info);
    (store + [o], o)
  }

  /** The order at position `i` carries the `i + 1`-th sequential id. */
  ghost predicate NumberedAt(store: seq<Order>, i: nat)
    requires i < |store|
  {
    store[i].orderId == OrderId(i + 1)
  }

  /** The order ids are 1, 2, ... in store order. */
  ghost predicate Numbered(store: seq<Order>) {
    forall i :: 0 <= i < |store| ==> NumberedAt(store, i)
  }

  /** Creating without an id, and updating a status, keep a store numbered. */
  lemma CreateKeepsNumbered(store: seq<Order>, data: OrderData, today: string)
    requires Numbered(store) && data.orderId.None?
    ensures Numbered(CreateOrder(store, data, today).0)
  {
    var (after, o) := CreateOrder(store, data, today);
    assert after == store + [o] && o.orderId == OrderId(|store| + 1);
    forall i | 0 <= i < |after| ensures NumberedAt(after, i) {
      if i < |store| {
        assert after[i] == store[i] && NumberedAt(store, i);
      }
    }
  }

  lemma UpdateKeepsNumbered(store: seq<Order>, orderId: string, status: string)
    requires Numbered(store) && UpdateOrderStatus(store, orderId, status).Ok?
    ensures Numbered(UpdateOrderStatus(store, orderId, status).value.0)
  {
    var after := UpdateOrderStatus(store, orderId, status).value.0;
    var k := Position(store, orderId).value;
    forall i | 0 <= i < |after| ensures NumberedAt(after, i) {
      assert NumberedAt(store, i);
      assert after[i].orderId == store[i].orderId by {
        if i == k {
          assert after[k].(status := store[k].status) == store[k];
        }
      }
    }
  }

  /** In a numbered store the ids are pairwise distinct, so each order is
      the one its id finds. */
  lemma NumberedIdsDistinct(store: seq<Order>, i: nat, j: nat)
    requires Numbered(store) && i < j < |store|
    ensures store[i].orderId != store[j].orderId
  {
    assert NumberedAt(store, i) && NumberedAt(store, j);
    OrderIdInjective(i + 1, j + 1);
  }

  lemma NumberedGetFindsEach(store: seq<Order>, i: nat)
    requires Numbered(store) && i < |store|
    ensures GetOrderById(store, OrderId(i + 1)) == Ok(store[i])
  {
    assert NumberedAt(store, i);
    var p := Position(store, OrderId(i + 1));
    assert p.Some?;
    if p.value < i {
      NumberedIdsDistinct(store, p.value, i);
    }
  }

  /** The starting store is numbered. */
  lemma MockOrdersNumbered()
    ensures Numbered(MockOrders)
  {
    OrderIdSingleDigit(1);
    OrderIdSingleDigit(2);
    OrderIdSingleDigit(3);
    OrderIdSingleDigit(4);
    OrderIdSingleDigit(5);
    assert NumberedAt(MockOrders, 0) && NumberedAt(MockOrders, 1) && NumberedAt(MockOrders, 2);
    assert NumberedAt(MockOrders, 3) && NumberedAt(MockOrders, 4);
  }

  /** From the starting store, two creates without an id give ORD-006 and
      then ORD-007, and every id in the store stays distinct. */
  lemma MockCreatesContinueNumbering(d1: OrderData, d2: OrderData, t1: string, t2: string)
    requires d1.orderId.None? && d2.orderId.None?
    ensures var (s1, o1) := CreateOrder(MockOrders, d1, t1);
            var (s2, o2) := CreateOrder(s1, d2, t2);
            && o1.orderId == "ORD-006" && o2.orderId == "ORD-007"
            && forall i, j :: 0 <= i < j < |s2| ==> s2[i].orderId != s2[j].orderId
  {
    MockOrdersNumbered();
    TwoCreatesNumbered(MockOrders, d1, d2, t1, t2);
    OrderIdSingleDigit(6);
    OrderIdSingleDigit(7);
  }

  /** Two creates without an id on a numbered store take the next two
      numbers and keep every id distinct. */
  lemma TwoCreatesNumbered(store: seq<Order>, d1: OrderData, d2: OrderData, t1: string, t2: string)
    requires Numbered(store)
    requires d1.orderId.None? && d2.orderId.None?
    ensures var (s1, o1) := CreateOrder(store, d1, t1);
            var (s2, o2) := CreateOrder(s1, d2, t2);
            && o1.orderId == OrderId(|store| + 1) && o2.orderId == OrderId(|store| + 2)
            && forall i, j :: 0 <= i < j < |s2| ==> s2[i].orderId != s2[j].orderId
  {
    var (s1, o1) := CreateOrder(store, d1, t1);
    CreateKeepsNumbered(store, d1, t1);
    var (s2, o2) := CreateOrder(s1, d2, t2);
    CreateKeepsNumbered(s1, d2, t2);
    forall i, j | 0 <= i < j < |s2| ensures s2[i].orderId != s2[j].orderId {
      NumberedIdsDistinct(s2, i, j);
    }
  }

  /** Sum of quantity times price over the items. */
  function ItemsTotal(items: seq<Item>): int {
    if items == [] then 0 else items[0].quantity * items[0].price + ItemsTotal(items[1..])
  }

  /** Every starting order's total is the sum of its item lines. */
  lemma MockOrderTotalsAddUp()
    ensures forall i :: 0 <= i < |MockOrders| ==> MockOrders[i].info.totalAmount == ItemsTotal(MockOrders[i].info.items)
  {
  }
}

=== FILE: Results.dfy ===
/** Optional values and failing results, the two shapes the modelled JavaScript
    uses for "a key may be absent" and "this call may throw". */
module Results {

  /** An object key that may be absent (`undefined`). */
  datatype Option<T> = None | Some(value: T) {

    /** The value when present, otherwise the given default. */
    function GetOr(default: T): T {
      match this
      case Some(v) => v
      case None => default
    }
  }

  /** The outcome of a call that either returns a value or throws an `Error`
      carrying a message. */
  datatype Result<T> = Ok(value: T) | Err(message: string)
}

=== FILE: ShipmentsApi.dfy ===
/** The in-memory shipment store behind the shipments API: lookup by id,
    creation with sequential zero-padded ids and default fields, status and
    customs updates, and deletion. The store is a sequence; each operation
    returns the new store together with its result, or fails with the API's
    message and leaves the store as it was. */
module ShipmentsApi {
  import opened Results
  import opened Text
  import Lists

  datatype TimelineEntry = TimelineEntry(date: string, status: string, location: Option<string>)

  /** A shipment record. `origin`, `destination` and `estimatedDelivery` are
      `None` on a record created without them. */
  datatype Shipment = Shipment(
    id: string,
    shipmentId: string,
    trackingNumber: string,
    status: string,
    customsStatus: string,
    customerName: string,
    customsValue: int,
    timeline: seq<TimelineEntry>,
    origin: Option<string>,
    destination: Option<string>,
    estimatedDelivery: Option<string>)

  /** The `shipmentData` object given to `createShipment`: `None` for a key
      the caller left out. */
  datatype ShipmentData = ShipmentData(
    id: Option<string>,
    shipmentId: Option<string>,
    trackingNumber: Option<string>,
    status: Option<string>,
    customsStatus: Option<string>,
    customerName: Option<string>,
    customsValue: Option<int>,
    timeline: Option<seq<TimelineEntry>>,
    origin: Option<string>,
    destination: Option<string>,
    estimatedDelivery: Option<string>)

  const NotFound := "Shipment not found"
  const UnknownCustomer := "Unknown Customer"

  /** The two records the store starts with. */
  const MockShipments: seq<Shipment> := [
    Shipment("SHP001", "SHP001", "TRK123456789", "In Transit", "Cleared", "Raj Kumar", 25000,
      [TimelineEntry("2024-02-10", "Order Placed", Some("Mumbai")),
       TimelineEntry("2024-02-11", "Picked Up", Some("Mumbai Hub")),
       TimelineEntry("2024-02-12", "In Transit", Some("Maharashtra"))],
      Some("Mumbai, India"), Some("Delhi, India"), Some("2024-02-15")),
    Shipment("SHP002", "SHP002", "TRK987654321", "Delivered", "N/A", "Priya Singh", 15000,
      [TimelineEntry("2024-02-08", "Order Placed", Some("Bangalore")),
       TimelineEntry("2024-02-09", "Picked Up", Some("Bangalore Hub")),
       TimelineEntry("2024-02-10", "Delivered", Some("Chennai"))],
      Some("Bangalore, India"), Some("Chennai, India"), Some("2024-02-10"))]

  // ---------------------------------------------------------------------
  // Ids and lookup
  // ---------------------------------------------------------------------

  /** `SHP${String(n).padStart(3, '0')}`. */
  function ShipmentId(n: nat): string {
    "SHP" + PadStart(NatToString(n), 3, '0')
  }

  /** A shipment id is "SHP" followed by at least three digits that read
      back as the sequence number. */
  lemma ShipmentIdShape(n: nat)
    ensures |ShipmentId(n)| >= 6 && ShipmentId(n)[..3] == "SHP"
    ensures AllDigits(ShipmentId(n)[3..]) && DigitsValue(ShipmentId(n)[3..]) == n
  {
    PaddedRoundTrip(n, 3);
    assert ShipmentId(n)[3..] == PadStart(NatToString(n), 3, '0');
  }

  /** Different sequence numbers give different ids. */
  lemma ShipmentIdInjective(a: nat, b: nat)
    ensures ShipmentId(a) == ShipmentId(b) <==> a == b
  {
    if ShipmentId(a) == ShipmentId(b) {
      PrefixedPaddedInjective("SHP", a, b, 3);
    }
  }

  /** The ids of the first nine records. */
  lemma ShipmentIdSingleDigit(n: nat)
    requires 1 <= n <= 9
    ensures ShipmentId(n) == "SHP00" + [DigitChar(n)]
  {
    assert NatToString(n) == [DigitChar(n)];
    assert PadStart([DigitChar(n)], 3, '0') == "00" + [DigitChar(n)];
  }

  function HasId(id: string): Shipment -> bool {
    (s: Shipment) => s.id == id
  }

  /** The position `mockShipments.find(s => s.id === shipmentId)` reads:
      the first record carrying the id. */
  function Position(store: seq<Shipment>, id: string): (r: Option<nat>)
    ensures r.Some? ==> r.value < |store| && store[r.value].id == id
    ensures r.Some? ==> forall j :: 0 <= j < r.value ==> store[j].id != id
    ensures r.None? <==> forall j :: 0 <= j < |store| ==> store[j].id != id
  {
    Lists.FirstIndex(store, HasId(id))
  }

  /** `getShipmentById(id)`: the first record with that id, or the
      "Shipment not found" error. */
  function GetShipmentById(store: seq<Shipment>, id: string): (r: Result<Shipment>)
    ensures r.Ok? <==> exists j :: 0 <= j < |store| && store[j].id == id
    ensures r.Ok? ==> r.value.id == id && r.value in store
    ensures r.Ok? ==> forall j :: 0 <= j < |store| && store[j].id == id ==> r.value == store[Position(store, id).value]
    ensures r.Err? ==> r.message == NotFound
  {
    match Position(store, id)
    case Some(k) => Ok(store[k])
    case None => Err(NotFound)
  }

  // ---------------------------------------------------------------------
  // createShipment
  // ---------------------------------------------------------------------

  /** `shipmentData.customerName || 'Unknown Customer'`: the empty string is
      the only falsy string. */
  function NameOrUnknown(given: Option<string>): (r: string)
    ensures r != ""
    ensures given.Some? && given.value != "" ==> r == given.value
  {
    if given.Some? && given.value != "" then given.value else UnknownCustomer
  }

  /** `shipmentData.customsValue || 0`: zero is the only falsy number, so a
      given value survives and an absent one is zero. */
  function ValueOrZero(given: Option<int>): (r: int)
    ensures given.Some? ==> r == given.value
    ensures given.None? ==> r == 0
  {
    if given.Some? && given.value != 0 then given.value else 0
  }

  /** The record `createShipment` builds as written: the defaults first,
      then `...shipmentData`, whose keys replace them. */
  function NewShipmentAsWritten(n: nat, data: ShipmentData, now: nat, today: string): Shipment {
    var defaults := Shipment(
      ShipmentId(n), ShipmentId(n), "TRK" + NatToString(now), "Pending", "Pending",
      NameOrUnknown(data.customerName), ValueOrZero(data.customsValue),
      [TimelineEntry(today, "Order Placed", data.origin)],
      None, None, None);
    Shipment(
      data.id.GetOr(defaults.id),
      data.shipmentId.GetOr(defaults.shipmentId),
      data.trackingNumber.GetOr(defaults.trackingNumber),
      data.status.GetOr(defaults.status),
      data.customsStatus.GetOr(defaults.customsStatus),
      data.customerName.GetOr(defaults.customerName),
      data.customsValue.GetOr(defaults.customsValue),
      data.timeline.GetOr(defaults.timeline),
      data.origin, data.destination, data.estimatedDelivery)
  }

  /** `createShipment(shipmentData)` as written, with `Date.now()` as `now`
      and today's ISO date as `today`. A given empty customer name survives
      the spread, so the "Unknown Customer" default is lost for it. */
  function CreateShipmentAsWritten(store: seq<Shipment>, data: ShipmentData, now: nat, today: string)
    : (r: (seq<Shipment>, Shipment))
    ensures r.0 == store + [r.1]
    ensures r.1.customerName == "" <==> data.customerName == Some("")
  {
    var s := NewShipmentAsWritten(|store| + 1, data, now, today);
    (store + [s], s)
  }

  /** `createShipment(shipmentData)` with the customer-name default applied
      to every falsy name, given or not. Appends exactly one record; every
      field the caller gave is kept, every other one takes its default. */
  function CreateShipment(store: seq<Shipment>, data: ShipmentData, now: nat, today: string)
    : (r: (seq<Shipment>, Shipment))
    ensures r.0 == store + [r.1]
    ensures data.id.None? ==> r.1.id == ShipmentId(|store| + 1)
    ensures data.id.Some? ==> r.1.id == data.id.value
    ensures data.shipmentId.None? ==> r.1.shipmentId == ShipmentId(|store| + 1)
    ensures data.shipmentId.Some? ==> r.1.shipmentId == data.shipmentId.value
    ensures data.trackingNumber.None? ==> r.1.trackingNumber == "TRK" + NatToString(now)
    ensures data.trackingNumber.Some? ==> r.1.trackingNumber == data.trackingNumber.value
    ensures data.status.None? ==> r.1.status == "Pending"
    ensures data.status.Some? ==> r.1.status == data.status.value
    ensures data.customsStatus.None? ==> r.1.customsStatus == "Pending"
    ensures data.customsStatus.Some? ==> r.1.customsStatus == data.customsStatus.value
    ensures r.1.customerName != ""
    ensures data.customerName.None? ==> r.1.customerName == UnknownCustomer
    ensures data.customerName.Some? && data.customerName.value != "" ==> r.1.customerName == data.customerName.value
    ensures data.customsValue.None? ==> r.1.customsValue == 0
    ensures data.customsValue.Some? ==> r.1.customsValue == data.customsValue.value
    ensures data.timeline.None? ==> r.1.timeline == [TimelineEntry(today, "Order Placed", data.origin)]
    ensures data.timeline.Some? ==> r.1.timeline == data.timeline.value
    ensures r.1.origin == data.origin && r.1.destination == data.destination
    ensures r.1.estimatedDelivery == data.estimatedDelivery
  {
    var s := NewShipmentAsWritten(|store| + 1, data, now, today).(customerName := NameOrUnknown(data.customerName));
    (store + [s], s)
  }

  /** The two agree on every record whose customer name is not given as
      the empty string. */
  lemma CreateAgreesUnlessNameEmpty(store: seq<Shipment>, data: ShipmentData, now: nat, today: string)
    requires data.customerName != Some("")
    ensures CreateShipmentAsWritten(store, data, now, today) == CreateShipment(store, data, now, today)
  {
  }

  /** An explicitly empty customer name: the code as written stores "",
      where the default was evidently meant to apply. */
  lemma EmptyNameKeptAsWritten(store: seq<Shipment>, data: ShipmentData, now: nat, today: string)
    requires data.customerName == Some("")
    ensures CreateShipmentAsWritten(store, data, now, today).1.customerName == ""
    ensures CreateShipment(store, data, now, today).1.customerName == UnknownCustomer
  {
  }

  /** A record created without an id or shipment id carries the same value
      in both, so looking it up by either field finds the same record. */
  lemma CreatedIdsAgree(store: seq<Shipment>, data: ShipmentData, now: nat, today: string)
    requires data.id.None? && data.shipmentId.None?
    ensures CreateShipment(store, data, now, today).1.id == CreateShipment(store, data, now, today).1.shipmentId
  {
  }

  /** After a create whose id is new to the store, looking the id up
      returns the created record. */
  lemma CreateThenGet(store: seq<Shipment>, data: ShipmentData, now: nat, today: string)
    requires forall j :: 0 <= j < |store| ==> store[j].id != CreateShipment(store, data, now, today).1.id
    ensures var (after, s) := CreateShipment(store, data, now, today);
            GetShipmentById(after, s.id) == Ok(s)
  {
    var (after, s) := CreateShipment(store, data, now, today);
    assert after[|store|] == s;
  }

  // ---------------------------------------------------------------------
  // updateShipmentStatus and updateCustomsStatus
  // ---------------------------------------------------------------------

  /** `updateShipmentStatus(id, status)`: the first record with the id gets
      the status and one more timeline entry, dated `today`, carrying the
      status and located at the record's destination. Nothing else in the
      record or the store changes; an unknown id fails. */
  function UpdateShipmentStatus(store: seq<Shipment>, id: string, status: string, today: string)
    : (r: Result<(seq<Shipment>, Shipment)>)
    ensures r.Ok? <==> Position(store, id).Some?
    ensures r.Err? ==> r.message == NotFound
    ensures r.Ok? ==>
              var k := Position(store, id).value;
              var (after, s) := r.value;
              && |after| == |store|
              && after[k] == s
              && (forall j :: 0 <= j < |store| && j != k ==> after[j] == store[j])
              && s.status == status
              && |s.timeline| == |store[k].timeline| + 1
              && s.timeline[..|store[k].timeline|] == store[k].timeline
              && s.timeline[|store[k].timeline|] == TimelineEntry(today, status, store[k].destination)
              && s.(status := store[k].status, timeline := store[k].timeline) == store[k]
  {
    match Position(store, id)
    case None => Err(NotFound)
    case Some(k) =>
      var s := store[k].(status := status,
                         timeline := store[k].timeline + [TimelineEntry(today, status, store[k].destination)]);
      assert s.timeline[..|store[k].timeline|] == store[k].timeline;
      Ok((store[k := s], s))
  }

  /** `updateCustomsStatus(id, customsStatus)`: only the customs status of
      the first record with the id changes; its timeline does not grow. */
  function UpdateCustomsStatus(store: seq<Shipment>, id: string, customsStatus: string)
    : (r: Result<(seq<Shipment>, Shipment)>)
    ensures r.Ok? <==> Position(store, id).Some?
    ensures r.Err? ==> r.message == NotFound
    ensures r.Ok? ==>
              var k := Position(store, id).value;
              var (after, s) := r.value;
              && |after| == |store|
              && after[k] == s
              && (forall j :: 0 <= j < |store| && j != k ==> after[j] == store[j])
              && s.customsStatus == customsStatus
              && s.timeline == store[k].timeline
              && s.(customsStatus := store[k].customsStatus) == store[k]
  {
    match Position(store, id)
    case None => Err(NotFound)
    case Some(k) =>
      var s := store[k].(customsStatus := customsStatus);
      Ok((store[k := s], s))
  }

  /** An update keeps the id, so reading the id back gives the updated
      record. */
  lemma UpdateThenGet(store: seq<Shipment>, id: string, status: string, today: string)
    requires UpdateShipmentStatus(store, id, status, today).Ok?
    ensures var (after, s) := UpdateShipmentStatus(store, id, status, today).value;
            GetShipmentById(after, id) == Ok(s)
  {
  }

  /** Updating the status twice appends two entries, oldest first. */
  lemma UpdateTwiceAppendsInOrder(store: seq<Shipment>, id: string, first: string, second: string, d1: string, d2: string)
    requires UpdateShipmentStatus(store, id, first, d1).Ok?
    ensures var (mid, _) := UpdateShipmentStatus(store, id, first, d1).value;
            var r := UpdateShipmentStatus(mid, id, second, d2);
            var k := Position(store, id).value;
            && r.Ok?
            && r.value.1.status == second
            && r.value.1.timeline == store[k].timeline
                 + [TimelineEntry(d1, first, store[k].destination), TimelineEntry(d2, second, store[k].destination)]
  {
    var k := Position(store, id).value;
    var (mid, s) := UpdateShipmentStatus(store, id, first, d1).value;
    assert Position(mid, id) == Some(k);
  }

  // ---------------------------------------------------------------------
  // deleteShipment
  // ---------------------------------------------------------------------

  /** `deleteShipment(id)`: removes the first record with the id and keeps
      the others in order; an unknown id fails. */
  function DeleteShipment(store: seq<Shipment>, id: string): (r: Result<seq<Shipment>>)
    ensures r.Ok? <==> Position(store, id).Some?
    ensures r.Err? ==> r.message == NotFound
    ensures r.Ok? ==>
              var k := Position(store, id).value;
              && |r.value| == |store| - 1
              && (forall j :: 0 <= j < k ==> r.value[j] == store[j])
              && (forall j :: k <= j < |r.value| ==> r.value[j] == store[j + 1])
  {
    match Position(store, id)
    case None => Err(NotFound)
    case Some(k) => Ok(Lists.RemoveAt(store, k))
  }

  /** A delete drops exactly one record carrying the id, and every other
      id keeps all its records in order. */
  lemma DeleteDropsOneRecord(store: seq<Shipment>, id: string, other: string)
    requires DeleteShipment(store, id).Ok?
    requires other != id
    ensures |Lists.Filter(DeleteShipment(store, id).value, HasId(id))| == |Lists.Filter(store, HasId(id))| - 1
    ensures Lists.Filter(DeleteShipment(store, id).value, HasId(other)) == Lists.Filter(store, HasId(other))
  {
    var k := Position(store, id).value;
    Lists.FilterSplitAt(store, k, HasId(id));
    Lists.FilterRemoveAt(store, k, HasId(id));
    Lists.FilterSplitAt(store, k, HasId(other));
    Lists.FilterRemoveAt(store, k, HasId(other));
  }

  // ---------------------------------------------------------------------
  // Id reuse
  // ---------------------------------------------------------------------

  /** A store whose records are numbered 1, 2, ... in order, as repeated
      creates without an id produce. */
  ghost predicate Numbered(store: seq<Shipment>) {
    forall i :: 0 <= i < |store| ==> NumberedAt(store, i)
  }

  /** The record at position `i` carries the `i + 1`-th sequential id. */
  ghost predicate NumberedAt(store: seq<Shipment>, i: nat)
    requires i < |store|
  {
    store[i].id == ShipmentId(i + 1)
  }

  /** Creating without an id keeps a numbered store numbered. */
  lemma CreateKeepsNumbered(store: seq<Shipment>, data: ShipmentData, now: nat, today: string)
    requires Numbered(store) && data.id.None?
    ensures Numbered(CreateShipment(store, data, now, today).0)
  {
    var (after, s) := CreateShipment(store, data, now, today);
    assert after == store + [s] && s.id == ShipmentId(|store| + 1);
    forall i | 0 <= i < |after| ensures NumberedAt(after, i) {
      if i < |store| {
        assert after[i] == store[i] && NumberedAt(store, i);
      }
    }
  }

  /** In a numbered store no two records share an id. */
  lemma NumberedIdsDistinct(store: seq<Shipment>, i: nat, j: nat)
    requires Numbered(store) && i < j < |store|
    ensures store[i].id != store[j].id
  {
    assert NumberedAt(store, i) && NumberedAt(store, j);
    ShipmentIdInjective(i + 1, j + 1);
  }

  /** Ids come from the current length: in a numbered store of at least two
      records, deleting the first and creating a record without an id gives
      the new record the id of the record that is now last but one. */
  lemma DeleteThenCreateReusesId(store: seq<Shipment>, data: ShipmentData, now: nat, today: string)
    requires Numbered(store) && |store| >= 2 && data.id.None?
    ensures DeleteShipment(store, ShipmentId(1)).Ok?
    ensures var after := CreateShipment(DeleteShipment(store, ShipmentId(1)).value, data, now, today).0;
            && |after| == |store|
            && after[|store| - 2].id == after[|store| - 1].id == ShipmentId(|store|)
  {
    assert NumberedAt(store, 0) && NumberedAt(store, |store| - 1);
    assert Position(store, ShipmentId(1)) == Some(0);
  }

  /** The two mock records are numbered. */
  lemma MockShipmentsNumbered()
    ensures Numbered(MockShipments)
  {
    ShipmentIdSingleDigit(1);
    ShipmentIdSingleDigit(2);
    assert NumberedAt(MockShipments, 0) && NumberedAt(MockShipments, 1);
  }

  /** From the initial store: delete SHP001, then create; the store holds
      two records with id SHP002. */
  lemma MockDeleteThenCreate(data: ShipmentData, now: nat, today: string)
    requires data.id.None?
    ensures DeleteShipment(MockShipments, "SHP001").Ok?
    ensures var after := CreateShipment(DeleteShipment(MockShipments, "SHP001").value, data, now, today).0;
            |after| == 2 && after[0].id == "SHP002" && after[1].id == "SHP002"
  {
    MockShipmentsNumbered();
    ShipmentIdSingleDigit(1);
    ShipmentIdSingleDigit(2);
    DeleteThenCreateReusesId(MockShipments, data, now, today);
  }
}

=== FILE: ShipmentsContext.dfy ===
/** The shipments context: the list of shipments the pages read, refreshed
    from the API and patched after each successful update call. The API's
    store is threaded through explicitly, since the context's calls change
    it. */
module ShipmentsContext {
  import opened Results
  import opened ContextState
  import Lists
  import Api = ShipmentsApi

  type Shipment = Api.Shipment

  const FetchFailed := "Failed to fetch shipments"

  /** The names the shipments API module exports. */
  const ApiMembers: set<string> := {
    "getAllShipments", "getShipmentById", "createShipment", "updateShipmentStatus",
    "updateCustomsStatus", "deleteShipment", "getShipmentStats"}

  /** The update-shaped members the context calls. */
  predicate UpdateMember(member: string) {
    member == "updateShipmentStatus" || member == "updateCustomsStatus"
  }

  /** `fetchShipments()` given what `getAllShipments` answered. */
  function FetchShipments(st: State<Shipment>, response: Result<seq<Shipment>>): (r: State<Shipment>)
    ensures !r.loading
    ensures response.Ok? ==> r.items == response.value && r.error.None?
    ensures response.Err? ==> r.items == st.items && r.error == Some("Failed to fetch shipments")
  {
    Fetch(st, response, FetchFailed)
  }

  /** The mock API's `getAllShipments` answers with the store itself, so a
      fetch shows exactly the store. */
  lemma FetchShowsStore(st: State<Shipment>, store: seq<Shipment>)
    ensures FetchShipments(st, Ok(store)) == State(store, false, None)
  {
  }

  /** `shipmentsApi[member](shipmentId, value)`: the two update members
      reach the store; a name the module does not export is `undefined`, and
      calling it throws a TypeError. */
  function CallUpdate(member: string, store: seq<Shipment>, id: string, value: string, today: string)
    : (r: Result<(seq<Shipment>, Shipment)>)
    requires UpdateMember(member) || member !in ApiMembers
    ensures member !in ApiMembers ==> r.Err?
    ensures UpdateMember(member) ==> (r.Ok? <==> Api.Position(store, id).Some?)
    ensures r.Ok? ==> |r.value.0| == |store| && r.value.1.id == id
  {
    if member == "updateShipmentStatus" then Api.UpdateShipmentStatus(store, id, value, today)
    else if member == "updateCustomsStatus" then Api.UpdateCustomsStatus(store, id, value)
    else Err("shipmentsApi." + member + " is not a function")
  }

  /** What an update call leaves behind: the context's state, the API's
      store, and the returned shipment or the rethrown error. */
  datatype Outcome = Outcome(state: State<Shipment>, store: seq<Shipment>, result: Result<Shipment>)

  function HasShipmentId(id: string): Shipment -> bool {
    (s: Shipment) => s.shipmentId == id
  }

  /** The common body of `updateShipmentStatus` and `updateCustomsClearance`:
      on success every listed shipment whose `shipmentId` matches becomes
      the returned record and the others stay; on failure the error is
      rethrown and nothing changes. */
  function ApplyUpdate(st: State<Shipment>, store: seq<Shipment>, member: string, id: string, value: string, today: string)
    : (r: Outcome)
    requires UpdateMember(member) || member !in ApiMembers
    ensures r.result.Err? <==> CallUpdate(member, store, id, value, today).Err?
    ensures r.result.Err? ==> r.state == st && r.store == store
    ensures r.result.Ok? ==> |r.store| == |store|
    ensures r.result.Ok? ==>
              && r.store == CallUpdate(member, store, id, value, today).value.0
              && r.result.value == CallUpdate(member, store, id, value, today).value.1
              && |r.state.items| == |st.items|
              && (forall i :: 0 <= i < |st.items| && st.items[i].shipmentId == id ==> r.state.items[i] == r.result.value)
              && (forall i :: 0 <= i < |st.items| && st.items[i].shipmentId != id ==> r.state.items[i] == st.items[i])
    ensures r.state.loading == st.loading && r.state.error == st.error
  {
    match CallUpdate(member, store, id, value, today)
    case Err(e) => Outcome(st, store, Err(e))
    case Ok((after, s)) =>
      Outcome(st.(items := Lists.ReplaceWhere(st.items, HasShipmentId(id), s)), after, Ok(s))
  }

  /** `updateShipmentStatus(shipmentId, status)`. */
  function UpdateShipmentStatus(st: State<Shipment>, store: seq<Shipment>, id: string, status: string, today: string)
    : (r: Outcome)
    ensures r.result.Ok? <==> Api.Position(store, id).Some?
    ensures r.result.Err? ==> r.state == st && r.store == store && r.result.message == Api.NotFound
    ensures r.result.Ok? ==> r.result.value.status == status && |r.state.items| == |st.items|
  {
    ApplyUpdate(st, store, "updateShipmentStatus", id, status, today)
  }

  /** `updateCustomsClearance(shipmentId, status)` as written: it calls
      `shipmentsApi.updateCustomsClearance`, which the API module does not
      export, so every call throws and neither the list nor the store
      changes. */
  function UpdateCustomsClearanceAsWritten(st: State<Shipment>, store: seq<Shipment>, id: string, status: string)
    : (r: Outcome)
    ensures r.result.Err?
    ensures r.state == st && r.store == store
  {
    ApplyUpdate(st, store, "updateCustomsClearance", id, status, "")
  }

  /** `updateCustomsClearance` calling the API's `updateCustomsStatus`, as
      evidently intended: it succeeds exactly on a known id and sets the
      customs status of the stored and the listed record. */
  function UpdateCustomsClearance(st: State<Shipment>, store: seq<Shipment>, id: string, status: string)
    : (r: Outcome)
    ensures r.result.Ok? <==> Api.Position(store, id).Some?
    ensures r.result.Err? ==> r.state == st && r.store == store
    ensures r.result.Ok? ==> |r.store| == |store| && |r.state.items| == |st.items|
    ensures r.result.Ok? ==>
              && r.result.value.customsStatus == status
              && r.store[Api.Position(store, id).value] == r.result.value
              && (forall i :: 0 <= i < |st.items| && st.items[i].shipmentId == id ==> r.state.items[i].customsStatus == status)
  {
    ApplyUpdate(st, store, "updateCustomsStatus", id, status, "")
  }

  /** The name the context calls is not among the API's exports, and for a
      known id the corrected call succeeds where the written one throws. */
  lemma CustomsClearanceAlwaysThrows(st: State<Shipment>, store: seq<Shipment>, id: string, status: string)
    requires Api.Position(store, id).Some?
    ensures "updateCustomsClearance" !in ApiMembers
    ensures UpdateCustomsClearanceAsWritten(st, store, id, status).result.Err?
    ensures UpdateCustomsClearance(st, store, id, status).result.Ok?
  {
  }

  /** The list shows the store, each record's `shipmentId` equals its `id`
      (as on records created without overrides), and no id repeats. */
  ghost predicate Mirrors(st: State<Shipment>, store: seq<Shipment>) {
    && st.items == store
    && (forall i :: 0 <= i < |store| ==> store[i].shipmentId == store[i].id)
    && (forall i, j :: 0 <= i < j < |store| ==> store[i].id != store[j].id)
  }

  /** The API finds a record by `id` while the context replaces by
      `shipmentId`; when the two agree and ids are unique, the list keeps
      showing the store after any update. */
  lemma UpdateKeepsMirror(st: State<Shipment>, store: seq<Shipment>, member: string, id: string, value: string, today: string)
    requires UpdateMember(member)
    requires Mirrors(st, store)
    ensures var r := ApplyUpdate(st, store, member, id, value, today);
            Mirrors(r.state, r.store)
  {
    var r := ApplyUpdate(st, store, member, id, value, today);
    if r.result.Ok? {
      var k := Api.Position(store, id).value;
      var s := r.result.value;
      var after := r.store;
      assert after == store[k := s] by {
        if member == "updateShipmentStatus" {
          assert after == Api.UpdateShipmentStatus(store, id, value, today).value.0;
        } else {
          assert after == Api.UpdateCustomsStatus(store, id, value).value.0;
        }
        assert |after| == |store|;
      }
      assert s.shipmentId == id && s.id == id by {
        assert s == after[k];
      }
      forall i | 0 <= i < |store|
        ensures r.state.items[i] == after[i]
      {
        if i != k {
          assert store[i].id != id by {
            if i < k { } else { assert store[k].id != store[i].id; }
          }
        }
      }
    }
  }

  /** Two listed records sharing a shipment id, as after an id is reused:
      the store updates only the first, the list replaces both, and the
      list stops showing the store. */
  lemma RepeatedIdBreaksMirror(st: State<Shipment>, store: seq<Shipment>, id: string, status: string, today: string)
    requires st.items == store && |store| >= 2
    requires store[0].id == id && store[1].id == id && store[1].shipmentId == id
    requires |store[1].timeline| <= |store[0].timeline|
    ensures var r := UpdateShipmentStatus(st, store, id, status, today);
            r.result.Ok? && r.state.items[1] != r.store[1]
  {
    var r := UpdateShipmentStatus(st, store, id, status, today);
    assert Api.Position(store, id) == Some(0);
    assert r.store[1] == store[1];
    assert |r.state.items[1].timeline| == |store[0].timeline| + 1;
  }
}

=== FILE: ShipmentsPage.dfy ===
/** The shipments page: a fixed table of sample shipments narrowed by a
    status button and a search box and ordered by the clicked column. */
module ShipmentsPage {
  import opened Results
  import opened Text
  import opened SortControls
  import Lists
  import Sorting

  datatype Row = Row(id: string, trackingNumber: string, destination: string, date: string, status: string, customer: string)

  /** The page's sample shipments. */
  const SampleRows: seq<Row> := [
    Row("1", "SHP001", "New York, NY", "2024-03-15", "in-transit", "John Doe"),
    Row("2", "SHP002", "Los Angeles, CA", "2024-03-14", "delivered", "Jane Smith"),
    Row("3", "SHP003", "Chicago, IL", "2024-03-13", "pending", "Bob Johnson"),
    Row("4", "SHP004", "Miami, FL", "2024-03-12", "delayed", "Alice Brown")]

  /** The status buttons and the fields the column headers sort by. */
  const StatusButtons: seq<string> := ["all", "in-transit", "delivered", "pending", "delayed"]
  const HeaderFields: seq<string> := ["trackingNumber", "customer", "destination", "date", "status"]

  datatype PageState = PageState(query: string, sort: SortState, selectedStatus: string)

  /** Empty search, newest date first, every status. */
  const Initial := PageState("", SortState("date", Desc), "all")

  /** `Object.values(shipment)`, in the order the keys are written. */
  function Values(row: Row): seq<string> {
    [row.id, row.trackingNumber, row.destination, row.date, row.status, row.customer]
  }

  /** The filter callback: the selected status (or "all"), and an empty
      query or some value containing it, ignoring ASCII case. */
  predicate Keep(row: Row, status: string, query: string) {
    && (status == "all" || row.status == status)
    && (query == "" || SomeValueContains(Values(row), query))
  }

  function KeepFor(st: PageState): Row -> bool {
    (row: Row) => Keep(row, st.selectedStatus, st.query)
  }

  /** The keys of a row. */
  const RowKeys: set<string> := {"id", "trackingNumber", "destination", "date", "status", "customer"}

  /** `shipment[field]`; `None` stands for `undefined`, and also for an
      inherited `Object.prototype` member: two rows give the same member,
      so `>` between them is false, as it is for `undefined`. */
  function Field(row: Row, field: string): (r: Option<string>)
    ensures r.Some? <==> field in RowKeys
    ensures r.Some? ==> r.value in Values(row)
  {
    if field == "id" then Some(row.id)
    else if field == "trackingNumber" then Some(row.trackingNumber)
    else if field == "destination" then Some(row.destination)
    else if field == "date" then Some(row.date)
    else if field == "status" then Some(row.status)
    else if field == "customer" then Some(row.customer)
    else None
  }

  /** `x > y` on two field values: string order, and false as soon as one
      side is `undefined`. */
  predicate Greater(x: Option<string>, y: Option<string>) {
    x.Some? && y.Some? && LexLess(y.value, x.value)
  }

  /** The sort callback `a[f] > b[f] ? m : -m`. It never answers 0: two
      rows with the same value both get `-m`, each claiming the same side
      of the other. */
  function Compare(sort: SortState): (cmp: (Row, Row) -> int)
    ensures forall a, b :: cmp(a, b) != 0
    ensures forall a, b :: cmp(a, b) == Sign(sort.direction) <==> Greater(Field(a, sort.field), Field(b, sort.field))
  {
    (a: Row, b: Row) =>
      if Greater(Field(a, sort.field), Field(b, sort.field)) then Sign(sort.direction) else -Sign(sort.direction)
  }

  /** `filteredShipments`: the kept rows, sorted; nothing else is added or
      dropped. */
  function Displayed(rows: seq<Row>, st: PageState): (r: seq<Row>)
    ensures multiset(r) == multiset(Lists.Filter(rows, KeepFor(st)))
    ensures forall i :: 0 <= i < |r| ==> Keep(r[i], st.selectedStatus, st.query) && r[i] in rows
    ensures forall i :: 0 <= i < |rows| && Keep(rows[i], st.selectedStatus, st.query) ==> rows[i] in r
  {
    SortedKept(rows, st);
    Sorting.Sort(Lists.Filter(rows, KeepFor(st)), Compare(st.sort))
  }

  /** Sorting the kept rows keeps exactly the rows the filter lets through. */
  lemma SortedKept(rows: seq<Row>, st: PageState)
    ensures var kept := Lists.Filter(rows, KeepFor(st));
            multiset(Sorting.Sort(kept, Compare(st.sort))) == multiset(kept)
    ensures var r := Sorting.Sort(Lists.Filter(rows, KeepFor(st)), Compare(st.sort));
            forall i :: 0 <= i < |r| ==> Keep(r[i], st.selectedStatus, st.query) && r[i] in rows
    ensures var r := Sorting.Sort(Lists.Filter(rows, KeepFor(st)), Compare(st.sort));
            forall i :: 0 <= i < |rows| && Keep(rows[i], st.selectedStatus, st.query) ==> rows[i] in r
  {
    var kept := Lists.Filter(rows, KeepFor(st));
    var r := Sorting.Sort(kept, Compare(st.sort));
    Sorting.SortPermutes(kept, Compare(st.sort));
    Lists.FilterMembers(rows, KeepFor(st));
    Sorting.SortMembers(kept, Compare(st.sort));
    forall i | 0 <= i < |r| ensures Keep(r[i], st.selectedStatus, st.query) && r[i] in rows {
      assert r[i] in kept;
      Lists.FilterMemberOf(rows, KeepFor(st), r[i]);
    }
    forall i | 0 <= i < |rows| && Keep(rows[i], st.selectedStatus, st.query) ensures rows[i] in r {
      assert KeepFor(st)(rows[i]);
    }
  }

  /** With no query and every status the page shows each row, as often as
      it is listed. */
  lemma NothingFilteredAtFirst(rows: seq<Row>, sort: SortState)
    ensures multiset(Displayed(rows, PageState("", sort, "all"))) == multiset(rows)
  {
    Lists.FilterKeepsAll(rows, KeepFor(PageState("", sort, "all")));
  }

  /** The "Filter" button: back to every status, query and sort kept. */
  function ClickFilter(st: PageState): (r: PageState)
    ensures r.selectedStatus == "all" && r.query == st.query && r.sort == st.sort
  {
    st.(selectedStatus := "all")
  }

  /** After "Filter" a row is shown exactly when it matches the query,
      whatever its status. */
  lemma FilterButtonShowsEveryStatus(rows: seq<Row>, st: PageState, row: Row)
    requires row in rows
    ensures row in Displayed(rows, ClickFilter(st)) <==> st.query == "" || SomeValueContains(Values(row), st.query)
  {
  }

  /** A status button shows only rows of that status; "all" is the one
      that does not narrow. */
  lemma StatusButtonNarrows(rows: seq<Row>, st: PageState, status: string)
    requires status in StatusButtons && status != "all"
    ensures forall row :: row in Displayed(rows, st.(selectedStatus := status)) ==> row.status == status
  {
  }

  /** A row is found by its own tracking number, in any case. */
  lemma SearchFindsOwnTrackingNumber(row: Row, query: string)
    requires Lower(query) == Lower(row.trackingNumber)
    ensures Keep(row, "all", query)
  {
    ContainsAt(Lower(row.trackingNumber), Lower(query));
    assert Lower(row.trackingNumber)[0..] == Lower(row.trackingNumber);
    assert Values(row)[1] == row.trackingNumber;
  }

  // ---------------------------------------------------------------------
  // Order of the displayed rows
  // ---------------------------------------------------------------------

  /** The value a header field sorts by. */
  function KeyOf(field: string): Row -> string {
    (row: Row) => Field(row, field).GetOr("")
  }

  /** No two listed rows share a value in `field`. */
  ghost predicate DistinctIn(rows: seq<Row>, field: string) {
    forall i, j :: 0 <= i < j < |rows| ==> KeyOf(field)(rows[i]) != KeyOf(field)(rows[j])
  }

  /** When no two rows share a value in the sort field, the answer-never-0
      callback agrees with a consistent key comparison, and the page lists
      the rows ascending or descending by that field. */
  lemma SortedByField(rows: seq<Row>, st: PageState)
    requires st.sort.field in RowKeys
    requires DistinctIn(rows, st.sort.field)
    ensures var r := Displayed(rows, st);
            var key := KeyOf(st.sort.field);
            forall i, j :: 0 <= i < j < |r| ==>
              if st.sort.direction == Asc then !LexLess(key(r[j]), key(r[i])) else !LexLess(key(r[i]), key(r[j]))
  {
    var key := KeyOf(st.sort.field);
    var m := Sign(st.sort.direction);
    var kept := Lists.Filter(rows, KeepFor(st));
    var consistent := Sorting.KeyCompare(key, Sorting.StringLess(), m);
    Lists.FilterKeepsDistinctKeys(rows, KeepFor(st), key);
    ComparatorsAgree(kept, st);
    Sorting.SortAgrees(kept, Compare(st.sort), consistent);
    Sorting.StringLessStrictTotal();
    Sorting.SortByKey(kept, key, Sorting.StringLess(), m);
  }

  /** On rows with distinct values in the sort field, the page's callback
      and the consistent key comparison agree on which row goes later. */
  lemma ComparatorsAgree(kept: seq<Row>, st: PageState)
    requires st.sort.field in RowKeys
    requires forall i, j :: 0 <= i < j < |kept| ==> KeyOf(st.sort.field)(kept[i]) != KeyOf(st.sort.field)(kept[j])
    ensures var cmp := Compare(st.sort);
            var consistent := Sorting.KeyCompare(KeyOf(st.sort.field), Sorting.StringLess(), Sign(st.sort.direction));
            forall i, j :: 0 <= i < |kept| && 0 <= j < |kept| && i != j ==>
              (cmp(kept[i], kept[j]) > 0 <==> consistent(kept[i], kept[j]) > 0)
  {
    var key := KeyOf(st.sort.field);
    var cmp := Compare(st.sort);
    var consistent := Sorting.KeyCompare(key, Sorting.StringLess(), Sign(st.sort.direction));
    forall i, j | 0 <= i < |kept| && 0 <= j < |kept| && i != j
      ensures cmp(kept[i], kept[j]) > 0 <==> consistent(kept[i], kept[j]) > 0
    {
      var a, b := key(kept[i]), key(kept[j]);
      assert a != b by {
        if j < i { assert key(kept[j]) != key(kept[i]); }
      }
      assert Field(kept[i], st.sort.field) == Some(a) && Field(kept[j], st.sort.field) == Some(b);
      LexLessTotal(a, b);
      if LexLess(a, b) { LexLessAsymmetric(a, b); }
    }
  }

  // ---------------------------------------------------------------------
  // Dates
  // ---------------------------------------------------------------------

  /** A `YYYY-MM-DD` date. */
  predicate IsoDate(s: string) {
    && |s| == 10 && s[4] == '-' && s[7] == '-'
    && AllDigits(s[..4]) && AllDigits(s[5..7]) && AllDigits(s[8..])
  }

  function Year(s: string): nat requires IsoDate(s) { DigitsValue(s[..4]) }
  function Month(s: string): nat requires IsoDate(s) { DigitsValue(s[5..7]) }
  function Day(s: string): nat requires IsoDate(s) { DigitsValue(s[8..]) }

  /** Strictly earlier in the calendar. */
  predicate Earlier(a: string, b: string)
    requires IsoDate(a) && IsoDate(b)
  {
    || Year(a) < Year(b)
    || (Year(a) == Year(b) && (Month(a) < Month(b) || (Month(a) == Month(b) && Day(a) < Day(b))))
  }

  /** Numerals of the same length are equal exactly when their values are. */
  lemma DigitsEqual(a: string, b: string)
    requires AllDigits(a) && AllDigits(b) && |a| == |b|
    ensures a == b <==> DigitsValue(a) == DigitsValue(b)
  {
    if a != b {
      LexLessTotal(a, b);
      LexLessDigits(a, b);
      LexLessDigits(b, a);
    }
  }

  /** A dash in the same place on both sides leaves the order to what
      follows. */
  lemma DashThenRest(a: string, b: string, k: nat)
    requires k < |a| && k < |b| && a[k] == '-' && b[k] == '-'
    ensures LexLess(a[k..], b[k..]) <==> LexLess(a[k + 1..], b[k + 1..])
  {
    assert a[k..] == a[k..k + 1] + a[k + 1..];
    assert b[k..] == b[k..k + 1] + b[k + 1..];
    assert a[k..k + 1] == b[k..k + 1];
    LexLessAppend(a[k..k + 1], a[k + 1..], b[k..k + 1], b[k + 1..]);
    LexLessIrreflexive(a[k..k + 1]);
  }

  /** On ISO dates, string order is calendar order, so the date column
      sorts chronologically. */
  lemma IsoDateOrder(a: string, b: string)
    requires IsoDate(a) && IsoDate(b)
    ensures LexLess(a, b) <==> Earlier(a, b)
  {
    assert a == a[..4] + a[4..] && b == b[..4] + b[4..];
    LexLessAppend(a[..4], a[4..], b[..4], b[4..]);
    DashThenRest(a, b, 4);
    assert a[5..] == a[5..7] + a[7..] && b[5..] == b[5..7] + b[7..];
    assert a[5..][2..] == a[7..] && b[5..][2..] == b[7..];
    LexLessAppend(a[5..7], a[7..], b[5..7], b[7..]);
    DashThenRest(a, b, 7);
    LexLessDigits(a[..4], b[..4]);
    LexLessDigits(a[5..7], b[5..7]);
    LexLessDigits(a[8..], b[8..]);
    DigitsEqual(a[..4], b[..4]);
    DigitsEqual(a[5..7], b[5..7]);
  }

  /** With distinct ISO dates, the first view lists no shipment before a
      later-dated one. */
  lemma InitialViewNewestFirst(rows: seq<Row>)
    requires forall i :: 0 <= i < |rows| ==> IsoDate(rows[i].date)
    requires DistinctIn(rows, "date")
    ensures var r := Displayed(rows, Initial);
            forall i, j :: 0 <= i < j < |r| ==> !Earlier(r[i].date, r[j].date)
  {
    var r := Displayed(rows, Initial);
    SortedByField(rows, Initial);
    forall i, j | 0 <= i < j < |r| ensures !Earlier(r[i].date, r[j].date) {
      assert r[i] in rows && r[j] in rows;
      assert KeyOf("date")(r[i]) == r[i].date && KeyOf("date")(r[j]) == r[j].date;
      IsoDateOrder(r[i].date, r[j].date);
    }
  }

  // ---------------------------------------------------------------------
  // Labels
  // ---------------------------------------------------------------------

  /** `s.charAt(0).toUpperCase() + s.slice(1)`. */
  function Capitalize(s: string): (r: string)
    ensures |r| == |s|
    ensures |s| > 0 ==> r[0] == UpperChar(s[0]) && r[1..] == s[1..]
  {
    if s == [] then [] else [UpperChar(s[0])] + s[1..]
  }

  /** Capitalizing changes case only: lower-cased, the label is the
      lower-cased text. */
  lemma CapitalizeOnlyChangesCase(s: string)
    ensures Lower(Capitalize(s)) == Lower(s)
  {
    if s != [] {
      var r := Capitalize(s);
      forall i | 0 <= i < |s| ensures Lower(r)[i] == Lower(s)[i] {
        if i > 0 { assert r[i] == s[i]; }
      }
    }
  }

  /** Capitalizing twice is capitalizing once. */
  lemma CapitalizeIdempotent(s: string)
    ensures Capitalize(Capitalize(s)) == Capitalize(s)
  {
  }

  /** The label of the first status button. */
  lemma InTransitLabel()
    ensures Capitalize("in-transit") == "In-transit"
  {
  }
}

=== FILE: SortControls.dfy ===
/** The sort-header state machine shared by the inventory and shipments
    pages: clicking the current field flips the direction, clicking another
    field switches to it in ascending order. */
module SortControls {

  datatype Direction = Asc | Desc

  function Flip(d: Direction): (r: Direction)
    ensures r != d
  {
    if d == Asc then Desc else Asc
  }

  /** `sortDirection === 'asc' ? 1 : -1`. */
  function Sign(d: Direction): (m: int)
    ensures m == 1 || m == -1
    ensures m == 1 <==> d == Asc
  {
    if d == Asc then 1 else -1
  }

  datatype SortState = SortState(field: string, direction: Direction)

  /** `handleSort(field)`. */
  function HandleSort(st: SortState, field: string): (r: SortState)
    ensures r.field == field
    ensures st.field == field ==> r.direction != st.direction
    ensures st.field != field ==> r.direction == Asc
  {
    if st.field == field then st.(direction := Flip(st.direction))
    else SortState(field, Asc)
  }

  /** Clicking the current field twice gives the state back. */
  lemma SameFieldTwiceRestores(st: SortState)
    ensures HandleSort(HandleSort(st, st.field), st.field) == st
  {
  }

  /** Clicking a new field twice sorts it descending, whatever came before. */
  lemma NewFieldTwiceDescends(st: SortState, field: string)
    requires st.field != field
    ensures HandleSort(HandleSort(st, field), field) == SortState(field, Desc)
  {
  }
}

=== FILE: Sorting.dfy ===
/** `Array.prototype.sort` with a comparator, modelled as a stable insertion
    sort. For a comparator that is a total preorder every stable sort produces
    the same list, so the model fixes the result uniquely there; for an
    inconsistent comparator the language leaves the order to the engine and
    only the permutation property is promised. */
module Sorting {
  import Lists
  import Text

  /** Inserts `x` before the first element that must come after it. */
  function Insert<T>(x: T, s: seq<T>, cmp: (T, T) -> int): (r: seq<T>)
    ensures |r| == |s| + 1
  {
    if s == [] then [x]
    else if cmp(s[0], x) > 0 then [x] + s
    else [s[0]] + Insert(x, s[1..], cmp)
  }

  /** Inserting adds `x` and nothing else. */
  lemma {:induction false} InsertPermutes<T>(x: T, s: seq<T>, cmp: (T, T) -> int)
    ensures multiset(Insert(x, s, cmp)) == multiset(s) + multiset{x}
    decreases |s|
  {
    if s != [] && cmp(s[0], x) <= 0 {
      InsertPermutes(x, s[1..], cmp);
      assert s == [s[0]] + s[1..];
    }
  }

  /** `s.slice().sort(cmp)`: the elements are inserted one by one, left to
      right, so that equal elements keep their input order. */
  function Sort<T>(s: seq<T>, cmp: (T, T) -> int): (r: seq<T>)
    ensures |r| == |s|
  {
    if s == [] then []
    else Insert(s[|s| - 1], Sort(s[..|s| - 1], cmp), cmp)
  }

  /** Two elements where the first must come after the second swap. */
  lemma SortTwo<T>(a: T, b: T, cmp: (T, T) -> int)
    requires cmp(a, b) > 0
    ensures Sort([a, b], cmp) == [b, a]
  {
    assert [a, b][..1] == [a];
    assert [a][..0] == [];
  }

  /** Sorting permutes: every element comes out as often as it went in. */
  lemma {:induction false} SortPermutes<T>(s: seq<T>, cmp: (T, T) -> int)
    ensures multiset(Sort(s, cmp)) == multiset(s)
    decreases |s|
  {
    if s != [] {
      var n := |s| - 1;
      var init := s[..n];
      calc {
        multiset(Sort(s, cmp));
        multiset(Insert(s[n], Sort(init, cmp), cmp));
        { InsertPermutes(s[n], Sort(init, cmp), cmp); }
        multiset(Sort(init, cmp)) + multiset{s[n]};
        { SortPermutes(init, cmp); }
        multiset(init) + multiset{s[n]};
        { assert s == init + [s[n]]; }
        multiset(s);
      }
    }
  }

  /** Every element may precede every later one. */
  ghost predicate Sorted<T>(s: seq<T>, cmp: (T, T) -> int) {
    forall i, j :: 0 <= i < j < |s| ==> cmp(s[i], s[j]) <= 0
  }

  /** Sorting neither adds nor drops an element. */
  lemma SortMembers<T>(s: seq<T>, cmp: (T, T) -> int)
    ensures forall x :: x in Sort(s, cmp) <==> x in s
  {
    var r := Sort(s, cmp);
    SortPermutes(s, cmp);
    forall x ensures x in r <==> x in s {
      assert x in r <==> x in multiset(r);
      assert x in s <==> x in multiset(s);
    }
  }

  /** `cmp(a, b) <= 0` reads "a may precede b"; a consistent comparator makes
      this a total preorder. */
  ghost predicate TotalPreorder<T(!new)>(cmp: (T, T) -> int) {
    && (forall a, b :: cmp(a, b) <= 0 || cmp(b, a) <= 0)
    && (forall a, b, c :: cmp(a, b) <= 0 && cmp(b, c) <= 0 ==> cmp(a, c) <= 0)
  }

  /** Neither element has to precede the other. */
  ghost predicate Equivalent<T>(a: T, b: T, cmp: (T, T) -> int) {
    cmp(a, b) <= 0 && cmp(b, a) <= 0
  }

  /** Membership in the equivalence class of `p`. */
  ghost function InClass<T>(p: T, cmp: (T, T) -> int): T -> bool {
    y => Equivalent(y, p, cmp)
  }

  /** The elements of `s` equivalent to `p`, in list order. */
  ghost function ClassOf<T>(s: seq<T>, p: T, cmp: (T, T) -> int): seq<T> {
    Lists.Filter(s, InClass(p, cmp))
  }

  lemma {:induction false} InsertSorted<T(!new)>(x: T, s: seq<T>, cmp: (T, T) -> int)
    requires TotalPreorder(cmp) && Sorted(s, cmp)
    ensures Sorted(Insert(x, s, cmp), cmp)
    decreases |s|
  {
    if s == [] {
    } else if cmp(s[0], x) > 0 {
      assert Insert(x, s, cmp) == [x] + s;
      PrependSorted(x, s, cmp);
    } else {
      var rest := Insert(x, s[1..], cmp);
      assert Insert(x, s, cmp) == [s[0]] + rest;
      SortedTail(s, cmp);
      InsertSorted(x, s[1..], cmp);
      HeadPrecedesInsert(x, s, cmp);
      ConsSorted(s[0], rest, cmp);
    }
  }

  /** An element that may precede the head of a sorted list may precede
      all of it. */
  lemma PrependSorted<T(!new)>(x: T, s: seq<T>, cmp: (T, T) -> int)
    requires TotalPreorder(cmp) && Sorted(s, cmp)
    requires s != [] && cmp(s[0], x) > 0
    ensures Sorted([x] + s, cmp)
  {
    assert cmp(x, s[0]) <= 0;
    forall k | 0 <= k < |s| ensures cmp(x, s[k]) <= 0 {
      if k > 0 {
        assert cmp(s[0], s[k]) <= 0;
      }
    }
    ConsSorted(x, s, cmp);
  }

  lemma ConsSorted<T>(h: T, s: seq<T>, cmp: (T, T) -> int)
    requires Sorted(s, cmp)
    requires forall k :: 0 <= k < |s| ==> cmp(h, s[k]) <= 0
    ensures Sorted([h] + s, cmp)
  {
    var r := [h] + s;
    forall i, j | 0 <= i < j < |r| ensures cmp(r[i], r[j]) <= 0 {
      if i == 0 {
        assert r[j] == s[j - 1];
      } else {
        assert r[i] == s[i - 1] && r[j] == s[j - 1];
      }
    }
  }

  /** The head of a sorted list that stays in front of `x` may precede
      everything `x` is inserted among after it. */
  lemma HeadPrecedesInsert<T(!new)>(x: T, s: seq<T>, cmp: (T, T) -> int)
    requires Sorted(s, cmp) && s != [] && cmp(s[0], x) <= 0
    ensures forall k :: 0 <= k < |Insert(x, s[1..], cmp)| ==> cmp(s[0], Insert(x, s[1..], cmp)[k]) <= 0
  {
    var rest := Insert(x, s[1..], cmp);
    InsertPermutes(x, s[1..], cmp);
    forall k | 0 <= k < |rest|
      ensures cmp(s[0], rest[k]) <= 0
    {
      assert rest[k] in multiset(rest);
      if rest[k] != x {
        assert rest[k] in multiset(s[1..]);
        var m :| 0 <= m < |s[1..]| && s[1..][m] == rest[k];
        assert s[m + 1] == rest[k];
      }
    }
  }

  /** The result of `Sort` is sorted whenever the comparator is consistent. */
  lemma {:induction false} SortSorted<T(!new)>(s: seq<T>, cmp: (T, T) -> int)
    requires TotalPreorder(cmp)
    ensures Sorted(Sort(s, cmp), cmp)
    decreases |s|
  {
    if s != [] {
      SortSorted(s[..|s| - 1], cmp);
      InsertSorted(s[|s| - 1], Sort(s[..|s| - 1], cmp), cmp);
    }
  }

  /** When no element of `s` has to come after any other, sorting leaves
      `s` as it is. */
  lemma {:induction false} SortKeepsOrderOfTies<T>(s: seq<T>, cmp: (T, T) -> int)
    requires forall i, j :: 0 <= i < |s| && 0 <= j < |s| ==> cmp(s[i], s[j]) <= 0
    ensures Sort(s, cmp) == s
    decreases |s|
  {
    if s != [] {
      var n := |s| - 1;
      var init, x := s[..n], s[n];
      assert Sort(s, cmp) == Insert(x, Sort(init, cmp), cmp);
      TiesInPrefix(s, n, cmp);
      SortKeepsOrderOfTies(init, cmp);
      InsertAtEnd(x, init, cmp);
      assert init + [x] == s;
    }
  }

  lemma TiesInPrefix<T>(s: seq<T>, n: nat, cmp: (T, T) -> int)
    requires forall i, j :: 0 <= i < |s| && 0 <= j < |s| ==> cmp(s[i], s[j]) <= 0
    requires n < |s|
    ensures forall i, j :: 0 <= i < n && 0 <= j < n ==> cmp(s[..n][i], s[..n][j]) <= 0
    ensures forall i :: 0 <= i < n ==> cmp(s[..n][i], s[n]) <= 0
  {
  }

  lemma {:induction false} InsertAtEnd<T>(x: T, s: seq<T>, cmp: (T, T) -> int)
    requires forall i :: 0 <= i < |s| ==> cmp(s[i], x) <= 0
    ensures Insert(x, s, cmp) == s + [x]
    decreases |s|
  {
    if s != [] {
      InsertAtEnd(x, s[1..], cmp);
      assert [s[0]] + (s[1..] + [x]) == s + [x];
    }
  }

  /** In a sorted list, an element that must follow `x` is followed only by
      elements that must follow `x` too, none of them equivalent to `x`. */
  lemma LaterNotEquivalent<T(!new)>(x: T, s: seq<T>, p: T, cmp: (T, T) -> int)
    requires TotalPreorder(cmp) && Sorted(s, cmp)
    requires s != [] && cmp(s[0], x) > 0 && Equivalent(x, p, cmp)
    ensures forall k :: 0 <= k < |s| ==> !InClass(p, cmp)(s[k])
  {
    forall k | 0 <= k < |s|
      ensures !Equivalent(s[k], p, cmp)
    {
      assert cmp(s[0], s[k]) <= 0 || k == 0;
    }
  }

  /** Inserting in front of a sorted list: the class of `p` gains `x` at
      the end, or nothing. */
  lemma InsertFrontClass<T(!new)>(x: T, s: seq<T>, p: T, cmp: (T, T) -> int)
    requires TotalPreorder(cmp) && Sorted(s, cmp)
    requires s != [] && cmp(s[0], x) > 0
    ensures ClassOf([x] + s, p, cmp) == ClassOf(s, p, cmp) + ClassOf([x], p, cmp)
  {
    var inClass := InClass(p, cmp);
    Lists.FilterAppend([x], s, inClass);
    if inClass(x) {
      LaterNotEquivalent(x, s, p, cmp);
      Lists.FilterDropsAll(s, inClass);
    } else {
      Lists.FilterDropsAll([x], inClass);
    }
  }

  lemma {:induction false} InsertClass<T(!new)>(x: T, s: seq<T>, p: T, cmp: (T, T) -> int)
    requires TotalPreorder(cmp) && Sorted(s, cmp)
    ensures ClassOf(Insert(x, s, cmp), p, cmp) == ClassOf(s, p, cmp) + ClassOf([x], p, cmp)
    decreases |s|
  {
    if s == [] {
      assert Insert(x, s, cmp) == [x];
    } else if cmp(s[0], x) > 0 {
      assert Insert(x, s, cmp) == [x] + s;
      InsertFrontClass(x, s, p, cmp);
    } else {
      var f := InClass(p, cmp);
      var rest := Insert(x, s[1..], cmp);
      assert Insert(x, s, cmp) == [s[0]] + rest;
      SortedTail(s, cmp);
      InsertClass(x, s[1..], p, cmp);
      var head := if f(s[0]) then [s[0]] else [];
      assert Lists.Filter([s[0]] + rest, f) == head + Lists.Filter(rest, f) by {
        assert ([s[0]] + rest)[1..] == rest;
      }
      assert Lists.Filter(s, f) == head + Lists.Filter(s[1..], f);
    }
  }

  lemma SortedTail<T>(s: seq<T>, cmp: (T, T) -> int)
    requires Sorted(s, cmp) && s != []
    ensures Sorted(s[1..], cmp)
  {
  }

  /** Stability: the elements of any one equivalence class come out of the
      sort in the order they went in. */
  lemma {:induction false} SortStable<T(!new)>(s: seq<T>, p: T, cmp: (T, T) -> int)
    requires TotalPreorder(cmp)
    ensures ClassOf(Sort(s, cmp), p, cmp) == ClassOf(s, p, cmp)
    decreases |s|
  {
    if s != [] {
      var init, x := s[..|s| - 1], s[|s| - 1];
      assert Sort(s, cmp) == Insert(x, Sort(init, cmp), cmp);
      SortStable(init, p, cmp);
      StableStep(init, x, p, cmp);
      assert init + [x] == s;
    }
  }

  /** One insertion step of the sort keeps each class in input order. */
  lemma StableStep<T(!new)>(init: seq<T>, x: T, p: T, cmp: (T, T) -> int)
    requires TotalPreorder(cmp)
    requires ClassOf(Sort(init, cmp), p, cmp) == ClassOf(init, p, cmp)
    ensures ClassOf(Insert(x, Sort(init, cmp), cmp), p, cmp) == ClassOf(init + [x], p, cmp)
  {
    var t := Sort(init, cmp);
    SortSorted(init, cmp);
    InsertClass(x, t, p, cmp);
    Lists.FilterAppend(init, [x], InClass(p, cmp));
  }

  lemma {:induction false} InsertAgrees<T>(x: T, s: seq<T>, c1: (T, T) -> int, c2: (T, T) -> int)
    requires forall e :: e in s ==> (c1(e, x) > 0 <==> c2(e, x) > 0)
    ensures Insert(x, s, c1) == Insert(x, s, c2)
    decreases |s|
  {
    if s != [] {
      InsertAgrees(x, s[1..], c1, c2);
    }
  }

  /** Two comparators that agree on "must come after" for every pair of
      distinct positions of `s` sort `s` identically. */
  lemma {:induction false} SortAgrees<T>(s: seq<T>, c1: (T, T) -> int, c2: (T, T) -> int)
    requires forall i, j :: 0 <= i < |s| && 0 <= j < |s| && i != j ==>
               (c1(s[i], s[j]) > 0 <==> c2(s[i], s[j]) > 0)
    ensures Sort(s, c1) == Sort(s, c2)
    decreases |s|
  {
    if s != [] {
      var n := |s| - 1;
      var init, x := s[..n], s[n];
      SortAgrees(init, c1, c2);
      var t := Sort(init, c1);
      SortPermutes(init, c1);
      forall e | e in t
        ensures c1(e, x) > 0 <==> c2(e, x) > 0
      {
        assert e in multiset(t);
        var i :| 0 <= i < n && init[i] == e;
        assert s[i] == e;
      }
      InsertAgrees(x, t, c1, c2);
    }
  }

  // ---------------------------------------------------------------------
  // Comparators that compare one key
  // ---------------------------------------------------------------------

  /** `less` is a strict total order on keys. */
  ghost predicate StrictTotalOrder<K(!new)>(less: (K, K) -> bool) {
    && (forall a :: !less(a, a))
    && (forall a, b, c :: less(a, b) && less(b, c) ==> less(a, c))
    && (forall a, b :: a != b ==> less(a, b) || less(b, a))
  }

  /** `(a, b) => key(a) < key(b) ? -m : key(a) > key(b) ? m : 0`: with
      `m == 1` ascending, with `m == -1` descending. */
  function KeyCompare<T, K>(key: T -> K, less: (K, K) -> bool, m: int): (T, T) -> int {
    (a: T, b: T) => if less(key(a), key(b)) then -m else if less(key(b), key(a)) then m else 0
  }

  /** One key under a strict total order gives a consistent comparator. */
  lemma KeyCompareConsistent<T(!new), K(!new)>(key: T -> K, less: (K, K) -> bool, m: int)
    requires StrictTotalOrder(less) && (m == 1 || m == -1)
    ensures TotalPreorder(KeyCompare(key, less, m))
  {
    var cmp := KeyCompare(key, less, m);
    forall a, b ensures cmp(a, b) <= 0 || cmp(b, a) <= 0 {
      AsymmetricKeys(less, key(a), key(b));
    }
    forall a, b, c | cmp(a, b) <= 0 && cmp(b, c) <= 0 ensures cmp(a, c) <= 0 {
      var ka, kb, kc := key(a), key(b), key(c);
      AsymmetricKeys(less, ka, kb);
      AsymmetricKeys(less, kb, kc);
      AsymmetricKeys(less, ka, kc);
    }
  }

  lemma AsymmetricKeys<K(!new)>(less: (K, K) -> bool, a: K, b: K)
    requires StrictTotalOrder(less)
    ensures !(less(a, b) && less(b, a))
    ensures a != b ==> (less(a, b) <==> !less(b, a))
  {
  }

  /** Sorting by one key: ascending, no key is followed by a smaller one;
      descending, no key is followed by a larger one. */
  lemma SortByKey<T(!new), K(!new)>(s: seq<T>, key: T -> K, less: (K, K) -> bool, m: int)
    requires StrictTotalOrder(less) && (m == 1 || m == -1)
    ensures var r := Sort(s, KeyCompare(key, less, m));
            forall i, j :: 0 <= i < j < |r| ==>
              if m == 1 then !less(key(r[j]), key(r[i])) else !less(key(r[i]), key(r[j]))
  {
    var cmp := KeyCompare(key, less, m);
    var r := Sort(s, cmp);
    KeyCompareConsistent(key, less, m);
    SortSorted(s, cmp);
    forall i, j | 0 <= i < j < |r|
      ensures if m == 1 then !less(key(r[j]), key(r[i])) else !less(key(r[i]), key(r[j]))
    {
      assert cmp(r[i], r[j]) <= 0;
      AsymmetricKeys(less, key(r[i]), key(r[j]));
    }
  }

  /** JavaScript's `<` on strings, as a key order. */
  function StringLess(): (string, string) -> bool {
    (a: string, b: string) => Text.LexLess(a, b)
  }

  lemma StringLessStrictTotal()
    ensures StrictTotalOrder(StringLess())
  {
    var less := StringLess();
    forall a ensures !less(a, a) {
      Text.LexLessIrreflexive(a);
    }
    forall a, b, c | less(a, b) && less(b, c) ensures less(a, c) {
      Text.LexLessTransitive(a, b, c);
    }
    forall a, b | a != b ensures less(a, b) || less(b, a) {
      Text.LexLessTotal(a, b);
    }
  }

  /** `<` on numbers, as a key order. */
  function IntLess(): (int, int) -> bool {
    (a: int, b: int) => a < b
  }

  lemma IntLessStrictTotal()
    ensures StrictTotalOrder(IntLess())
  {
  }
}

=== FILE: Text.dfy ===
/** Strings as the modelled JavaScript sees them: ASCII case mapping, the
    `\s` character class, `includes`, decimal rendering, `padStart`, `trim`
    and `Number` on integer numerals, and the relational `<` on strings. */
module Text {
  import opened Results

  // ---------------------------------------------------------------------
  // Character classes
  // ---------------------------------------------------------------------

  predicate IsAsciiUpper(c: char) { 'A' <= c <= 'Z' }

  predicate IsAsciiLower(c: char) { 'a' <= c <= 'z' }

  predicate IsAsciiLetter(c: char) { IsAsciiUpper(c) || IsAsciiLower(c) }

  predicate IsDigit(c: char) { '0' <= c <= '9' }

  /** The characters JavaScript's `\s` matches: WhiteSpace and LineTerminator
      of section 12.2 and 12.3 of ECMA-262. */
  predicate IsJsSpace(c: char) {
    || ('\U{0009}' <= c <= '\U{000D}')    // tab, line feed, vertical tab, form feed, carriage return
    || c == ' ' || c == '\U{00A0}' || c == '\U{1680}'
    || ('\U{2000}' <= c <= '\U{200A}')    // the typographic spaces
    || c == '\U{2028}' || c == '\U{2029}' // line and paragraph separators
    || c == '\U{202F}' || c == '\U{205F}' || c == '\U{3000}' || c == '\U{FEFF}'
  }

  // ---------------------------------------------------------------------
  // Case mapping (ASCII letters only)
  // ---------------------------------------------------------------------

  function LowerChar(c: char): (d: char)
    ensures !IsAsciiUpper(d)
    ensures IsJsSpace(d) <==> IsJsSpace(c)
    ensures !IsAsciiUpper(c) ==> d == c
    ensures IsAsciiUpper(c) ==> IsAsciiLower(d) && d as int == c as int + 32
  {
    if IsAsciiUpper(c) then (c as int + 32) as char else c
  }

  function UpperChar(c: char): (d: char)
    ensures !IsAsciiLower(d)
    ensures !IsAsciiLower(c) ==> d == c
    ensures IsAsciiLower(c) ==> IsAsciiUpper(d) && d as int == c as int - 32
  {
    if IsAsciiLower(c) then (c as int - 32) as char else c
  }

  /** `toLowerCase`, restricted to ASCII letters. */
  function Lower(s: string): (r: string)
    ensures |r| == |s|
    ensures forall i :: 0 <= i < |r| ==> !IsAsciiUpper(r[i])
    ensures forall i :: 0 <= i < |r| ==> (IsJsSpace(r[i]) <==> IsJsSpace(s[i]))
    ensures forall i :: 0 <= i < |s| && IsAsciiUpper(s[i]) ==> r[i] as int == s[i] as int + 32
    ensures forall i :: 0 <= i < |s| && !IsAsciiUpper(s[i]) ==> r[i] == s[i]
  {
    seq(|s|, i requires 0 <= i < |s| => LowerChar(s[i]))
  }

  /** Lowering twice is lowering once. */
  lemma LowerIdempotent(s: string)
    ensures Lower(Lower(s)) == Lower(s)
  {
  }

  // ---------------------------------------------------------------------
  // Substring search (`String.prototype.includes`)
  // ---------------------------------------------------------------------

  predicate StartsWith(s: string, prefix: string) {
    |prefix| <= |s| && s[..|prefix|] == prefix
  }

  /** `hay.includes(needle)`: some suffix of `hay` starts with `needle`. */
  predicate Contains(hay: string, needle: string)
    decreases |hay|
  {
    StartsWith(hay, needle) || (|hay| > 0 && Contains(hay[1..], needle))
  }

  /** Every string includes the empty string. */
  lemma ContainsEmpty(hay: string)
    ensures Contains(hay, "")
  {
  }

  /** `Contains` agrees with the positional definition of a substring. */
  lemma {:induction false} ContainsAt(hay: string, needle: string)
    ensures Contains(hay, needle) <==>
            exists k :: 0 <= k <= |hay| - |needle| && StartsWith(hay[k..], needle)
    decreases |hay|
  {
    assert hay[0..] == hay;
    if !StartsWith(hay, needle) && |hay| > 0 {
      ContainsAt(hay[1..], needle);
      if Contains(hay[1..], needle) {
        var k :| 0 <= k <= |hay[1..]| - |needle| && StartsWith(hay[1..][k..], needle);
        assert hay[1..][k..] == hay[k + 1..];
      }
      if exists k :: 0 <= k <= |hay| - |needle| && StartsWith(hay[k..], needle) {
        var k :| 0 <= k <= |hay| - |needle| && StartsWith(hay[k..], needle);
        if k > 0 {
          assert hay[1..][k - 1..] == hay[k..];
        }
      }
    }
  }

  /** `values.some(v => v.toLowerCase().includes(query.toLowerCase()))`,
      tried left to right. */
  function SomeValueContains(values: seq<string>, query: string): (b: bool)
    ensures b <==> exists i :: 0 <= i < |values| && Contains(Lower(values[i]), Lower(query))
  {
    if values == [] then false
    else if Contains(Lower(values[0]), Lower(query)) then true
    else
      var b := SomeValueContains(values[1..], query);
      assert b ==> exists i :: 1 <= i < |values| && Contains(Lower(values[i]), Lower(query)) by {
        if b {
          var k :| 0 <= k < |values[1..]| && Contains(Lower(values[1..][k]), Lower(query));
          assert values[k + 1] == values[1..][k];
        }
      }
      b
  }

  // ---------------------------------------------------------------------
  // Decimal numerals, `String(n)` and `padStart`
  // ---------------------------------------------------------------------

  predicate AllDigits(s: string) {
    forall i :: 0 <= i < |s| ==> IsDigit(s[i])
  }

  function DigitChar(d: nat): (c: char)
    requires d < 10
    ensures IsDigit(c)
  {
    ('0' as int + d) as char
  }

  function DigitOf(c: char): (d: nat)
    requires IsDigit(c)
    ensures d < 10
  {
    c as int - '0' as int
  }

  /** The value of a string of decimal digits, most significant first; the
      empty string reads as 0 and leading zeros add nothing. */
  function DigitsValue(s: string): nat
    requires AllDigits(s)
  {
    if s == [] then 0 else DigitsValue(s[..|s| - 1]) * 10 + DigitOf(s[|s| - 1])
  }

  /** `String(n)` for a non-negative integer: the shortest decimal numeral. */
  function NatToString(n: nat): (r: string)
    ensures |r| >= 1 && AllDigits(r)
    ensures n > 0 ==> r[0] != '0'
  {
    if n < 10 then [DigitChar(n)] else NatToString(n / 10) + [DigitChar(n % 10)]
  }

  /** Reading back the numeral `String(n)` gives `n`. */
  lemma {:induction false} NatToStringRoundTrip(n: nat)
    ensures DigitsValue(NatToString(n)) == n
  {
    if n >= 10 {
      NatToStringRoundTrip(n / 10);
      var s := NatToString(n);
      assert s[..|s| - 1] == NatToString(n / 10);
    }
  }

  /** `String(a) == String(b)` only when `a == b`. */
  lemma NatToStringInjective(a: nat, b: nat)
    requires NatToString(a) == NatToString(b)
    ensures a == b
  {
    NatToStringRoundTrip(a);
    NatToStringRoundTrip(b);
  }

  function Repeat(c: char, k: nat): (r: string)
    ensures |r| == k
    ensures forall i :: 0 <= i < k ==> r[i] == c
  {
    if k == 0 then [] else [c] + Repeat(c, k - 1)
  }

  /** `s.padStart(width, fill)` with a one-character fill. */
  function PadStart(s: string, width: nat, fill: char): (r: string)
    ensures |r| == if |s| >= width then |s| else width
    ensures r[|r| - |s|..] == s
    ensures forall i :: 0 <= i < |r| - |s| ==> r[i] == fill
  {
    if |s| >= width then s else Repeat(fill, width - |s|) + s
  }

  /** Leading zeros do not change the value of a numeral. */
  lemma {:induction false} LeadingZerosValue(k: nat, s: string)
    requires AllDigits(s)
    ensures AllDigits(Repeat('0', k) + s)
    ensures DigitsValue(Repeat('0', k) + s) == DigitsValue(s)
    decreases |s|, k
  {
    var z := Repeat('0', k);
    if s == [] {
      assert z + s == z;
      if k > 0 {
        assert z[..k - 1] == Repeat('0', k - 1);
        LeadingZerosValue(k - 1, []);
        assert Repeat('0', k - 1) + [] == Repeat('0', k - 1);
      }
    } else {
      var t := z + s;
      assert t[..|t| - 1] == z + s[..|s| - 1];
      LeadingZerosValue(k, s[..|s| - 1]);
    }
  }

  /** The zero-padded numeral of `n` still reads back as `n`. */
  lemma PaddedRoundTrip(n: nat, width: nat)
    ensures AllDigits(PadStart(NatToString(n), width, '0'))
    ensures DigitsValue(PadStart(NatToString(n), width, '0')) == n
  {
    var s := NatToString(n);
    NatToStringRoundTrip(n);
    if |s| < width {
      LeadingZerosValue(width - |s|, s);
    }
  }

  /** Zero-padded numerals of distinct numbers are distinct. */
  lemma PaddedInjective(a: nat, b: nat, width: nat)
    requires PadStart(NatToString(a), width, '0') == PadStart(NatToString(b), width, '0')
    ensures a == b
  {
    PaddedRoundTrip(a, width);
    PaddedRoundTrip(b, width);
  }

  /** A prefix followed by a zero-padded numeral determines the number. */
  lemma PrefixedPaddedInjective(prefix: string, a: nat, b: nat, width: nat)
    requires prefix + PadStart(NatToString(a), width, '0') == prefix + PadStart(NatToString(b), width, '0')
    ensures a == b
  {
    var sa := PadStart(NatToString(a), width, '0');
    var sb := PadStart(NatToString(b), width, '0');
    assert sa == (prefix + sa)[|prefix|..];
    assert sb == (prefix + sb)[|prefix|..];
    PaddedInjective(a, b, width);
  }

  // ---------------------------------------------------------------------
  // Trimming `\s` and `Number(s)`
  // ---------------------------------------------------------------------

  /** `s` without its leading run of whitespace. */
  function TrimStart(s: string): (r: string)
    ensures |r| <= |s|
    ensures s != [] && IsJsSpace(s[0]) ==> |r| < |s|
    ensures r == [] || !IsJsSpace(r[0])
    decreases |s|
  {
    if s != [] && IsJsSpace(s[0]) then TrimStart(s[1..]) else s
  }

  /** What `TrimStart` removes is a run of whitespace at the front. */
  lemma {:induction false} TrimStartIsSuffix(s: string)
    ensures s[|s| - |TrimStart(s)|..] == TrimStart(s)
    ensures forall i :: 0 <= i < |s| - |TrimStart(s)| ==> IsJsSpace(s[i])
    decreases |s|
  {
    if s != [] && IsJsSpace(s[0]) {
      TrimStartIsSuffix(s[1..]);
      assert s[1..][|s| - 1 - |TrimStart(s)|..] == s[|s| - |TrimStart(s)|..];
    }
  }

  /** A whitespace run in front of a string that does not start with
      whitespace is exactly what `TrimStart` removes. */
  lemma {:induction false} TrimStartRun(w: string, b: string)
    requires forall i :: 0 <= i < |w| ==> IsJsSpace(w[i])
    requires b == [] || !IsJsSpace(b[0])
    ensures TrimStart(w + b) == b
    decreases |w|
  {
    if w != [] {
      assert (w + b)[1..] == w[1..] + b;
      TrimStartRun(w[1..], b);
    }
  }

  /** `s` without its trailing run of whitespace. */
  function TrimEnd(s: string): (r: string)
    ensures |r| <= |s|
    ensures r == [] || !IsJsSpace(r[|r| - 1])
    decreases |s|
  {
    if s != [] && IsJsSpace(s[|s| - 1]) then TrimEnd(s[..|s| - 1]) else s
  }

  /** What `TrimEnd` removes is a run of whitespace at the back. */
  lemma {:induction false} TrimEndIsPrefix(s: string)
    ensures s[..|TrimEnd(s)|] == TrimEnd(s)
    ensures forall i :: |TrimEnd(s)| <= i < |s| ==> IsJsSpace(s[i])
    decreases |s|
  {
    if s != [] && IsJsSpace(s[|s| - 1]) {
      TrimEndIsPrefix(s[..|s| - 1]);
    }
  }

  /** `trim()`: whitespace removed from both ends. */
  function Trim(s: string): (r: string)
    ensures r == [] || (!IsJsSpace(r[0]) && !IsJsSpace(r[|r| - 1]))
  {
    TrimEndIsPrefix(TrimStart(s));
    TrimEnd(TrimStart(s))
  }

  /** Trimming drops only whitespace: every other character of `s` is still
      there. */
  lemma TrimKeeps(s: string, i: nat)
    requires i < |s| && !IsJsSpace(s[i])
    ensures s[i] in Trim(s)
  {
    var t := TrimStart(s);
    TrimStartIsSuffix(s);
    TrimEndIsPrefix(t);
    var k := |s| - |t|;
    assert t[i - k] == s[i];
  }

  /** The characters a string `Number` reads as an integer may hold. */
  predicate IsNumeralChar(c: char) {
    IsDigit(c) || IsJsSpace(c) || c == '+' || c == '-'
  }

  /** `Number(s)` for the strings that denote integers: after trimming, the
      blank string is 0, and an optional `+` or `-` followed by decimal
      digits is that integer. Every other string is `None`, standing for
      NaN. */
  function ToNumber(s: string): (r: Option<int>)
    ensures AllDigits(s) ==> r == Some(DigitsValue(s))
    ensures r.Some? ==> forall i :: 0 <= i < |s| ==> IsNumeralChar(s[i])
  {
    var t := Trim(s);
    NumeralCharsKept(s, t);
    if t == [] then Some(0)
    else if (t[0] == '+' || t[0] == '-') && |t| > 1 && AllDigits(t[1..]) then
      var magnitude: int := DigitsValue(t[1..]);
      Some(if t[0] == '-' then -magnitude else magnitude)
    else if AllDigits(t) then Some(DigitsValue(t))
    else None
  }

  lemma NumeralCharsKept(s: string, t: string)
    requires t == Trim(s)
    ensures AllDigits(s) ==> t == s
    ensures (forall j :: 0 <= j < |t| ==> IsNumeralChar(t[j])) ==>
              forall i :: 0 <= i < |s| ==> IsNumeralChar(s[i])
  {
    if forall j :: 0 <= j < |t| ==> IsNumeralChar(t[j]) {
      forall i | 0 <= i < |s| ensures IsNumeralChar(s[i]) {
        if !IsJsSpace(s[i]) {
          TrimKeeps(s, i);
        }
      }
    }
  }

  /** `Number(String(n))` is `n`. */
  lemma ToNumberOfNumeral(n: nat)
    ensures ToNumber(NatToString(n)) == Some(n)
  {
    NatToStringRoundTrip(n);
  }

  // ---------------------------------------------------------------------
  // The relational `<` on strings
  // ---------------------------------------------------------------------

  /** `a < b` on two strings: lexicographic order of the characters, where
      a proper prefix is smaller. Dafny characters are Unicode scalar values,
      so this is JavaScript's code-unit order for text below U+10000. */
  predicate LexLess(a: string, b: string)
    decreases |a|
  {
    if |a| == 0 then |b| > 0
    else if |b| == 0 then false
    else if a[0] < b[0] then true
    else if a[0] > b[0] then false
    else LexLess(a[1..], b[1..])
  }

  lemma {:induction false} LexLessIrreflexive(a: string)
    ensures !LexLess(a, a)
    decreases |a|
  {
    if |a| > 0 {
      LexLessIrreflexive(a[1..]);
    }
  }

  lemma {:induction false} LexLessTransitive(a: string, b: string, c: string)
    requires LexLess(a, b) && LexLess(b, c)
    ensures LexLess(a, c)
    decreases |a|
  {
    if |a| > 0 && |b| > 0 && |c| > 0 && a[0] == b[0] == c[0] {
      LexLessTransitive(a[1..], b[1..], c[1..]);
    }
  }

  /** Two different strings are ordered one way or the other. */
  lemma {:induction false} LexLessTotal(a: string, b: string)
    requires a != b
    ensures LexLess(a, b) || LexLess(b, a)
    decreases |a|
  {
    if |a| > 0 && |b| > 0 && a[0] == b[0] {
      assert a == [a[0]] + a[1..] && b == [b[0]] + b[1..];
      LexLessTotal(a[1..], b[1..]);
    }
  }

  lemma {:induction false} LexLessAsymmetric(a: string, b: string)
    requires LexLess(a, b)
    ensures !LexLess(b, a)
  {
    if LexLess(b, a) {
      LexLessTransitive(a, b, a);
      LexLessIrreflexive(a);
    }
  }

  /** On strings that agree on a prefix of equal length, `<` is decided by
      the prefixes first and the remainders second. */
  lemma {:induction false} LexLessAppend(a: string, x: string, c: string, y: string)
    requires |a| == |c|
    ensures LexLess(a + x, c + y) <==> LexLess(a, c) || (a == c && LexLess(x, y))
    decreases |a|
  {
    if |a| > 0 {
      assert (a + x)[1..] == a[1..] + x;
      assert (c + y)[1..] == c[1..] + y;
      LexLessAppend(a[1..], x, c[1..], y);
      if a[0] == c[0] && a[1..] == c[1..] {
        assert a == [a[0]] + a[1..] && c == [c[0]] + c[1..];
      }
    } else {
      assert a + x == x && c + y == y;
    }
  }

  // ---------------------------------------------------------------------
  // Numerals of equal length compare like their values
  // ---------------------------------------------------------------------

  function Pow10(k: nat): (p: nat)
    ensures p >= 1
  {
    if k == 0 then 1 else 10 * Pow10(k - 1)
  }

  lemma {:induction false} DigitsValueBound(s: string)
    requires AllDigits(s)
    ensures DigitsValue(s) < Pow10(|s|)
    decreases |s|
  {
    if s != [] {
      DigitsValueBound(s[..|s| - 1]);
    }
  }

  /** The value of a numeral seen from its most significant digit. */
  lemma {:induction false} DigitsValueFront(s: string)
    requires AllDigits(s) && |s| >= 1
    ensures DigitsValue(s) == DigitOf(s[0]) * Pow10(|s| - 1) + DigitsValue(s[1..])
    decreases |s|
  {
    if |s| > 1 {
      var init := s[..|s| - 1];
      DigitsValueFront(init);
      var tail := s[1..];
      TailOfInit(s);
      var d, p, rest, last := DigitOf(s[0]), Pow10(|s| - 2), DigitsValue(init[1..]), DigitOf(s[|s| - 1]);
      assert DigitsValue(s) == DigitsValue(init) * 10 + last;
      assert DigitsValue(init) == d * p + rest;
      assert DigitsValue(tail) == rest * 10 + last;
      ShiftDigit(d, p, Pow10(|s| - 1), rest, last);
    } else {
      assert s[1..] == [];
    }
  }

  /** Dropping the first and the last element commute. */
  lemma TailOfInit<T>(s: seq<T>)
    requires |s| > 1
    ensures s[1..][..|s| - 2] == s[..|s| - 1][1..]
    ensures s[1..][|s| - 2] == s[|s| - 1]
  {
  }

  /** Appending a digit multiplies the leading part by ten. */
  lemma ShiftDigit(d: nat, p: nat, q: nat, rest: nat, last: nat)
    requires q == 10 * p
    ensures (d * p + rest) * 10 + last == d * q + (rest * 10 + last)
  {
  }

  lemma MulMonotone(x: nat, y: nat, p: nat)
    requires x <= y
    ensures x * p <= y * p
  {
  }

  /** A leading digit that is smaller wins whatever the remaining digits are. */
  lemma LeadingDigitDecides(da: nat, db: nat, ra: nat, rb: nat, p: nat)
    requires da < db && ra < p
    ensures da * p + ra < db * p + rb
  {
    MulMonotone(da + 1, db, p);
    assert (da + 1) * p == da * p + p;
  }

  /** For numerals of the same length, `<` on the strings is `<` on the
      numbers they denote. */
  lemma {:induction false} LexLessDigits(a: string, b: string)
    requires AllDigits(a) && AllDigits(b) && |a| == |b|
    ensures LexLess(a, b) <==> DigitsValue(a) < DigitsValue(b)
    decreases |a|
  {
    if |a| > 0 {
      var p := Pow10(|a| - 1);
      DigitsValueFront(a);
      DigitsValueFront(b);
      DigitsValueBound(a[1..]);
      DigitsValueBound(b[1..]);
      var da, db := DigitOf(a[0]), DigitOf(b[0]);
      if a[0] < b[0] {
        LeadingDigitDecides(da, db, DigitsValue(a[1..]), DigitsValue(b[1..]), p);
      } else if a[0] > b[0] {
        LeadingDigitDecides(db, da, DigitsValue(b[1..]), DigitsValue(a[1..]), p);
      } else {
        LexLessDigits(a[1..], b[1..]);
      }
    }
  }
}
